=== FILE: README.md ===
# pymterm core in Dafny

A model of the core of pymterm, a terminal emulator written in Python, with proofs of
its properties. Three pieces are modelled:

* **The control-sequence dispatch engine** of `Terminal` (`Engine`, `Terminal`).
  `__try_parse__` walks each chunk of bytes through a capability state graph, one byte
  at a time. `__handle_cap__` resolves a finished sequence into a capability, or
  parks a false start on a backtrack stack. The graph is built from a terminfo-style
  capability file. It is abstract here: a start state, a `handle` function (successor
  state and parameter list) and a `get_cap` function. The engine is a pure step
  function. It returns the events it produces, print or dispatch, and `Terminal`
  applies them to the screen in order.
* **The screen model** of `TerminalGUI` (`Grid`, `Screen`, `Cursor`, `Scrolling`,
  `Erase`, `Printing`, `Reports`, `Attributes`). The screen is an immutable record:
  * the line buffer and the scrollback;
  * the cursor and the scroll region;
  * the current attribute and the alternate-screen save slot;
  * the history view.

  Each handler is a function or method from screen to screen. Python's list slices,
  negative indices and integer division are written out (`Slices.Slice`,
  `Slices.PyIndex`, Euclidean `/` on non-negative operands only).
* **Palette parsing** of `tango.py` (`Tango`).

The unshown `term` package is modelled minimally in `Grid`:
* a line is a sequence of cells;
* `alloc_cells(n)` grows a line with blank cells;
* `Cell.reset()` yields the blank cell: NUL, default attribute, not wide.

Errors the source raises are `None` results:
* an `IndexError` on a missing parameter;
* an `AttributeError` in `exit_ca_mode` before any `enter_ca_mode`;
* the `SystemExit` that `sys.exit` raises on ESC in the print paths;
* the `NameError` on an unknown colour index: the error message formats `mode`, a
  name `determin_colors` does not bind, before `sys.exit` is reached.

The widget's `on_data` catches the first three and goes on with the next chunk; the
model does not follow it past a failure (see "## Left out").  `determin_colors` runs
when the widget draws, outside `on_data`, so nothing there catches the fourth.

pymterm is Python 2 code, so `/` on two integers is floor division. The tab stop
`(col / width + 1) * width` is read that way (`Cursor.Tab`); under Python 3 it would
be a float.

The handlers are modelled as the code is written, and the dispatcher runs them as
written. Where the code is evidently wrong, a corrected version is proved alongside
it (see "## Findings"). Some behaviour of the code that is easy to miss:
* On a false start the parked prefix is not re-printed. It stays on the backtrack
  stack, and only the byte that broke the sequence is printed (`Engine.DemoFalseStart`).
* Under CURSOR, `determin_colors` sets the foreground to the background as it was
  before the cursor colour is painted. The foreground is not kept.
* `parm_delete_line` and `parm_insert_line` test only `row <= end`. A cursor above
  the scroll region still deletes or inserts from its own row.
* `exit_ca_mode` before any `enter_ca_mode` fails, because the saved fields do not
  exist yet.
* `exit_ca_mode` puts back the saved objects themselves, so afterwards the slot and
  the screen share one attribute. A second exit then restores nothing of it
  (`Screen.BoldSurvivesSecondExit`).

## Model

| member | source | states |
|---|---|---|
| Engine.Marker | pymterm/term/terminal.py:110-118 | the control-data entry for a byte never contains a raw ESC: ESC is logged as backslash-E, any other byte as itself |
| Engine.HandleCap | pymterm/term/terminal.py:62-95 | a resolved cap is dispatched with the params and log it resolved. Then the engine either resets to the start state with empty params and log, or resumes exactly the popped frame with the stack one shorter. An unknown sequence (check on, log non-empty) is pushed with the params the start-state probe left, and the engine resets. Otherwise nothing changes |
| Engine.HandleCapAccounts | pymterm/term/terminal.py:62-95 | resolution moves log entries between the parser and the dispatched events without creating or losing any |
| Engine.HandleCapKeepsEscFree | pymterm/term/terminal.py:62-95 | pushing and popping frames never brings a raw ESC into any log |
| Engine.Step | pymterm/term/terminal.py:100-118 | each byte either goes to the print path, as itself and once, or becomes the newest control-data entry; at most one capability is dispatched per byte |
| Engine.StepAccounts | pymterm/term/terminal.py:100-118 | per byte, the printed bytes plus the log entries dispatched or held grow by exactly one |
| Engine.AcceptKeepsEscFree | pymterm/term/terminal.py:110-118 | logging a byte keeps every log free of raw ESC |
| Engine.StepKeepsEscFree | pymterm/term/terminal.py:100-118 | a whole loop iteration keeps every log, current and parked, free of raw ESC |
| Engine.RunConcat | pymterm/term/terminal.py:100-118 | a per-byte loop over `a + b` is the loop over `a` followed by the loop over `b`, events concatenated |
| Engine.FeedLoop | pymterm/term/terminal.py:100-118 | the `for c in data` loop: nothing for an empty chunk, otherwise one iteration on the first byte followed by the loop over the rest, events in order |
| Engine.FeedLoopAccounts | pymterm/term/terminal.py:100-118 | over a chunk no byte is lost or duplicated, at most one print and one dispatch per byte, and raw ESC never enters a log |
| Engine.TryParse | pymterm/term/terminal.py:97-121 | `__try_parse__` accounts for every byte of the chunk, prints at most the chunk's bytes, and keeps the logs ESC-free |
| Engine.FeedLoopConcat | pymterm/term/terminal.py:100-118 | the per-byte loop alone, without the end-of-chunk resolution: feeding a chunk's bytes in two parts gives the same parser and events as feeding them whole |
| Engine.TryParseStraddle | pymterm/term/terminal.py:92-121 | two `__try_parse__` calls on `a` and `b` equal one call on `a + b` when no capability resolves where `a` ends: the end-of-chunk resolution then keeps the unfinished sequence |
| Engine.EndOfChunkKeepsUnfinished | pymterm/term/terminal.py:92-121 | when no capability resolves at the end of a chunk, `__try_parse__` leaves exactly what the byte loop left: the unfinished sequence is kept with its state, parameters, log and stack, and nothing more is emitted |
| Engine.DemoSteps | pymterm/term/terminal.py:100-118 | on a three-state graph for `ESC [ H`: the bytes are logged one by one, and a stray byte after ESC parks the ESC frame and is printed |
| Engine.DemoCursorHome | pymterm/term/terminal.py:97-121 | `ESC [ H` dispatches cursor_home with log `\E`, `[`, `H`, and the engine resets |
| Engine.DemoFalseStart | pymterm/term/terminal.py:97-121 | `ESC x` prints `x` and leaves the ESC prefix parked on the backtrack stack |
| Terminal.FlagOr | pymterm/term/terminal.py:126-142 | a numeric capability flag wins when present, the default otherwise |
| Terminal.GetCols | pymterm/term/terminal.py:126-130 | the `columns` flag when the description has it, 80 otherwise |
| Terminal.GetRows | pymterm/term/terminal.py:132-136 | the `lines` flag when the description has it, 24 otherwise |
| Terminal.GetTabWidth | pymterm/term/terminal.py:138-142 | the `init_tabs` flag when the description has it, 8 otherwise |
| Terminal.DimensionDefaults | pymterm/term/terminal.py:126-142 | without the flags, columns, rows and tab width are 80, 24 and 8; with them, the flag values |
| Terminal.AppendStatus | pymterm/term/terminal_gui.py:185-190 | ESC fails; any other byte is appended to the status line and nothing else changes |
| Terminal.OutputData | pymterm/term/terminal.py:56-60 | in status-line mode the byte goes to the status line and the screen is untouched. Otherwise it goes through `save_buffer` as written: a glyph that fits reads back at the cursor; one that wraps lands narrow on column 0 of the next row, cursor on column 1. ESC fails on both paths |
| Terminal.EnterStatusLine | pymterm/term/terminal_gui.py:845-854 | entering clears the status line and records the mode. Leaving sends the status line, if non-empty, under the leaving mode, and does not clear it |
| Terminal.AppendAllAppends | pymterm/term/terminal_gui.py:185-190 | ESC-free bytes land in the status line in order |
| Terminal.StatusLineRoundTrip | pymterm/term/terminal_gui.py:845-854 | enter, print a non-empty text, leave: exactly that text is handed to the session |
| Terminal.OnControlData | pymterm/term/terminal.py:46-55 | the name picks the handler, which runs on the parameters less one each when `increase_params` is set. A name without a handler enters or leaves the status line when it is a status-line capability and changes nothing otherwise. A handler fails exactly when it raises: a missing parameter, nothing saved, or `parm_up_cursor` leaving the buffer. Each handled name's screen is its own handler's result, the as-written `parm_right_cursor` and `parm_up_cursor` included. Of the dispatched handlers only user7 sends, and only its reply |
| Terminal.ApplyEvent | pymterm/term/terminal.py:46-60 | a print goes to `output_data` and a resolved capability to `on_control_data`; an event fails exactly on a printed ESC or a handler that raises, and a printed byte sends nothing and keeps the status-line mode |
| Terminal.CursorAddressOneBased | pymterm/term/terminal.py:46-55 | `ESC [ 2 ; 5 H` through a one-based `cursor_address` puts the cursor on column 4 of screen row 1 |
| Terminal.ParmRightDispatchOverruns | pymterm/term/terminal.py:46-55 | dispatched, `parm_right_cursor(10)` from column 70 of 80 leaves the cursor on column 80 |
| Terminal.ApplyEvents | pymterm/term/terminal.py:97-121 | the events of a chunk in order, stopping at the first failure. In status-line mode a chunk of plain bytes only extends the status line, by exactly those bytes. Nothing is sent without a dispatch, and only status-line capabilities switch the status line |
| Terminal.ApplyEventsConcat | pymterm/term/terminal.py:97-121 | applying two runs of events one after the other is applying them joined |
| Terminal.OnData | pymterm/term/terminal.py:43-44 | every byte that arrived is in an event or still held by the parser, which therefore holds at most the bytes held before plus those that arrived; a parser without raw ESC in its logs stays so; in status-line mode plain text lands in the status line |
| Terminal.OnDataStraddle | pymterm/term/terminal.py:43-44 | a sequence split across two chunks, with nothing resolved at the split, leaves the same parser and terminal as the joined chunk; when the first chunk fails, the joined chunk fails too and the parser is the same |
| Screen.Offset | pymterm/term/terminal_gui.py:203-207 | the number of buffer lines above the visible screen: 0 until the buffer outgrows the screen, then the excess |
| Screen.RowFromScreen | pymterm/term/terminal_gui.py:399-403 | a screen row is the same buffer row while the buffer fits the screen, and is shifted down by the excess lines otherwise; the row just below the screen is at or past the buffer's end |
| Screen.GetCursor | pymterm/term/terminal_gui.py:203-207 | the cursor in screen rows, which translates back to the buffer row |
| Screen.SetCursor | pymterm/term/terminal_gui.py:209-214 | only the cursor changes, and get_cursor reads the position back |
| Screen.GetThenSetCursor | pymterm/term/terminal_gui.py:203-214 | writing back the read cursor changes nothing while the cursor is on screen |
| Screen.SetCursorTwice | pymterm/term/terminal_gui.py:209-214 | of two set_cursor calls the second wins |
| Screen.GetLine | pymterm/term/terminal_gui.py:44-47 | the buffer grows with empty lines up to the row and no line changes |
| Screen.GetCurLine | pymterm/term/terminal_gui.py:49-54 | the cursor's line exists and has a cell under the cursor; no existing cell changes and no other line gains cells |
| Screen.GetCurLineIdempotent | pymterm/term/terminal_gui.py:49-54 | asking for the current line twice is asking once |
| Screen.EnterCaMode | pymterm/term/terminal_gui.py:554-560 | lines, cursor and attribute are saved; the screen starts empty, home, default attribute; scrollback and region stay |
| Screen.ExitCaMode | pymterm/term/terminal_gui.py:562-566 | restores the saved lines and cursor and nothing else; the attribute is the one saved on entry, or the live one once an earlier exit has made the slot share it. Afterwards the slot shares the attribute; it fails before any save |
| Screen.ExitAgainKeepsAttr | pymterm/term/terminal_gui.py:562-566 | after an exit, a second exit keeps whatever attribute the screen has by then, since the slot holds the same object |
| Screen.BoldSurvivesSecondExit | pymterm/term/terminal_gui.py:554-566 | enter, exit, `set_attributes(1 << 1, -2, -2)`, exit: the attribute is still bold although the one saved on entry was not |
| Screen.CaModeRoundTrip | pymterm/term/terminal_gui.py:554-566 | entering then leaving the alternate screen restores the primary screen exactly; the slot keeps it and now shares its attribute |
| Cursor.CursorRight | pymterm/term/terminal_gui.py:219-227 | only the column changes, by one, never past `cols-1` |
| Cursor.CursorLeft | pymterm/term/terminal_gui.py:229-236 | only the column changes, by one, never below 0 |
| Cursor.CursorLeftUndoesRight | pymterm/term/terminal_gui.py:219-236 | away from the right edge a step left undoes a step right |
| Cursor.CursorRightUndoesLeft | pymterm/term/terminal_gui.py:219-236 | away from the left edge a step right undoes a step left |
| Cursor.CursorRightNClamps | pymterm/term/terminal_gui.py:219-227 | `k` steps right stop at the last column |
| Cursor.CursorLeftNClamps | pymterm/term/terminal_gui.py:229-236 | `k` steps left stop at column 0 |
| Cursor.ParmRightCursorAsWritten | pymterm/term/terminal_gui.py:428-432 | the source's clamp fires only past `cols`, so landing on `cols` itself is kept |
| Cursor.ParmRightCursorAsWrittenOverruns | pymterm/term/terminal_gui.py:428-432 | 10 right from column 70 of 80 leaves the cursor on column 80 |
| Cursor.ParmRightCursor | pymterm/term/terminal_gui.py:428-432 | corrected: the column moves by the parameter (1 if not positive) and stops at `cols-1` |
| Cursor.ParmRightIsRepeatedRight | pymterm/term/terminal_gui.py:428-432 | corrected, the move equals that many cursor_right steps |
| Cursor.ParmLeftCursor | pymterm/term/terminal_gui.py:434-438 | the column moves left by the parameter (1 if not positive) and stops at 0 |
| Cursor.ParmLeftIsRepeatedLeft | pymterm/term/terminal_gui.py:434-438 | the move equals that many cursor_left steps |
| Cursor.NextStopIsNext | pymterm/term/terminal_gui.py:450-452 | `(col / w + 1) * w` is a multiple of `w`, right of the cursor by at most `w`, with no multiple in between |
| Cursor.Tab | pymterm/term/terminal_gui.py:450-458 | the cursor moves to the next tab stop strictly right of it, or to the last column, and never past it |
| Cursor.TabClampsIff | pymterm/term/terminal_gui.py:450-458 | the tab lands on the last column exactly when no stop lies between the cursor and the edge |
| Scrolling.SetScrollRegion | pymterm/term/terminal_gui.py:487-495 | the region is stored in buffer rows, both bound lines exist, existing lines are kept, new ones are empty |
| Scrolling.SetScrollRegionScreenRows | pymterm/term/terminal_gui.py:487-495 | bounds on the screen come back as the same screen rows: reserving does not move the window |
| Scrolling.GetScrollRegion | pymterm/term/terminal_gui.py:479-485 | a set region is returned unchanged; an unset one becomes the whole screen |
| Scrolling.ChangeScrollRegion | pymterm/term/terminal_gui.py:497-504 | no parameters clear the region, two set it; nothing but lines and region changes |
| Scrolling.ChangeScrollRegionFromStart | pymterm/term/terminal_gui.py:506-510 | the region runs from the top screen row to the given row |
| Scrolling.ChangeScrollRegionToEnd | pymterm/term/terminal_gui.py:512-516 | the region runs from the given row to the bottom screen row |
| Scrolling.ClearedRegionDefaultsToScreen | pymterm/term/terminal_gui.py:479-504 | clearing the region and asking for it gives the whole screen |
| Scrolling.ScrollUp | pymterm/term/terminal_gui.py:473-475 | reference shape of a region scrolled up by `k`: rows outside the region are kept |
| Scrolling.ScrollDown | pymterm/term/terminal_gui.py:528-530 | reference shape of a region scrolled down by `k`: rows outside the region are kept |
| Scrolling.ScrollUpStep | pymterm/term/terminal_gui.py:473-475 | one more line of scrolling up adds one to `k`, saturating at the region's height |
| Scrolling.ScrollDownStep | pymterm/term/terminal_gui.py:528-530 | one more line of scrolling down adds one to `k`, saturating at the region's height |
| Scrolling.DeleteLineSlices | pymterm/term/terminal_gui.py:475 | the slice expression equals the region `[row, end]` scrolled up by one |
| Scrolling.InsertLineSlices | pymterm/term/terminal_gui.py:530 | the slice expression equals the region `[row, end]` scrolled down by one |
| Scrolling.DeleteLineAt | pymterm/term/terminal_gui.py:475 | removing a line inside the region is scrolling it up by one |
| Scrolling.InsertLineAt | pymterm/term/terminal_gui.py:530 | opening a line inside the region is scrolling it down by one |
| Scrolling.ScrollDownThenUp | pymterm/term/terminal_gui.py:466-532 | scrolling down then up restores the lines but for a blank at the bottom |
| Scrolling.ScrollUpThenDown | pymterm/term/terminal_gui.py:466-532 | scrolling up then down restores the lines but for a blank at the top |
| Scrolling.DeleteAfterInsert | pymterm/term/terminal_gui.py:466-532 | insert then delete at the same row gives back the lines, with the line pushed out blank |
| Scrolling.InsertAfterDelete | pymterm/term/terminal_gui.py:466-532 | delete then insert at the same row gives back the lines, with the deleted line blank |
| Scrolling.Count | pymterm/term/terminal_gui.py:471 | the repeat count: the first parameter, 1 without one, and nothing for a negative one |
| Scrolling.DeleteLines | pymterm/term/terminal_gui.py:471-475 | `n` deletions scroll the region up by `n`, or blank it when `n` exceeds its height |
| Scrolling.InsertLines | pymterm/term/terminal_gui.py:526-530 | `n` insertions scroll the region down by `n`, or blank it when `n` exceeds its height |
| Scrolling.ParmDeleteLine | pymterm/term/terminal_gui.py:466-477 | only the lines change: rows `[row, end]` scroll up by the count, the length and the rows outside are kept, and a cursor below the region changes nothing |
| Scrolling.ParmInsertLine | pymterm/term/terminal_gui.py:521-532 | only the lines change: rows `[row, end]` scroll down by the count, the length and the rows outside are kept, and a cursor below the region changes nothing |
| Scrolling.DownStep | pymterm/term/terminal_gui.py:609-619 | on the region's bottom row the region scrolls up and the dropped line goes to the scrollback iff the region starts at row 0. Elsewhere the row increments and no line but the new cursor line changes |
| Scrolling.DownAway | pymterm/term/terminal_gui.py:616-619 | away from the bottom row only the row and the new cursor line change |
| Scrolling.DownAtBottom | pymterm/term/terminal_gui.py:612-615 | on the bottom row only lines and scrollback change; the scrollback gains `lines[0]` iff `begin == 0` |
| Scrolling.DownAtBottomLines | pymterm/term/terminal_gui.py:612-619 | on the bottom row the region scrolls up by one, with a blank cursor line at its foot |
| Scrolling.ScrollThenFill | pymterm/term/terminal_gui.py:612-619 | after the scroll the cursor's new line is allocated as blanks |
| Scrolling.DownLoop | pymterm/term/terminal_gui.py:602-623 | `n` iterations: the row advances by `n`, stopping on the region's bottom when it starts at or above it. The scrollback gains one line per step on the bottom of a region starting at row 0, and no other step touches it |
| Scrolling.DownLoopScrolls | pymterm/term/terminal_gui.py:609-619 | from a row at or above the bottom, the region scrolls up once per step taken on its bottom row, rows outside it stay, and the scrolled-off top lines go to the scrollback in order |
| Scrolling.ParmDownCursor | pymterm/term/terminal_gui.py:602-623 | the row advances by the count, stopping at the region's bottom. The scrollback only grows, by one line per step taken on the bottom of a region that starts at row 0, and is untouched otherwise. Nothing but lines, scrollback and row changes |
| Scrolling.ParmDownCursorScrolls | pymterm/term/terminal_gui.py:609-619 | the lines become the region scrolled up once per step on its bottom row, and the scrollback gains exactly the region's successive top lines, in order |
| Scrolling.ScrollUpWholeBuffer | pymterm/term/terminal_gui.py:612-615 | when the region is the whole buffer, a scroll drops the top line and appends the new one |
| Scrolling.FullScreenRegion | pymterm/term/terminal_gui.py:602-615 | on a full screen with the default region, the region is the whole buffer and the cursor is on its bottom row |
| Scrolling.UpRowAsWritten | pymterm/term/terminal_gui.py:760-763 | as written the row decreases anywhere but the region's top, even from row 0 |
| Scrolling.UpRow | pymterm/term/terminal_gui.py:760-763 | corrected: the row stays on the region's top and at row 0, and decreases by one elsewhere |
| Scrolling.UpStep | pymterm/term/terminal_gui.py:757-765 | corrected: the row moves to `UpRow`; nothing but lines and row changes, so the scrollback is never touched |
| Scrolling.UpStepTopLines | pymterm/term/terminal_gui.py:760-765 | corrected, on the region's top: the region scrolls down by one and the cursor's line opens blank |
| Scrolling.UpStepAwayLines | pymterm/term/terminal_gui.py:762-765 | corrected, off the top: only the line the cursor moves to changes, and it only gains cells |
| Scrolling.UpAtTop | pymterm/term/terminal_gui.py:760-765 | on the top row only the lines change, and they are the region scrolled down with a blank cursor line |
| Scrolling.UpAway | pymterm/term/terminal_gui.py:762-765 | corrected, away from the top only the row and the new cursor line change |
| Scrolling.OpenThenFill | pymterm/term/terminal_gui.py:760-765 | after the scroll the cursor's new line is allocated as blanks |
| Scrolling.UpLoop | pymterm/term/terminal_gui.py:757-765 | corrected, `n` iterations: the cursor climbs to the region's top, or to row 0 above it, and stays there |
| Scrolling.ParmUpCursor | pymterm/term/terminal_gui.py:750-768 | corrected: the row decreases by the count, stopping at the region's top (or 0 above it); the scrollback is untouched |
| Scrolling.CurLineAt | pymterm/term/terminal_gui.py:44-54 | `get_cur_line` on any integer row, as Python indexes: it raises exactly when a negative row reaches past the buffer's start; otherwise one line, the negative index's, gains cells |
| Scrolling.CurLineAtAgrees | pymterm/term/terminal_gui.py:44-54 | on the screen's own row it is `get_cur_line` |
| Scrolling.UpStepAsWritten | pymterm/term/terminal_gui.py:757-765 | as written, one iteration moves to `UpRowAsWritten`; from a row on the screen it never raises, from a negative row it raises exactly when the next row leaves the buffer |
| Scrolling.UpLoopAsWritten | pymterm/term/terminal_gui.py:757-765 | as written, at or below the region's top the cursor climbs to the top; above it every iteration moves up one row, past row 0 when asked |
| Scrolling.ParmUpCursorAsWritten | pymterm/term/terminal_gui.py:750-768 | as written: at or below the region's top the row stops on the top; above it the row falls by the count, and the call fails exactly when the count exceeds the row |
| Scrolling.UpStepAsWrittenAgrees | pymterm/term/terminal_gui.py:757-765 | on the region's top, or off it away from row 0, one as-written iteration is the corrected one |
| Scrolling.UpLoopAsWrittenAgrees | pymterm/term/terminal_gui.py:757-765 | wherever the cursor stays on screen, the as-written loop is the corrected loop |
| Scrolling.ParmUpCursorAsWrittenAgrees | pymterm/term/terminal_gui.py:750-768 | at or below the region's top, or with a count no larger than the row, the source's result is the corrected one |
| Scrolling.UpStepAsWrittenWrapsAround | pymterm/term/terminal_gui.py:757-765 | above a region starting at row 2, a step up from row 0 of three lines goes to row -1 and allocates the last line, where the corrected row stays 0 |
| Slices.Slice | pymterm/term/terminal_gui.py:475 | Python's `s[i:j]`: bounds clamp to the length, and an end before the start gives nothing |
| Slices.PyIndex | pymterm/term/terminal_gui.py:44-47 | Python's index: a non-negative index is itself, a negative one counts from the end, and either lands inside the list |
| Erase.ClrLine | pymterm/term/terminal_gui.py:259-265 | every cell of the cursor's line is reset, its length is kept, and no other line changes |
| Erase.EolStart | pymterm/term/terminal_gui.py:270-272 | the erase starts at the cursor, or one cell left when the cursor is on a NUL cell |
| Erase.ClrEol | pymterm/term/terminal_gui.py:267-277 | cells from the cursor on are blank, and the one left of it too when the cursor is on a NUL half. Cells before the start and other lines are kept |
| Erase.BolEnd | pymterm/term/terminal_gui.py:282-284 | the erase ends at the cursor, or one cell right when that cell is NUL |
| Erase.ClrBol | pymterm/term/terminal_gui.py:279-289 | cells up to the cursor, and the NUL half right of it when there is one, are blank; later cells and other lines are kept |
| Erase.BolAfterEolBlanks | pymterm/term/terminal_gui.py:279-289 | on a line blank from the cursor on, clr_bol blanks the whole line |
| Erase.ClrEolThenBolIsClrLine | pymterm/term/terminal_gui.py:259-289 | clr_eol followed by clr_bol is clr_line |
| Erase.ClrEolAtColumnZero | pymterm/term/terminal_gui.py:267-277 | at column 0 clr_eol is clr_line |
| Erase.ResetRows | pymterm/term/terminal_gui.py:420-424 | rows in `[begin, end)` are reset, growing the buffer to reach them; other rows are kept |
| Erase.ScreenTop | pymterm/term/terminal_gui.py:408 | the buffer row of screen row 0 |
| Erase.ScreenBottom | pymterm/term/terminal_gui.py:409 | the buffer row of screen row `rows`, at or past the buffer's end |
| Erase.EraseBelow | pymterm/term/terminal_gui.py:411-424 | mode 0: the cursor line is cleared to its end, every screen row below is blank, rows above are kept |
| Erase.EraseAbove | pymterm/term/terminal_gui.py:415-424 | mode 1: the cursor line is cleared to the cursor, the screen rows above are blank, rows below are kept |
| Erase.EraseScreen | pymterm/term/terminal_gui.py:405-424 | other modes: every screen row is blank, the rows above the screen are kept |
| Erase.ClrEos | pymterm/term/terminal_gui.py:405-426 | no parameter or 0 erases below, 1 above, anything else the whole screen |
| Erase.ClrEosFromHomeIsWholeScreen | pymterm/term/terminal_gui.py:405-426 | from the home position, erasing below is erasing the whole screen |
| Erase.DeleteLoop | pymterm/term/terminal_gui.py:300-304 | the copy/reset loop keeps the line's length |
| Erase.DeleteCharsLine | pymterm/term/terminal_gui.py:291-306 | delete_chars on one line keeps the line's cell count |
| Erase.Deleted | pymterm/term/terminal_gui.py:298-304 | reference result of deleting `count` cells at `begin`: a cell-wise description |
| Erase.DeletedCutsOut | pymterm/term/terminal_gui.py:298-304 | without overwrite: the cells before `begin`, then the cells after the deleted ones, then `count` blanks |
| Erase.DeletedOverwrites | pymterm/term/terminal_gui.py:298-304 | with overwrite: `count` cells at `begin` become blanks in place |
| Erase.DeleteLoopBuilds | pymterm/term/terminal_gui.py:300-304 | the loop, run from a non-negative start, builds the reference result |
| Erase.DeleteCharsLineIsDeleted | pymterm/term/terminal_gui.py:291-306 | from a non-negative start delete_chars equals the reference result |
| Erase.DeleteStartAsWritten | pymterm/term/terminal_gui.py:293-296 | as written the start steps back on any NUL cell, to -1 at column 0 |
| Erase.DeleteCharsAsWritten | pymterm/term/terminal_gui.py:291-306 | as written, only the cursor's line changes, by the loop from the as-written start |
| Erase.DeleteCharsAsWrittenLosesCell | pymterm/term/terminal_gui.py:293-304 | on `[NUL, a, b, c]` at column 0 the source yields `[a, b, NUL, NUL]` where deleting one cell gives `[a, b, c, NUL]` |
| Erase.DeleteStart | pymterm/term/terminal_gui.py:293-296 | corrected: the start steps back one cell exactly when the cursor is on a NUL half with a cell to its left |
| Erase.DeleteChars | pymterm/term/terminal_gui.py:291-306 | only the cursor's line changes and it becomes the reference result from the corrected start |
| Erase.DeleteCharsAgreesAwayFromZero | pymterm/term/terminal_gui.py:291-306 | away from column 0 the source and the corrected version agree |
| Erase.DeleteNothing | pymterm/term/terminal_gui.py:291-306 | deleting zero cells only allocates the cursor's line |
| Printing.Unit | pymterm/term/terminal_gui.py:92-93 | a wide character is followed by a NUL continuation, a narrow one stands alone |
| Printing.SaveCells | pymterm/term/terminal_gui.py:122-147 | the unit's first character is under the cursor with the current attribute, flagged wide for two characters. The second character is in the next cell. The cursor advances by the unit's length and no other cell or line changes |
| Printing.SaveCellsReadsBack | pymterm/term/terminal_gui.py:134-147 | the saved glyph reads back at the old cursor, with its NUL continuation when wide |
| Printing.SaveCellsSideBySide | pymterm/term/terminal_gui.py:134-147 | two narrow characters printed in a row sit side by side |
| Printing.SaveEach | pymterm/term/terminal_gui.py:61-64 | saving characters one by one changes only the lines and the cursor's column: the row, the attribute, the scrollback and the region stay |
| Printing.SaveEachNuls | pymterm/term/terminal_gui.py:61-64 | NULs alone save nothing |
| Printing.SaveEachFirst | pymterm/term/terminal_gui.py:61-64 | a character followed only by NULs saves as that character alone |
| Printing.SaveEachUnit | pymterm/term/terminal_gui.py:61-64 | both shapes of a printed unit: a character with NULs saves the character, NULs save nothing |
| Printing.SaveEachDropsContinuation | pymterm/term/terminal_gui.py:56-64 | re-saving a wide unit character by character gives one narrow cell and one column, where saving the unit gives a wide cell and two |
| Printing.WrapLineAsWritten | pymterm/term/terminal_gui.py:56-67 | as written, the wrap moves down a row as `cursor_down` does; only the lines, the scrollback, the region and the cursor change, and the scrollback only grows. A character followed by NULs, such as a wide unit, lands as one narrow cell on column 0 with the cursor on column 1; NULs alone only move down |
| Printing.WrapLine | pymterm/term/terminal_gui.py:56-67 | corrected: the whole unit lands at column 0 of the next row, wide flag and continuation intact, and the scrollback only grows |
| Printing.SaveBufferAsWritten | pymterm/term/terminal_gui.py:114-119 | as written: a unit that fits is saved at the cursor and reads back there. One that does not fit lands narrow at column 0 of the next row, or of the same row on the region's bottom, with the cursor on column 1 |
| Printing.SaveBufferAsWrittenFrame | pymterm/term/terminal_gui.py:114-119 | only the lines, scrollback, scroll region and cursor change; when the unit fits, every other line and every cell outside the unit is as `get_cur_line` left it, and the scrollback is untouched |
| Printing.SaveBuffer | pymterm/term/terminal_gui.py:114-119 | corrected: a unit that fits is saved at the cursor and reads back there. One that does not fit lands whole, wide flag and continuation intact, at column 0 of the next row, or of the same row after scrolling on the region's bottom |
| Printing.SaveBufferAsWrittenAgrees | pymterm/term/terminal_gui.py:114-119 | the source's print path and the corrected one differ only on a wide glyph that must wrap |
| Reports.Digits | pymterm/term/terminal_gui.py:446 | `str(n)`: decimal digits without a leading zero |
| Reports.DigitsRoundTrip | pymterm/term/terminal_gui.py:446 | reading the digits back gives the number |
| Reports.IntToString | pymterm/term/terminal_gui.py:446 | `str(i)` for any integer, a minus sign for negatives |
| Reports.User7 | pymterm/term/terminal_gui.py:443-448 | 6 replies with the one-based cursor position (CPR), 5 with "ready" (DSR reply), anything else sends nothing, and no parameter fails |
| Reports.CursorReportParses | pymterm/term/terminal_gui.py:446 | a cursor position report parses back to its line and column |
| Reports.CursorReportReadsBack | pymterm/term/terminal_gui.py:443-448 | a host reads back the one-based cursor position that user7 reports |
| Reports.HistoryText | pymterm/term/terminal_gui.py:157-158 | the scrollback followed by the buffer |
| Reports.ViewHistoryAsWritten | pymterm/term/terminal_gui.py:770-790 | as written: no change when everything fits or when paging down outside the history view; otherwise the view start lies in `[0, total]` |
| Reports.ViewHistoryAsWrittenPagesPastEnd | pymterm/term/terminal_gui.py:785-788 | on 24 rows with 48 lines of text, paging down from line 24 moves the view to 48, which shows nothing |
| Reports.Clamp | pymterm/term/terminal_gui.py:785-788 | corrected clamp: the start lies in `[0, total-rows]` and an in-range start is kept |
| Reports.ViewHistory | pymterm/term/terminal_gui.py:770-790 | corrected: the view always shows a full page of `rows` lines |
| Reports.PageUpThenDown | pymterm/term/terminal_gui.py:778-779 | page up then page down returns to the same view when the first move was not clamped |
| Reports.PageDownThenUp | pymterm/term/terminal_gui.py:778-779 | page down then page up returns to the same view when the first move was not clamped |
| Reports.PageDownStopsAtLastPage | pymterm/term/terminal_gui.py:785-788 | paging down near the end stops on the last full page |
| Attributes.SetModes | pymterm/term/terminal_gui.py:349-362 | a positive mode turns BOLD, DIM and REVERSE on by bits 1, 2 and 7 and off by bits 21/22 and 27; 0 clears all flags; a negative mode keeps them |
| Attributes.SetAttributes | pymterm/term/terminal_gui.py:343-387 | each colour argument sets its channel when at least 0, resets it at -1, and leaves it otherwise; the mode acts on the flags only |
| Attributes.SetAttributesAxesIndependent | pymterm/term/terminal_gui.py:343-387 | one call equals three calls that each touch one axis |
| Attributes.SetAttributesIdempotent | pymterm/term/terminal_gui.py:343-387 | repeating a call changes nothing more |
| Attributes.ResetIsDefault | pymterm/term/terminal_gui.py:361-384 | `set_attributes(0, -1, -1)` yields the default attribute |
| Attributes.GetColor | pymterm/term/terminal_gui.py:868-872 | a table index inside the table gives its colour, outside fails |
| Attributes.TwoThirds | pymterm/term/terminal_gui.py:881-882 | two thirds truncated toward zero, between 0 and the value |
| Attributes.DimColor | pymterm/term/terminal_gui.py:881-882 | DIM scales each non-negative channel, alpha included, to two thirds rounded down |
| Attributes.BaseColor | pymterm/term/terminal_gui.py:864-881 | an index below 8 reads its bright variant under BOLD, any other index below 256 reads the table, so a found colour is a table entry. The two default indices give the configured foreground and background; any other index fails |
| Attributes.ChannelColor | pymterm/term/terminal_gui.py:864-883 | a channel resolves to its base colour, scaled by DIM when set |
| Attributes.DetermineColors | pymterm/term/terminal_gui.py:861-899 | REVERSE and SELECTION each swap the pair, so together they cancel. CURSOR puts the prior background in front and the cursor colour behind |
| Attributes.BoldSelectsBright | pymterm/term/terminal_gui.py:867-868 | under BOLD an index below 8 selects its bright variant `idx+8` |
| Attributes.ResetResolvesToDefaults | pymterm/term/terminal_gui.py:861-899 | after a full reset the colours are the configured default foreground and background |
| Attributes.ReverseSelectionCancel | pymterm/term/terminal_gui.py:888-892 | REVERSE with SELECTION draws like neither |
| Tango.HexDigit | pymterm/colour/tango.py:21-23 | a hex digit's value is below 16 |
| Tango.ParseHex | pymterm/colour/tango.py:21-23 | on the two-character slices the palette passes, `int(s, 16)` succeeds exactly on a non-empty string of hex digits, with a value below `16^len` |
| Tango.ParseTangoColor | pymterm/colour/tango.py:20-25 | on a string of plain hex characters and separators, succeeds exactly when the three two-digit slices are hex. Alpha is 0xFF and each of r, g, b lies in `[0, 255]`, read from the first two digits of its group |
| Tango.TangoRoundTrip | pymterm/colour/tango.py:20-25 | a colour written as three 16-bit hex groups parses to each group's high byte |
| Tango.ParsePairs | pymterm/colour/tango.py:20-25 | a twelve-digit string parses to its digit pairs at 0, 4 and 8 |
| Tango.TangoPalleteColors | pymterm/colour/tango.py:1-25 | every palette string parses to its listed colour |
| Tango.ConfiguredColors | pymterm/colour/tango.py:28-29 | the default foreground is `[0xee, 0xee, 0xec, 0xFF]` and the default background `[0x32, 0x32, 0x32, 0xFF]` |
| Tango.ApplyColor | pymterm/colour/tango.py:27-34 | fixes the defaults and sets the cursor colour to the foreground. Only entries below `min(16, len(table))` are overwritten and the table keeps its length |
| Tango.ApplyColorParsesPallete | pymterm/colour/tango.py:32-34 | each overwritten entry is its palette string, parsed |

## Left out

- The insert-mode print path (`save_buffer` with `insert`, terminal_gui.py lines 98-113, and the insert branches of `_save_buffer` and `wrap_line`). Its negative slice arithmetic and cursor save/restore are not modelled.
- UTF-8 reassembly in `save_buffer`, `char_width` and the charset translation. These are codecs and modules outside this model, so a printed unit is a decoded character with a given width (`Printing.Glyph`).
- `__load_cap_str__`, `read_termdata`, `parse_termdata` and `cap_manager`. The capability graph and the handler lookup are abstract (`Engine.Graph`, `Terminal.HandlerTable`, `Terminal.StatusCaps`).
- Handlers that `Terminal.OnControlData` does not dispatch: `row_address`, `column_address`, `save_cursor`/`restore_cursor`, `key_shome`, `client_report_version`, `request_background_color`, `user9`, `send_primary_device_attributes`, `screen_alignment_test`, `meta_on`, the mode, keypad and charset handlers, and cursor visibility. These names are not in `Terminal.HandlerTable`, so the model treats them as changing nothing; in the source `client_report_version`, `user9` and `send_primary_device_attributes` send replies and `screen_alignment_test` fills the screen with `E`. The cap handlers that call `set_attributes` and `delete_chars` are also outside this model, so neither call is dispatched. `Attributes.SetAttributes` models `set_attributes` itself. `delete_chars` is modelled as written by `Erase.DeleteCharsAsWritten`, with `Erase.DeleteChars` as its corrected version.
- `session.py`, the widget code, locking (`lock_display_data_exec`), `refresh_display`, logging, clipboard and selection, `process_key`, the prompts, `resize_terminal` and `get_text` outside the history view. They are I/O, concurrency or widget callbacks.
- The widget's `visible_cols`/`visible_rows` are the screen's `cols` and `rows` fields. The session's tab width is a parameter of `Terminal.OnControlData`.
- Exceptions swallowed inside `output_normal_data` are not modelled: the print path raises none in this model.
- Terminal.OnData: the widget's `on_data` (terminal_gui.py:328-335) catches every exception, `SystemExit` included. The source then keeps the screen as updated up to the failing event and the parser where the exception left it, mid-chunk, and goes on with the next chunk. The model's `None` ends the run there and does not follow it.
- Engine: events are applied after the whole chunk is parsed. In the source a handler runs in the middle of the parse, and a handler that raises aborts the rest of the chunk. Handlers never touch the parser's fields, so the screen is the same whenever no handler fails.
- Terminal.ApplyEvents: states the status-line, sent and mode facts only. The screen effect of each event is stated by `Terminal.OutputData` and by the handler members.
- Terminal.OnControlData: a negative row or column parameter counts as a handler failure. The capability graph's digit states produce no negative parameters, except a `0` under `increase_params`.
- Terminal.OnControlData: which handler each name maps to, and that `increase_params` lowers every parameter by one, are read from the handler names and the `%i` convention of terminfo, because `cap_manager` and the handler classes are not part of this model.
- Terminal.OnControlData: the status-line capabilities are a parameter (`Terminal.StatusCaps`), with the mode and direction each passes to `enter_status_line`; their handlers are not part of this model.
- Scrolling.ParmUpCursorAsWritten: `parm_up_cursor` leaving the cursor above row 0 counts as a failure (`None`, which `Terminal.OnControlData` passes on), because the screen's row is a natural number. The source keeps the negative row and goes on.
- Tango.ParseHex: Python's `int(s, 16)` also accepts a sign, surrounding whitespace, a `0x` prefix and underscores between digits; those strings are `None` here. Only the palette's constant two-digit slices reach the call, and none has such a character.
- Tango.ParseTangoColor: the iff is stated for the model's `ParseHex`, so it inherits the same gap on signed or space-padded slices.
- Printing.SaveBuffer, Printing.SaveBufferAsWritten: on the wrapping path neither states a frame for the other cells; `Scrolling.ParmDownCursorScrolls` and `Printing.SaveCells` state the two steps' frames. On the path that fits, `Printing.SaveBufferAsWrittenFrame` states the frame of the source's version; the corrected version has none.
- Screen.ExitCaMode: after an exit the slot also shares the buffer's line list and its lines. In the source, edits made in place afterwards (`reserve`, `alloc_cells`, cell writes) reach the slot, while the scrolling handlers rebind `self.lines` to a new list that still holds the same line objects. The model keeps the lines saved on entry, so a repeated exit restores those; only the shared attribute is followed.
- Printing.WrapLineAsWritten: states the cells only for the two shapes a printed unit has, a character followed by NULs and NULs alone.
- Attributes.DimColor: the source scales with floating point. Integer `(2*x)/3` agrees with it for channel values 0 to 255.
- Attributes.GetColor: `cfg.get_color` is read as a bounded lookup in a colour table, because the configuration object is outside this model.
- The default foreground and background indices of `TextAttribute` (`Attributes.DefaultFgIdx`, `Attributes.DefaultBgIdx`) are taken as 256 and 257. The `term` package that defines them is not part of this model; `Attributes.BaseColor` relies only on their being distinct and at least 256, so that they select the configured defaults rather than a table entry.

## Findings

| source | as written | input that shows it | evidently intended | confidence | as-written member | corrected member |
|---|---|---|---|---|---|---|
| pymterm/term/terminal_gui.py:428-432 | the clamp tests `col > cols`, so `col == cols` is kept | 80 columns, cursor on 70, `parm_right_cursor(10)`: column 80 (`Cursor.ParmRightCursorAsWrittenOverruns`) | clamp to `cols - 1`, like `cursor_right` | not executed | Cursor.ParmRightCursorAsWritten | Cursor.ParmRightCursor |
| pymterm/term/terminal_gui.py:56-67 | `wrap_line` re-saves a unit one character at a time and skips NUL | a wide character that does not fit: it wraps as one narrow cell and one column (`Printing.SaveEachDropsContinuation`) | save the unit whole, keeping the wide flag and the NUL continuation | not executed | Printing.SaveBufferAsWritten | Printing.SaveBuffer |
| pymterm/term/terminal_gui.py:293-304 | on a NUL cell the start steps back even at column 0, to -1, which Python reads as the last cell | `[NUL, a, b, c]`, column 0, delete 1: `[a, b, NUL, NUL]` instead of `[a, b, c, NUL]` (`Erase.DeleteCharsAsWrittenLosesCell`) | step back only when there is a cell to the left | not executed | Erase.DeleteCharsAsWritten | Erase.DeleteChars |
| pymterm/term/terminal_gui.py:760-763 | away from the region's top the row decreases even from 0 | region starting at row 2, three lines, cursor on row 0: row -1, and the last line is allocated (`Scrolling.UpStepAsWrittenWrapsAround`) | stop at row 0 | not executed | Scrolling.ParmUpCursorAsWritten | Scrolling.ParmUpCursor |
| pymterm/term/terminal_gui.py:785-788 | the view start is pulled back only when it passes `len(lines)` | 24 rows, 48 lines of text, view at 24, page down: view at 48, showing nothing (`Reports.ViewHistoryAsWrittenPagesPastEnd`) | clamp to `len(lines) - rows`, the last full page | not executed | Reports.ViewHistoryAsWritten | Reports.ViewHistory |

=== FILE: attributes.dfy ===
/** Text attributes and their resolution to colours: `set_attributes` and
    `determin_colors` of pymterm/term/terminal_gui.py.

    The `term` package that defines `TextAttribute` is not part of this model.  An
    attribute is a set of mode flags plus a foreground and a background palette index.
    The two default indices are any two distinct values of at least 256; 256 and 257
    are used here. */
module Attributes {
  import opened Wrappers
  import opened Tango

  datatype Mode = Bold | Dim | Reverse | Selection | Cursor

  const DefaultFgIdx: int := 256
  const DefaultBgIdx: int := 257

  /** A cell's attribute.  Attributes are values: a cell keeps the attribute it was
      written with. */
  datatype Attr = Attr(modes: set<Mode>, fg: int, bg: int)

  /** `get_default_text_attribute()`: no modes, default colours. */
  const DefaultAttr: Attr := Attr({}, DefaultFgIdx, DefaultBgIdx)

  // ---------------------------------------------------------------------------
  // set_attributes
  // ---------------------------------------------------------------------------

  /** The bit weights `1 << k` that `set_attributes` tests. */
  const Bit1: nat := 0x2
  const Bit2: nat := 0x4
  const Bit7: nat := 0x80
  const Bit21: nat := 0x20_0000
  const Bit22: nat := 0x40_0000
  const Bit27: nat := 0x800_0000

  /** `mode & weight` is non-zero, for a positive `mode` and a power-of-two
      `weight`. */
  predicate HasBit(mode: int, weight: nat)
    requires weight > 0
  {
    mode > 0 && (mode / weight) % 2 == 1
  }

  /** The mode part of `set_attributes`: for a positive `mode`, bits 1, 2 and 7 turn
      BOLD, DIM and REVERSE on, and then bits 21 or 22 turn BOLD and DIM off and bit 27
      turns REVERSE off.  Zero clears every flag; a negative mode leaves them. */
  function SetModes(m: set<Mode>, mode: int): (r: set<Mode>)
    ensures mode == 0 ==> r == {}
    ensures mode < 0 ==> r == m
    ensures mode > 0 ==>
              && (Bold in r <==> (Bold in m || HasBit(mode, Bit1)) && !HasBit(mode, Bit21) && !HasBit(mode, Bit22))
              && (Dim in r <==> (Dim in m || HasBit(mode, Bit2)) && !HasBit(mode, Bit21) && !HasBit(mode, Bit22))
              && (Reverse in r <==> (Reverse in m || HasBit(mode, Bit7)) && !HasBit(mode, Bit27))
              && (Selection in r <==> Selection in m)
              && (Cursor in r <==> Cursor in m)
  {
    if mode > 0 then
      var on := m + (if HasBit(mode, Bit1) then {Bold} else {})
                   + (if HasBit(mode, Bit2) then {Dim} else {})
                   + (if HasBit(mode, Bit7) then {Reverse} else {});
      var offBold := if HasBit(mode, Bit21) || HasBit(mode, Bit22) then on - {Bold, Dim} else on;
      if HasBit(mode, Bit27) then offBold - {Reverse} else offBold
    else if mode == 0 then {}
    else m
  }

  /** One colour channel: an index of 0 or more is stored, -1 restores the default,
      and any other negative value (the caller's -2) leaves the channel alone. */
  function SetChannel(current: int, idx: int, default: int): int {
    if idx >= 0 then idx else if idx == -1 then default else current
  }

  /** `set_attributes(mode, f_color_idx, b_color_idx)` applied to the current
      attribute: the mode argument acts on the flags only (see `SetModes`), each
      colour argument on its own channel. */
  function SetAttributes(a: Attr, mode: int, fg: int, bg: int): (r: Attr)
    ensures r.modes == SetModes(a.modes, mode)
    ensures fg >= 0 ==> r.fg == fg
    ensures fg == -1 ==> r.fg == DefaultFgIdx
    ensures fg < -1 ==> r.fg == a.fg
    ensures bg >= 0 ==> r.bg == bg
    ensures bg == -1 ==> r.bg == DefaultBgIdx
    ensures bg < -1 ==> r.bg == a.bg
  {
    Attr(SetModes(a.modes, mode), SetChannel(a.fg, fg, DefaultFgIdx), SetChannel(a.bg, bg, DefaultBgIdx))
  }

  /** The three arguments act independently: one call equals three calls that each
      touch a single axis (-1 leaves the modes, -2 leaves a colour channel). */
  lemma SetAttributesAxesIndependent(a: Attr, mode: int, fg: int, bg: int)
    ensures SetAttributes(a, mode, fg, bg)
         == SetAttributes(SetAttributes(SetAttributes(a, -1, -2, bg), -1, fg, -2), mode, -2, -2)
  {
  }

  /** Repeating a `set_attributes` call changes nothing more. */
  lemma SetAttributesIdempotent(a: Attr, mode: int, fg: int, bg: int)
    ensures SetAttributes(SetAttributes(a, mode, fg, bg), mode, fg, bg) == SetAttributes(a, mode, fg, bg)
  {
  }

  /** A full reset `set_attributes(0, -1, -1)` yields the default attribute. */
  lemma ResetIsDefault(a: Attr)
    ensures SetAttributes(a, 0, -1, -1) == DefaultAttr
  {
  }

  // ---------------------------------------------------------------------------
  // determin_colors
  // ---------------------------------------------------------------------------

  /** The colour table plus the configured default and cursor colours. */
  datatype Palette = Palette(table: seq<Color>, config: ColorConfig)

  /** `cfg.get_color(idx)`.  The configuration object is not part of this model; it
      is read as a lookup in its colour table, and an index outside the table is an
      error. */
  function GetColor(p: Palette, idx: int): (r: Option<Color>)
    ensures r.Some? <==> 0 <= idx < |p.table|
    ensures r.Some? ==> r.value == p.table[idx]
  {
    if 0 <= idx < |p.table| then Some(p.table[idx]) else None
  }

  /** `int(float(x) * 2 / 3)`: two thirds, truncated toward zero. */
  function TwoThirds(x: int): (r: int)
    ensures x >= 0 ==> 0 <= r <= x && 3 * r <= 2 * x < 3 * r + 3
    ensures x < 0 ==> x <= r <= 0
  {
    if x >= 0 then (2 * x) / 3 else -((-2 * x) / 3)
  }

  /** DIM scales all four channels, alpha included. */
  function DimColor(c: Color): (r: Color)
    ensures 0 <= c.r ==> 0 <= r.r && 3 * r.r <= 2 * c.r < 3 * r.r + 3
    ensures 0 <= c.g ==> 0 <= r.g && 3 * r.g <= 2 * c.g < 3 * r.g + 3
    ensures 0 <= c.b ==> 0 <= r.b && 3 * r.b <= 2 * c.b < 3 * r.b + 3
    ensures 0 <= c.a ==> 0 <= r.a && 3 * r.a <= 2 * c.a < 3 * r.a + 3
  {
    Color(TwoThirds(c.r), TwoThirds(c.g), TwoThirds(c.b), TwoThirds(c.a))
  }

  /** The colour before DIM: an index below 8 selects its bright variant under BOLD,
      other indices below 256 are looked up as they are, and the two default indices
      select the configured defaults.  Anything else fails (`None`): the source
      means to log the index and call `sys.exit`, but the log message formats `mode`,
      a name `determin_colors` never binds, so a `NameError` comes first. */
  function BaseColor(a: Attr, p: Palette, idx: int): (r: Option<Color>)
    ensures 0 <= idx < 8 && Bold in a.modes ==> r == GetColor(p, idx + 8)
    ensures (0 <= idx < 8 && Bold !in a.modes) || 8 <= idx < 256 ==> r == GetColor(p, idx)
    ensures r.Some? && 0 <= idx < 256 ==> r.value in p.table
    ensures idx == DefaultFgIdx ==> r == Some(p.config.defaultFg)
    ensures idx == DefaultBgIdx ==> r == Some(p.config.defaultBg)
    ensures idx >= 256 && idx != DefaultFgIdx && idx != DefaultBgIdx ==> r.None?
    ensures idx < 0 && Bold !in a.modes ==> r.None?
  {
    if idx < 8 then GetColor(p, if Bold in a.modes then 8 + idx else idx)
    else if idx < 256 then GetColor(p, idx)
    else if idx == DefaultFgIdx then Some(p.config.defaultFg)
    else if idx == DefaultBgIdx then Some(p.config.defaultBg)
    else None
  }

  /** `_get_color(idx)` inside `determin_colors`. */
  function ChannelColor(a: Attr, p: Palette, idx: int): (r: Option<Color>)
    ensures r.Some? <==> BaseColor(a, p, idx).Some?
    ensures r.Some? && Dim !in a.modes ==> r == BaseColor(a, p, idx)
    ensures r.Some? && Dim in a.modes ==> r.value == DimColor(BaseColor(a, p, idx).value)
  {
    match BaseColor(a, p, idx)
    case None => None
    case Some(c) => if Dim in a.modes then Some(DimColor(c)) else Some(c)
  }

  /** `determin_colors(attr)`: the (foreground, background) pair to draw with.
      REVERSE and SELECTION each swap the pair, so together they cancel; CURSOR then
      moves the background into the foreground and paints the background with the
      cursor colour.  `None` is the `NameError` the source raises on an unknown index. */
  function DetermineColors(a: Attr, p: Palette): (r: Option<(Color, Color)>)
    ensures r.Some? <==> ChannelColor(a, p, a.fg).Some? && ChannelColor(a, p, a.bg).Some?
    ensures r.Some? ==>
              var f := ChannelColor(a, p, a.fg).value;
              var b := ChannelColor(a, p, a.bg).value;
              var swapped := (Reverse in a.modes) != (Selection in a.modes);
              && (Cursor !in a.modes ==> r.value == (if swapped then (b, f) else (f, b)))
              && (Cursor in a.modes ==> r.value == (if swapped then f else b, p.config.cursor))
  {
    match (ChannelColor(a, p, a.fg), ChannelColor(a, p, a.bg))
    case (Some(f0), Some(b0)) =>
      var (f1, b1) := if Reverse in a.modes then (b0, f0) else (f0, b0);
      var (f2, b2) := if Selection in a.modes then (b1, f1) else (f1, b1);
      var (f3, b3) := if Cursor in a.modes then (b2, p.config.cursor) else (f2, b2);
      Some((f3, b3))
    case _ => None
  }

  /** Under BOLD, the eight base colours resolve to their bright variants. */
  lemma BoldSelectsBright(a: Attr, p: Palette, idx: int)
    requires 0 <= idx < 8 && Bold in a.modes && Dim !in a.modes
    ensures ChannelColor(a, p, idx) == GetColor(p, idx + 8)
  {
  }

  /** After a full reset every attribute resolves like the fresh default: to the
      configured default foreground and background. */
  lemma ResetResolvesToDefaults(a: Attr, p: Palette)
    ensures DetermineColors(SetAttributes(a, 0, -1, -1), p) == DetermineColors(DefaultAttr, p)
    ensures DetermineColors(DefaultAttr, p) == Some((p.config.defaultFg, p.config.defaultBg))
  {
  }

  /** REVERSE together with SELECTION draws like neither. */
  lemma ReverseSelectionCancel(a: Attr, p: Palette)
    requires Reverse in a.modes && Selection in a.modes
    ensures DetermineColors(a, p) == DetermineColors(a.(modes := a.modes - {Reverse, Selection}), p)
  {
    var a' := a.(modes := a.modes - {Reverse, Selection});
    assert Bold in a.modes <==> Bold in a'.modes;
    assert Dim in a.modes <==> Dim in a'.modes;
    assert Cursor in a.modes <==> Cursor in a'.modes;
  }
}

=== FILE: cursor.dfy ===
/** Horizontal cursor motion of `TerminalGUI`: single steps, parametrised moves and
    the tab stop.  Each operation changes the column only. */
module Cursor {
  import opened Screen

  // ---------------------------------------------------------------------------
  // cursor_right, cursor_left
  // ---------------------------------------------------------------------------

  /** `cursor_right`: one column right, unless already at the last column. */
  function CursorRight(s: Screen): (r: Screen)
    ensures r == s.(col := r.col)
    ensures s.col < s.cols - 1 ==> r.col == s.col + 1
    ensures s.col >= s.cols - 1 ==> r.col == s.col
    ensures s.col <= s.cols - 1 ==> r.col <= s.cols - 1
  {
    if s.col < s.cols - 1 then s.(col := s.col + 1) else s
  }

  /** `cursor_left`: one column left, unless already at column 0. */
  function CursorLeft(s: Screen): (r: Screen)
    ensures r == s.(col := r.col)
    ensures s.col > 0 ==> r.col == s.col - 1
    ensures s.col == 0 ==> r == s
  {
    if s.col > 0 then s.(col := s.col - 1) else s
  }

  /** Away from the edges, a step right is undone by a step left and the other way
      round. */
  lemma CursorLeftUndoesRight(s: Screen)
    requires s.col < s.cols - 1
    ensures CursorLeft(CursorRight(s)) == s
  {
  }

  lemma CursorRightUndoesLeft(s: Screen)
    requires 0 < s.col <= s.cols - 1
    ensures CursorRight(CursorLeft(s)) == s
  {
  }

  /** `k` single steps right. */
  function CursorRightN(s: Screen, k: nat): Screen {
    if k == 0 then s else CursorRight(CursorRightN(s, k - 1))
  }

  /** `k` single steps left. */
  function CursorLeftN(s: Screen, k: nat): Screen {
    if k == 0 then s else CursorLeft(CursorLeftN(s, k - 1))
  }

  function Min(a: int, b: int): int {
    if a <= b then a else b
  }

  function Max(a: int, b: int): int {
    if a <= b then b else a
  }

  /** `k` steps right stop at the last column. */
  lemma {:induction false} CursorRightNClamps(s: Screen, k: nat)
    requires s.col <= s.cols - 1
    ensures CursorRightN(s, k) == s.(col := Min(s.col + k, s.cols - 1))
  {
    if k > 0 {
      CursorRightNClamps(s, k - 1);
    }
  }

  /** `k` steps left stop at column 0. */
  lemma {:induction false} CursorLeftNClamps(s: Screen, k: nat)
    ensures CursorLeftN(s, k) == s.(col := Max(s.col - k, 0))
  {
    if k > 0 {
      CursorLeftNClamps(s, k - 1);
    }
  }

  // ---------------------------------------------------------------------------
  // parm_right_cursor, parm_left_cursor
  // ---------------------------------------------------------------------------

  /** The distance a parametrised move travels: its parameter, or 1 when that is not
      positive. */
  function Step(n: int): (k: nat)
    ensures k >= 1
    ensures n > 0 ==> k == n
  {
    if n > 0 then n else 1
  }

  /** `parm_right_cursor` as the source writes it: the clamp fires only when the
      column passes `cols`, so landing exactly on `cols` is let through. */
  function ParmRightCursorAsWritten(s: Screen, n: int): (r: Screen)
    ensures r == s.(col := r.col)
    ensures s.col + Step(n) > s.cols ==> r.col == s.cols - 1
    ensures s.col + Step(n) <= s.cols ==> r.col == s.col + Step(n)
  {
    var col := s.col + Step(n);
    if col > s.cols then s.(col := s.cols - 1) else s.(col := col)
  }

  /** Moving 10 right from column 70 of an 80-column screen leaves the cursor on
      column 80, one past the last column. */
  lemma ParmRightCursorAsWrittenOverruns()
    ensures var s := NewScreen(80, 24).(col := 70);
            ParmRightCursorAsWritten(s, 10).col == s.cols
  {
  }

  /** `parm_right_cursor` with the clamp the source evidently intends: the cursor
      never passes the last column. */
  function ParmRightCursor(s: Screen, n: int): (r: Screen)
    ensures r == s.(col := r.col)
    ensures r.col <= s.cols - 1
    ensures r.col == Min(s.col + Step(n), s.cols - 1)
  {
    var col := s.col + Step(n);
    if col > s.cols - 1 then s.(col := s.cols - 1) else s.(col := col)
  }

  /** Corrected, a parametrised move is the same as that many single steps. */
  lemma ParmRightIsRepeatedRight(s: Screen, n: int)
    requires s.col <= s.cols - 1
    ensures ParmRightCursor(s, n) == CursorRightN(s, Step(n))
  {
    CursorRightNClamps(s, Step(n));
  }

  /** `parm_left_cursor`: move left, stopping at column 0. */
  function ParmLeftCursor(s: Screen, n: int): (r: Screen)
    ensures r == s.(col := r.col)
    ensures r.col == Max(s.col - Step(n), 0)
  {
    var col := s.col - Step(n);
    if col < 0 then s.(col := 0) else s.(col := col)
  }

  lemma ParmLeftIsRepeatedLeft(s: Screen, n: int)
    ensures ParmLeftCursor(s, n) == CursorLeftN(s, Step(n))
  {
    CursorLeftNClamps(s, Step(n));
  }

  // ---------------------------------------------------------------------------
  // tab
  // ---------------------------------------------------------------------------

  predicate IsTabStop(col: int, tabWidth: Pos) {
    col % tabWidth == 0
  }

  /** The first multiple of `w` strictly right of `c`. */
  function NextStop(c: nat, w: Pos): int {
    (c / w + 1) * w
  }

  /** Multiples of a positive `w` are ordered like their factors. */
  lemma MultipleOrder(m: int, q: int, w: Pos)
    requires m <= q
    ensures m * w <= q * w
  {
    assert q * w - m * w == (q - m) * w;
  }

  /** Quotient and remainder by a positive `w` are the unique `q`, `r` with
      `x == q * w + r` and `0 <= r < w`. */
  lemma DivModUnique(x: int, q: int, r: int, w: Pos)
    requires x == q * w + r && 0 <= r < w
    ensures x / w == q && x % w == r
  {
    var q', r' := x / w, x % w;
    assert x == q' * w + r' && 0 <= r' < w;
    assert (q' + 1) * w == q' * w + w;
    assert (q + 1) * w == q * w + w;
    if q' < q {
      MultipleOrder(q' + 1, q, w);
    } else if q' > q {
      MultipleOrder(q + 1, q', w);
    }
  }

  /** No multiple of `w` lies strictly between `q * w` and `(q + 1) * w`. */
  lemma NoStopBetween(q: int, w: Pos, k: int)
    requires q * w < k < q * w + w
    ensures !IsTabStop(k, w)
  {
    assert (q + 1) * w == q * w + w;
    if IsTabStop(k, w) {
      var m := k / w;
      assert k == m * w + k % w;
      assert k == m * w;
      if m <= q {
        MultipleOrder(m, q, w);
      } else {
        MultipleOrder(q + 1, m, w);
      }
    }
  }

  lemma NextStopIsNext(c: nat, w: Pos)
    ensures c < NextStop(c, w) <= c + w
    ensures IsTabStop(NextStop(c, w), w)
    ensures forall k :: c < k < NextStop(c, w) ==> !IsTabStop(k, w)
  {
    var q := c / w;
    assert c == q * w + c % w && 0 <= c % w < w;
    assert NextStop(c, w) == q * w + w by {
      assert (q + 1) * w == q * w + w;
    }
    DivModUnique(NextStop(c, w), q + 1, 0, w);
    forall k | c < k < NextStop(c, w)
      ensures !IsTabStop(k, w)
    {
      NoStopBetween(q, w, k);
    }
  }

  /** `tab`: advance to the next tab stop strictly right of the cursor, or to the last
      column when that stop is not on the screen. */
  function Tab(s: Screen, tabWidth: Pos): (r: Screen)
    ensures r == s.(col := r.col)
    ensures r.col == s.cols - 1 || (s.col < r.col <= s.col + tabWidth && IsTabStop(r.col, tabWidth))
    ensures r.col < s.cols - 1 ==> forall k :: s.col < k < r.col ==> !IsTabStop(k, tabWidth)
    ensures r.col <= s.cols - 1
  {
    NextStopIsNext(s.col, tabWidth);
    var col := NextStop(s.col, tabWidth);
    if col >= s.cols then s.(col := s.cols - 1) else s.(col := col)
  }

  /** The tab lands on the last column exactly when no tab stop lies strictly
      between the cursor and the right edge. */
  lemma TabClampsIff(s: Screen, tabWidth: Pos)
    ensures Tab(s, tabWidth).col == s.cols - 1 <==>
            forall k :: s.col < k < s.cols - 1 ==> !IsTabStop(k, tabWidth)
  {
    NextStopIsNext(s.col, tabWidth);
    var next := NextStop(s.col, tabWidth);
    if next < s.cols - 1 {
      assert IsTabStop(next, tabWidth);
    }
  }
}

=== FILE: engine.dfy ===
/** The control-sequence dispatch engine of `Terminal` (pymterm/term/terminal.py).

    Bytes are walked one at a time through a capability state graph.  A byte either
    extends the control-data log of the sequence being parsed, or goes to the print
    path.  A finished sequence is resolved into a capability.  A sequence that resolves
    to nothing is parked on a backtrack stack, and parsing restarts from the start
    state.

    The engine is a pure step function.  Instead of calling the handlers, it returns
    the `Event`s it would have produced, in order.  The `Terminal` module applies them
    to the screen. */
module Engine {
  import opened Wrappers

  /** Numeric parameters accumulated while walking a sequence (`context.params`). */
  type Params = seq<int>

  /** A resolved capability as `get_cap` returns it: its name, and `increase_params`,
      set when the capability's parameters arrive one-based (terminfo's `%i`). */
  datatype Cap = Cap(name: string, increase: bool)

  /** What a state makes of one byte: the successor state, if it has one, and the
      parameter list as the state leaves it (digit states accumulate into it). */
  datatype Handled<S> = Handled(next: Option<S>, params: Params)

  /** The capability state graph.  It is built from the capability file outside this
      model and is only read here. */
  datatype Graph<!S> = Graph(
    start: S,
    handle: (S, Params, char) -> Handled<S>,
    getCap: (S, Params) -> Option<Cap>)

  /** One entry of the backtrack stack: `(state, params, control_data)`. */
  datatype Frame<S> = Frame(state: S, params: Params, data: seq<string>)

  /** The engine's mutable fields: `state`, `context.params`, `control_data` and
      `_cap_state_stack` (a deque used as a stack; its top is the last element). */
  datatype Parser<S> = Parser(state: S, params: Params, data: seq<string>, stack: seq<Frame<S>>)

  /** What the engine hands on: a byte for `output_data`, or a resolved capability
      for `on_control_data` together with the parameters its handler reads
      (`context.params`) and the control-data log it resolved. */
  datatype Event = Print(c: char) | Control(cap: Cap, params: Params, data: seq<string>)

  datatype Outcome<S> = Outcome(parser: Parser<S>, events: seq<Event>)

  const ESC: char := '\U{1B}'

  /** The parser of a fresh terminal, or the one after a reset. */
  function Fresh<S>(g: Graph<S>, stack: seq<Frame<S>>): Parser<S> {
    Parser(g.start, [], [], stack)
  }

  /** The control-data entry logged for byte `c`.  ESC is logged as the two characters
      backslash and `E`, never raw. */
  function Marker(c: char): (m: string)
    ensures ESC !in m
    ensures c == ESC ==> m == "\\E"
    ensures c != ESC ==> m == [c]
  {
    if c == ESC then "\\E" else [c]
  }

  // ---------------------------------------------------------------------------
  // Accounting: every byte is held exactly once.
  // ---------------------------------------------------------------------------

  /** The bytes delivered to the print path, in order. */
  function Prints(evs: seq<Event>): seq<char> {
    if |evs| == 0 then []
    else (if evs[0].Print? then [evs[0].c] else []) + Prints(evs[1..])
  }

  /** The number of events that are capability dispatches. */
  function Dispatches(evs: seq<Event>): nat {
    if |evs| == 0 then 0
    else (if evs[0].Control? then 1 else 0) + Dispatches(evs[1..])
  }

  /** Bytes accounted for by the events: one per printed byte, one per log entry of
      each dispatched sequence. */
  function Emitted(evs: seq<Event>): nat {
    if |evs| == 0 then 0
    else (if evs[0].Print? then 1 else |evs[0].data|) + Emitted(evs[1..])
  }

  /** Log entries parked on the backtrack stack. */
  function Parked<S>(stack: seq<Frame<S>>): nat {
    if |stack| == 0 then 0 else Parked(stack[..|stack| - 1]) + |stack[|stack| - 1].data|
  }

  /** Log entries the parser still holds: the current log plus the parked ones. */
  function Held<S>(p: Parser<S>): nat {
    |p.data| + Parked(p.stack)
  }

  /** No entry of a control-data log contains a raw ESC. */
  predicate LogEscFree(data: seq<string>) {
    forall j :: 0 <= j < |data| ==> ESC !in data[j]
  }

  /** No log entry anywhere in the parser contains a raw ESC. */
  predicate EscFree<S>(p: Parser<S>) {
    && LogEscFree(p.data)
    && (forall i :: 0 <= i < |p.stack| ==> LogEscFree(p.stack[i].data))
  }

  lemma {:induction false} EventsAppend(a: seq<Event>, b: seq<Event>)
    ensures Emitted(a + b) == Emitted(a) + Emitted(b)
    ensures Prints(a + b) == Prints(a) + Prints(b)
    ensures Dispatches(a + b) == Dispatches(a) + Dispatches(b)
    decreases |a|
  {
    if |a| == 0 {
      assert a + b == b;
    } else {
      var ab := a + b;
      assert ab[0] == a[0] && ab[1..] == a[1..] + b;
      EventsAppend(a[1..], b);
      var head := if a[0].Print? then [a[0].c] else [];
      assert Prints(ab) == head + Prints(a[1..] + b);
      assert Prints(a) == head + Prints(a[1..]);
    }
  }

  // ---------------------------------------------------------------------------
  // __handle_cap__
  // ---------------------------------------------------------------------------

  /** `__handle_cap__(check_unknown, c)`: resolve the sequence parsed so far.
      `unknown` is `Some(c)` when `check_unknown` is set and `c` is the byte that
      stopped the sequence.  It is `None` for the end-of-chunk call. */
  function HandleCap<S>(g: Graph<S>, p: Parser<S>, unknown: Option<char>): (r: Outcome<S>)
    // a resolved capability is dispatched, with the log it resolved
    ensures g.getCap(p.state, p.params).Some? ==>
              r.events == [Control(g.getCap(p.state, p.params).value, p.params, p.data)]
    // ... and then the engine resets when nothing is parked
    ensures g.getCap(p.state, p.params).Some? && |p.stack| == 0 ==> r.parser == Fresh(g, [])
    // ... or resumes exactly the most recently parked frame
    ensures g.getCap(p.state, p.params).Some? && |p.stack| > 0 ==>
              && |r.parser.stack| == |p.stack| - 1
              && r.parser.stack + [Frame(r.parser.state, r.parser.params, r.parser.data)] == p.stack
    // an unknown sequence is parked and parsing restarts from the start state
    ensures g.getCap(p.state, p.params).None? && unknown.Some? && |p.data| > 0 ==>
              && r.events == []
              && r.parser == Fresh(g, p.stack + [Frame(p.state, g.handle(g.start, p.params, unknown.value).params, p.data)])
    // with check_unknown off (or nothing logged), an unresolved sequence is kept as is
    ensures g.getCap(p.state, p.params).None? && (unknown.None? || |p.data| == 0) ==> r == Outcome(p, [])
    ensures Dispatches(r.events) <= 1 && Prints(r.events) == []
  {
    match g.getCap(p.state, p.params)
    case Some(cap) =>
      var evs := [Control(cap, p.params, p.data)];
      assert Prints(evs) == [] && Dispatches(evs) == 1;
      if |p.stack| > 0 then
        var top := p.stack[|p.stack| - 1];
        var rest := p.stack[..|p.stack| - 1];
        assert rest + [top] == p.stack;
        Outcome(Parser(top.state, top.params, top.data, rest), evs)
      else
        Outcome(Fresh(g, []), evs)
    case None =>
      if unknown.Some? && |p.data| > 0 then
        // the probe of the start state may update the parameters before they are parked
        var probe := g.handle(g.start, p.params, unknown.value);
        Outcome(Fresh(g, p.stack + [Frame(p.state, probe.params, p.data)]), [])
      else
        Outcome(p, [])
  }

  /** Resolving moves log entries between the parser and the events but never creates
      or loses one, and never brings a raw ESC into the parser. */
  lemma HandleCapAccounts<S>(g: Graph<S>, p: Parser<S>, unknown: Option<char>)
    ensures var r := HandleCap(g, p, unknown);
            Emitted(r.events) + Held(r.parser) == Held(p)
  {
    var r := HandleCap(g, p, unknown);
    if g.getCap(p.state, p.params).Some? {
      assert Emitted(r.events) == |p.data|;
      if |p.stack| > 0 {
        assert r.parser.stack + [Frame(r.parser.state, r.parser.params, r.parser.data)] == p.stack;
      }
    } else if unknown.Some? && |p.data| > 0 {
      assert r.parser.stack[..|r.parser.stack| - 1] == p.stack;
    }
  }

  /** Resolving never brings a raw ESC into the parser. */
  lemma HandleCapKeepsEscFree<S>(g: Graph<S>, p: Parser<S>, unknown: Option<char>)
    ensures EscFree(p) ==> EscFree(HandleCap(g, p, unknown).parser)
  {
    var r := HandleCap(g, p, unknown).parser;
    if !EscFree(p) {
    } else if g.getCap(p.state, p.params).Some? {
      if |p.stack| > 0 {
        assert r.stack + [Frame(r.state, r.params, r.data)] == p.stack;
        assert LogEscFree(p.stack[|p.stack| - 1].data);
        forall i | 0 <= i < |r.stack|
          ensures LogEscFree(r.stack[i].data)
        {
          assert r.stack[i] == p.stack[i];
        }
      }
    } else if unknown.Some? && |p.data| > 0 {
      forall i | 0 <= i < |r.stack|
        ensures LogEscFree(r.stack[i].data)
      {
        if i < |p.stack| {
          assert r.stack[i] == p.stack[i];
        }
      }
    }
  }

  // ---------------------------------------------------------------------------
  // __try_parse__
  // ---------------------------------------------------------------------------

  /** Adopt `next` and log `c` (terminal.py lines 110-111 and 117-118). */
  function Accept<S>(p: Parser<S>, next: S, c: char): Parser<S> {
    p.(state := next, data := p.data + [Marker(c)])
  }

  /** One iteration of the per-byte loop of `__try_parse__`. */
  function Step<S>(g: Graph<S>, p: Parser<S>, c: char): (r: Outcome<S>)
    // the byte goes to the print path, as itself, at most once ...
    ensures Prints(r.events) == [] || Prints(r.events) == [c]
    // ... and when it does not, it is the newest entry of the control-data log
    ensures Prints(r.events) == [] ==> |r.parser.data| > 0 && r.parser.data[|r.parser.data| - 1] == Marker(c)
    ensures Dispatches(r.events) <= 1
  {
    var h := g.handle(p.state, p.params, c);
    var p1 := p.(params := h.params);
    if h.next.None? || g.getCap(p1.state, p1.params).Some? then
      var mid := HandleCap(g, p1, Some(c));
      // retry the byte against the state the resolution left behind
      var h2 := g.handle(mid.parser.state, mid.parser.params, c);
      var p2 := mid.parser.(params := h2.params);
      if h2.next.Some? then
        Outcome(Accept(p2, h2.next.value, c), mid.events)
      else
        EventsAppend(mid.events, [Print(c)]);
        Outcome(p2, mid.events + [Print(c)])
    else
      Outcome(Accept(p1, h.next.value, c), [])
  }

  /** Each byte is accounted for exactly once: printed, or logged in the parser. */
  lemma StepAccounts<S>(g: Graph<S>, p: Parser<S>, c: char)
    ensures var r := Step(g, p, c);
            Emitted(r.events) + Held(r.parser) == Held(p) + 1
  {
    var h := g.handle(p.state, p.params, c);
    var p1 := p.(params := h.params);
    if h.next.None? || g.getCap(p1.state, p1.params).Some? {
      HandleCapAccounts(g, p1, Some(c));
      var mid := HandleCap(g, p1, Some(c));
      var h2 := g.handle(mid.parser.state, mid.parser.params, c);
      if h2.next.None? {
        EventsAppend(mid.events, [Print(c)]);
      }
    }
  }

  /** Logging a byte keeps the log free of raw ESC, since ESC is logged escaped. */
  lemma AcceptKeepsEscFree<S>(p: Parser<S>, next: S, c: char)
    requires EscFree(p)
    ensures EscFree(Accept(p, next, c))
  {
    var d := Accept(p, next, c).data;
    forall j | 0 <= j < |d|
      ensures ESC !in d[j]
    {
      if j < |p.data| {
        assert d[j] == p.data[j];
      }
    }
  }

  /** A step never brings a raw ESC into the parser's log. */
  lemma StepKeepsEscFree<S>(g: Graph<S>, p: Parser<S>, c: char)
    requires EscFree(p)
    ensures EscFree(Step(g, p, c).parser)
  {
    var h := g.handle(p.state, p.params, c);
    var p1 := p.(params := h.params);
    assert EscFree(p1);
    if h.next.None? || g.getCap(p1.state, p1.params).Some? {
      HandleCapKeepsEscFree(g, p1, Some(c));
      var mid := HandleCap(g, p1, Some(c));
      var h2 := g.handle(mid.parser.state, mid.parser.params, c);
      var p2 := mid.parser.(params := h2.params);
      assert EscFree(p2);
      if h2.next.Some? {
        AcceptKeepsEscFree(p2, h2.next.value, c);
      }
    } else {
      AcceptKeepsEscFree(p1, h.next.value, c);
    }
  }

  /** A per-byte loop over `data` that threads the parser through `step` and
      collects the events in order. */
  function Run<S>(step: (Parser<S>, char) -> Outcome<S>, p: Parser<S>, data: seq<char>): Outcome<S>
    decreases |data|
  {
    if |data| == 0 then Outcome(p, [])
    else
      var first := step(p, data[0]);
      var rest := Run(step, first.parser, data[1..]);
      Outcome(rest.parser, first.events + rest.events)
  }

  /** Splitting the input between two runs changes nothing, whatever the step: the
      loop carries no state besides the parser. */
  lemma {:induction false} RunConcat<S>(step: (Parser<S>, char) -> Outcome<S>, p: Parser<S>, a: seq<char>, b: seq<char>)
    ensures var mid := Run(step, p, a);
            var tail := Run(step, mid.parser, b);
            Run(step, p, a + b) == Outcome(tail.parser, mid.events + tail.events)
    decreases |a|
  {
    if |a| == 0 {
      assert a + b == b;
    } else {
      var first := step(p, a[0]);
      assert (a + b)[0] == a[0] && (a + b)[1..] == a[1..] + b;
      RunConcat(step, first.parser, a[1..], b);
      var mid := Run(step, first.parser, a[1..]);
      var tail := Run(step, mid.parser, b);
      assert first.events + (mid.events + tail.events) == (first.events + mid.events) + tail.events;
    }
  }

  /** The `for c in data` loop of `__try_parse__`. */
  function FeedLoop<S>(g: Graph<S>, p: Parser<S>, data: seq<char>): (r: Outcome<S>)
    ensures |data| == 0 ==> r == Outcome(p, [])
    // one `Step` for the first byte, then the loop over the rest
    ensures |data| > 0 ==>
              var first := Step(g, p, data[0]);
              var rest := FeedLoop(g, first.parser, data[1..]);
              r == Outcome(rest.parser, first.events + rest.events)
    decreases |data|
  {
    Run((q, c) => Step(g, q, c), p, data)
  }

  /** Over a whole chunk no byte is lost or duplicated, each byte is printed or
      dispatched at most once, and no raw ESC reaches the parser's log. */
  lemma {:induction false} FeedLoopAccounts<S>(g: Graph<S>, p: Parser<S>, data: seq<char>)
    ensures var r := FeedLoop(g, p, data);
            && Emitted(r.events) + Held(r.parser) == Held(p) + |data|
            && |Prints(r.events)| <= |data|
            && Dispatches(r.events) <= |data|
            && (EscFree(p) ==> EscFree(r.parser))
    decreases |data|
  {
    if |data| > 0 {
      var first := Step(g, p, data[0]);
      StepAccounts(g, p, data[0]);
      if EscFree(p) {
        StepKeepsEscFree(g, p, data[0]);
      }
      FeedLoopAccounts(g, first.parser, data[1..]);
      var rest := FeedLoop(g, first.parser, data[1..]);
      assert FeedLoop(g, p, data) == Outcome(rest.parser, first.events + rest.events);
      EventsAppend(first.events, rest.events);
    }
  }

  /** `__try_parse__(data)`: the per-byte loop, then a resolution attempt with
      `check_unknown` off, so that a sequence may straddle two chunks. */
  function TryParse<S>(g: Graph<S>, p: Parser<S>, data: seq<char>): (r: Outcome<S>)
    // no byte is lost or duplicated
    ensures Emitted(r.events) + Held(r.parser) == Held(p) + |data|
    ensures |Prints(r.events)| <= |data|
    ensures Dispatches(r.events) <= |data| + 1
    ensures EscFree(p) ==> EscFree(r.parser)
  {
    var loop := FeedLoop(g, p, data);
    FeedLoopAccounts(g, p, data);
    var fin := HandleCap(g, loop.parser, None);
    HandleCapAccounts(g, loop.parser, None);
    HandleCapKeepsEscFree(g, loop.parser, None);
    EventsAppend(loop.events, fin.events);
    Outcome(fin.parser, loop.events + fin.events)
  }

  /** Splitting the input between two runs of the byte loop changes nothing. */
  lemma FeedLoopConcat<S>(g: Graph<S>, p: Parser<S>, a: seq<char>, b: seq<char>)
    ensures var mid := FeedLoop(g, p, a);
            var tail := FeedLoop(g, mid.parser, b);
            FeedLoop(g, p, a + b) == Outcome(tail.parser, mid.events + tail.events)
  {
    RunConcat((q, c) => Step(g, q, c), p, a, b);
  }

  /** A chunk boundary where no capability has resolved is invisible: the end-of-chunk
      resolution attempt changes nothing there, so `on_data(a)` followed by
      `on_data(b)` leaves the parser and produces the events of `on_data(a + b)`.  A
      sequence may therefore straddle two chunks. */
  lemma TryParseStraddle<S>(g: Graph<S>, p: Parser<S>, a: seq<char>, b: seq<char>)
    requires var mid := FeedLoop(g, p, a).parser; g.getCap(mid.state, mid.params).None?
    ensures var first := TryParse(g, p, a);
            var second := TryParse(g, first.parser, b);
            TryParse(g, p, a + b) == Outcome(second.parser, first.events + second.events)
  {
    var la := FeedLoop(g, p, a);
    assert HandleCap(g, la.parser, None) == Outcome(la.parser, []);
    var first := TryParse(g, p, a);
    assert first == Outcome(la.parser, la.events) by {
      assert la.events + [] == la.events;
    }
    var lb := FeedLoop(g, la.parser, b);
    var fin := HandleCap(g, lb.parser, None);
    FeedLoopConcat(g, p, a, b);
    assert TryParse(g, p, a + b) == Outcome(fin.parser, (la.events + lb.events) + fin.events);
    assert (la.events + lb.events) + fin.events == la.events + (lb.events + fin.events);
  }

  /** With `check_unknown` off the end-of-chunk resolution only acts when a
      capability resolves: otherwise the unfinished sequence is kept as the byte loop
      left it (same state, parameters, log and stack) and nothing more is emitted, so
      it can be continued by the next chunk. */
  lemma EndOfChunkKeepsUnfinished<S>(g: Graph<S>, p: Parser<S>, data: seq<char>)
    requires var q := FeedLoop(g, p, data).parser; g.getCap(q.state, q.params).None?
    ensures TryParse(g, p, data) == FeedLoop(g, p, data)
  {
  }

  // ---------------------------------------------------------------------------
  // A small capability graph, to show the engine's backtracking on concrete input.
  // ---------------------------------------------------------------------------

  /** States 0 (start), 1 (after ESC), 2 (after ESC [), 3 (after ESC [ H). */
  function DemoHandle(s: nat, ps: Params, c: char): Handled<nat> {
    if s == 0 && c == ESC then Handled(Some(1), ps)
    else if s == 1 && c == '[' then Handled(Some(2), ps)
    else if s == 2 && c == 'H' then Handled(Some(3), ps)
    else Handled(None, ps)
  }

  function DemoCap(s: nat, ps: Params): Option<Cap> {
    if s == 3 then Some(Cap("cursor_home", false)) else None
  }

  function Demo(): Graph<nat> {
    Graph(0, DemoHandle, DemoCap)
  }

  /** The demo graph's steps used below, one byte at a time. */
  lemma DemoSteps()
    ensures Step(Demo(), Fresh(Demo(), []), ESC) == Outcome(Parser(1, [], ["\\E"], []), [])
    ensures Step(Demo(), Parser(1, [], ["\\E"], []), '[') == Outcome(Parser(2, [], ["\\E", "["], []), [])
    ensures Step(Demo(), Parser(2, [], ["\\E", "["], []), 'H') == Outcome(Parser(3, [], ["\\E", "[", "H"], []), [])
    ensures Step(Demo(), Parser(1, [], ["\\E"], []), 'x') == Outcome(Fresh(Demo(), [Frame(1, [], ["\\E"])]), [Print('x')])
  {
  }

  /** A complete sequence resolves at the end of the chunk and the engine resets. */
  lemma DemoCursorHome()
    ensures TryParse(Demo(), Fresh(Demo(), []), [ESC, '[', 'H'])
         == Outcome(Fresh(Demo(), []), [Control(Cap("cursor_home", false), [], ["\\E", "[", "H"])])
  {
    var g := Demo();
    DemoSteps();
    var p3 := Parser(3, [], ["\\E", "[", "H"], []);
    assert FeedLoop(g, Fresh(g, []), [ESC, '[', 'H']) == Outcome(p3, []) by {
      assert [ESC, '[', 'H'][1..] == ['[', 'H'];
      assert ['[', 'H'][1..] == ['H'];
      assert FeedLoop(g, p3, []) == Outcome(p3, []);
      assert FeedLoop(g, Parser(2, [], ["\\E", "["], []), ['H']) == Outcome(p3, []);
      assert FeedLoop(g, Parser(1, [], ["\\E"], []), ['[', 'H']) == Outcome(p3, []);
    }
  }

  /** A false start: ESC followed by a byte no sequence continues with.  The stray
      byte is printed; the ESC prefix is parked on the backtrack stack, not printed. */
  lemma DemoFalseStart()
    ensures TryParse(Demo(), Fresh(Demo(), []), [ESC, 'x'])
         == Outcome(Fresh(Demo(), [Frame(1, [], ["\\E"])]), [Print('x')])
  {
    var g := Demo();
    DemoSteps();
    var p2 := Fresh(g, [Frame(1, [], ["\\E"])]);
    assert FeedLoop(g, Fresh(g, []), [ESC, 'x']) == Outcome(p2, [Print('x')]) by {
      assert [ESC, 'x'][1..] == ['x'];
      assert FeedLoop(g, p2, []) == Outcome(p2, []);
      assert FeedLoop(g, Parser(1, [], ["\\E"], []), ['x']) == Outcome(p2, [Print('x')]);
    }
  }
}

=== FILE: erase.dfy ===
/** Erasing and deleting cells on the cursor's line and below it: `clr_line`,
    `clr_eol`, `clr_bol`, `clr_eos` and `delete_chars` of
    pymterm/term/terminal_gui.py.  A NUL cell marks both an erased cell and the second
    half of a wide character, so these operations widen their range by one cell when
    the cursor sits next to a NUL. */
module Erase {
  import opened Slices
  import opened Grid
  import opened Screen
  import opened Attributes

  /** The cursor's line once `get_cur_line` has made sure it has a cell under the
      cursor. */
  function CurLine(s: Screen): (line: Line)
    ensures |line| > s.col
    ensures line == Alloc(LineAt(s.lines, s.row), s.col + 1)
  {
    GetCurLine(s).lines[s.row]
  }

  /** The screen after `get_cur_line`, with the cursor's line replaced. */
  function WithCurLine(s: Screen, line: Line): (r: Screen)
    ensures r == GetCurLine(s).(lines := r.lines)
    ensures |r.lines| == |GetCurLine(s).lines|
    ensures r.lines[s.row] == line
    ensures forall i :: 0 <= i < |r.lines| && i != s.row ==> r.lines[i] == GetCurLine(s).lines[i]
  {
    var t := GetCurLine(s);
    t.(lines := t.lines[s.row := line])
  }

  // ---------------------------------------------------------------------------
  // clr_line, clr_eol, clr_bol
  // ---------------------------------------------------------------------------

  /** `clr_line`: every cell of the cursor's line is reset. */
  function ClrLine(s: Screen): (r: Screen)
    ensures s.row < |r.lines| && r == WithCurLine(s, r.lines[s.row])
    ensures |r.lines[s.row]| == |CurLine(s)| && AllBlank(r.lines[s.row])
  {
    WithCurLine(s, ResetLine(CurLine(s)))
  }

  /** Where `clr_eol` starts: the cursor's column, one further left when the cursor
      sits on a NUL cell.  At column 0 this is -1. */
  function EolStart(line: Line, col: nat): (b: int)
    requires col < |line|
    ensures b == col || (b == col - 1 && line[col].ch == NUL)
  {
    if line[col].ch == NUL then col - 1 else col
  }

  /** `clr_eol`: reset the cells from `EolStart` to the end of the line.  A start of
      -1 names the last cell in Python, which the range resets anyway, so the whole
      line is reset then. */
  function ClrEol(s: Screen): (r: Screen)
    ensures s.row < |r.lines| && r == WithCurLine(s, r.lines[s.row])
    ensures |r.lines[s.row]| == |CurLine(s)|
    // every cell from the cursor on is blank ...
    ensures forall j :: s.col <= j < |CurLine(s)| ==> r.lines[s.row][j] == Blank
    // ... and so is the first half of a wide character the cursor sits behind
    ensures s.col > 0 && CurLine(s)[s.col].ch == NUL ==> r.lines[s.row][s.col - 1] == Blank
    // the cells before the start are kept
    ensures forall j :: 0 <= j < EolStart(CurLine(s), s.col) ==> r.lines[s.row][j] == CurLine(s)[j]
  {
    var line := CurLine(s);
    var begin := EolStart(line, s.col);
    WithCurLine(s, ResetFrom(line, if begin < 0 then 0 else begin))
  }

  /** Where `clr_bol` stops: the cursor's column, one further right when the next cell
      exists and holds NUL. */
  function BolEnd(line: Line, col: nat): (e: nat)
    requires col < |line|
    ensures e < |line|
    ensures e == col || (e == col + 1 && line[col + 1].ch == NUL)
  {
    if col + 1 < |line| && line[col + 1].ch == NUL then col + 1 else col
  }

  /** `clr_bol`: reset the cells from the start of the line through `BolEnd`. */
  function ClrBol(s: Screen): (r: Screen)
    ensures s.row < |r.lines| && r == WithCurLine(s, r.lines[s.row])
    ensures |r.lines[s.row]| == |CurLine(s)|
    // every cell through the end, the cursor's cell and a NUL half right of it
    // included, is blank ...
    ensures forall j :: 0 <= j <= BolEnd(CurLine(s), s.col) ==> r.lines[s.row][j] == Blank
    // ... the cells after the end are kept
    ensures forall j :: BolEnd(CurLine(s), s.col) < j < |CurLine(s)| ==> r.lines[s.row][j] == CurLine(s)[j]
  {
    var line := CurLine(s);
    WithCurLine(s, ResetUpTo(line, BolEnd(line, s.col) + 1))
  }

  /** On one line: once every cell from `col` on is blank, resetting through
      `BolEnd` leaves nothing but blanks. */
  lemma BolAfterEolBlanks(line: Line, col: nat)
    requires col < |line|
    requires forall j :: col <= j < |line| ==> line[j] == Blank
    ensures ResetUpTo(line, BolEnd(line, col) + 1) == ResetLine(line)
  {
    var a := ResetUpTo(line, BolEnd(line, col) + 1);
    var b := ResetLine(line);
    forall j | 0 <= j < |line|
      ensures a[j] == b[j]
    {
    }
  }

  /** Putting the cursor's line back as it is changes nothing. */
  lemma WithCurLineUnchanged(s: Screen)
    ensures WithCurLine(s, CurLine(s)) == GetCurLine(s)
  {
    var t := GetCurLine(s);
    assert t.lines[s.row := t.lines[s.row]] == t.lines;
  }

  /** Replacing the cursor's line twice keeps the second line, once the first one
      already has a cell under the cursor. */
  lemma WithCurLineTwice(s: Screen, a: Line, b: Line)
    requires |a| > s.col
    ensures WithCurLine(WithCurLine(s, a), b) == WithCurLine(s, b)
  {
    var e := WithCurLine(s, a);
    AllocLongEnough(a, s.col + 1);
    assert GetCurLine(e) == e;
  }

  /** `ClrBol` on a screen whose cursor line was just replaced by a long enough
      line works on that line. */
  lemma ClrBolAfterReplace(s: Screen, l1: Line)
    requires |l1| > s.col
    ensures ClrBol(WithCurLine(s, l1)) == WithCurLine(s, ResetUpTo(l1, BolEnd(l1, s.col) + 1))
  {
    var e := WithCurLine(s, l1);
    AllocLongEnough(l1, s.col + 1);
    assert e.col == s.col && e.row == s.row;
    assert CurLine(e) == l1;
    WithCurLineTwice(s, l1, ResetUpTo(l1, BolEnd(l1, s.col) + 1));
  }

  /** Erasing to the end of the line and then to its beginning erases the line. */
  lemma ClrEolThenBolIsClrLine(s: Screen)
    ensures ClrBol(ClrEol(s)) == ClrLine(s)
  {
    hide ClrBol, GetCurLine;
    var line := CurLine(s);
    var begin := EolStart(line, s.col);
    var l1 := ResetFrom(line, if begin < 0 then 0 else begin);
    assert ClrEol(s) == WithCurLine(s, l1);
    ClrBolAfterReplace(s, l1);
    BolAfterEolBlanks(l1, s.col);
    assert ResetLine(l1) == ResetLine(line);
  }

  /** At column 0 erasing to the end of the line erases the whole line. */
  lemma ClrEolAtColumnZero(s: Screen)
    requires s.col == 0
    ensures ClrEol(s) == ClrLine(s)
  {
    var e := ClrEol(s);
    var c := ClrLine(s);
    assert e.lines[s.row] == c.lines[s.row];
    assert |e.lines| == |c.lines|;
  }

  // ---------------------------------------------------------------------------
  // clr_eos
  // ---------------------------------------------------------------------------

  /** The loop `for row in range(begin, end)` of `clr_eos`: each `get_line(row)` grows
      the buffer to that row, and the row's cells are reset.  Rows outside the range
      are kept. */
  function ResetRows(lines: seq<Line>, begin: nat, end: nat): (r: seq<Line>)
    ensures |r| == if begin < end && |lines| < end then end else |lines|
    ensures forall i :: 0 <= i < |r| ==>
              r[i] == if begin <= i < end then ResetLine(LineAt(lines, i)) else LineAt(lines, i)
  {
    if begin < end then
      var grown := Reserve(lines, end);
      seq(|grown|, i requires 0 <= i < |grown| => if begin <= i < end then ResetLine(grown[i]) else grown[i])
    else
      lines
  }

  /** The first and one-past-last buffer rows of the screen, once the cursor's line
      has been made sure of. */
  function ScreenTop(s: Screen): (top: nat)
    ensures top == RowFromScreen(GetCurLine(s), 0)
  {
    Offset(GetCurLine(s))
  }

  /** The screen always ends at or past the buffer's last line. */
  function ScreenBottom(s: Screen): (bottom: nat)
    ensures var t := GetCurLine(s);
            bottom == RowFromScreen(t, t.rows) && bottom >= |t.lines|
  {
    var t := GetCurLine(s);
    Offset(t) + t.rows
  }

  /** `clr_eos` mode 0: the rest of the cursor's line and every screen row below it
      are erased; the rows above are kept. */
  function EraseBelow(s: Screen): (r: Screen)
    ensures var t := GetCurLine(s);
            && r == t.(lines := r.lines)
            && |r.lines| == ScreenBottom(s)
            && r.lines[s.row] == ClrEol(s).lines[s.row]
            && (forall i :: s.row < i < ScreenBottom(s) ==> AllBlank(r.lines[i]))
            && (forall i :: 0 <= i < s.row ==> r.lines[i] == t.lines[i])
  {
    var t := GetCurLine(s);
    EraseBelowLines(s, ClrEol(s));
    t.(lines := ResetRows(ClrEol(s).lines, s.row + 1, ScreenBottom(s)))
  }

  /** The rows `EraseBelow` leaves: the cleared cursor line, blanks down to the
      screen's bottom, and the rows above as they were. */
  lemma EraseBelowLines(s: Screen, c: Screen)
    requires c == ClrEol(s)
    ensures var t := GetCurLine(s);
            var r := ResetRows(c.lines, s.row + 1, ScreenBottom(s));
            && |r| == ScreenBottom(s)
            && r[s.row] == c.lines[s.row]
            && (forall i :: s.row < i < ScreenBottom(s) ==> AllBlank(r[i]))
            && (forall i :: 0 <= i < s.row ==> r[i] == t.lines[i])
  {
    hide ClrEol, GetCurLine, ScreenBottom, ResetRows, WithCurLine;
    var t := GetCurLine(s);
    var r := ResetRows(c.lines, s.row + 1, ScreenBottom(s));
    assert |c.lines| == |t.lines| <= ScreenBottom(s);
    forall i | s.row < i < ScreenBottom(s)
      ensures AllBlank(r[i])
    {
      assert r[i] == ResetLine(LineAt(c.lines, i));
    }
  }

  /** `clr_eos` mode 1: the screen rows above the cursor and the cursor's line up to
      the cursor are erased; the rows below are kept. */
  function EraseAbove(s: Screen): (r: Screen)
    ensures var t := GetCurLine(s);
            && r == t.(lines := r.lines)
            && |r.lines| == |t.lines|
            && r.lines[s.row] == ClrBol(s).lines[s.row]
            && (forall i :: ScreenTop(s) <= i < s.row ==> AllBlank(r.lines[i]))
            && (forall i :: 0 <= i < ScreenTop(s) && i != s.row ==> r.lines[i] == t.lines[i])
            && (forall i :: s.row < i < |r.lines| ==> r.lines[i] == t.lines[i])
  {
    var t := GetCurLine(s);
    t.(lines := ResetRows(ClrBol(s).lines, ScreenTop(s), s.row))
  }

  /** `clr_eos` with any other mode: every screen row is erased; the rows above the
      screen are kept. */
  function EraseScreen(s: Screen): (r: Screen)
    ensures var t := GetCurLine(s);
            && r == t.(lines := r.lines)
            && |r.lines| == ScreenBottom(s)
            && (forall i :: ScreenTop(s) <= i < ScreenBottom(s) ==> AllBlank(r.lines[i]))
            && (forall i :: 0 <= i < ScreenTop(s) ==> r.lines[i] == t.lines[i])
  {
    var t := GetCurLine(s);
    t.(lines := ResetRows(t.lines, ScreenTop(s), ScreenBottom(s)))
  }

  /** `clr_eos`: mode 0 (also when no parameter is given) erases below, mode 1 above,
      and any other mode the whole screen. */
  function ClrEos(s: Screen, params: seq<int>): (r: Screen)
    ensures |params| == 0 || params[0] == 0 ==> r == EraseBelow(s)
    ensures |params| > 0 && params[0] == 1 ==> r == EraseAbove(s)
    ensures |params| > 0 && params[0] != 0 && params[0] != 1 ==> r == EraseScreen(s)
  {
    if |params| == 0 || params[0] == 0 then EraseBelow(s)
    else if params[0] == 1 then EraseAbove(s)
    else EraseScreen(s)
  }

  /** With the cursor home on a screen whose first row exists, erasing to the end of
      the screen erases the whole screen. */
  lemma ClrEosFromHomeIsWholeScreen(s: Screen)
    requires s.col == 0 && s.row == Offset(s) && s.row < |s.lines|
    ensures ClrEos(s, []) == ClrEos(s, [2])
  {
    hide ClrEos, ClrEol, ClrBol, EraseAbove, ResetRows;
    var t := GetCurLine(s);
    var bottom := ScreenBottom(s);
    assert ScreenTop(s) == s.row;
    ClrEolAtColumnZero(s);
    var c := t.lines[s.row := ResetLine(t.lines[s.row])];
    assert ClrEol(s).lines == c;
    assert ClrEos(s, []) == t.(lines := ResetRows(c, s.row + 1, bottom));
    assert ClrEos(s, [2]) == t.(lines := ResetRows(t.lines, s.row, bottom));
    ResetRowsFromCleared(t.lines, s.row, bottom);
  }

  /** Resetting rows from `row` on is resetting `row` first and the rows below it
      after. */
  lemma ResetRowsFromCleared(lines: seq<Line>, row: nat, end: nat)
    requires row < |lines| <= end
    ensures ResetRows(lines[row := ResetLine(lines[row])], row + 1, end) == ResetRows(lines, row, end)
  {
    var a := ResetRows(lines[row := ResetLine(lines[row])], row + 1, end);
    var b := ResetRows(lines, row, end);
    assert |a| == |b|;
    forall i | 0 <= i < |a|
      ensures a[i] == b[i]
    {
    }
  }

  // ---------------------------------------------------------------------------
  // delete_chars
  // ---------------------------------------------------------------------------

  /** The `for i in range(i, end)` loop of `delete_chars`: cell `i` takes a copy of
      cell `i + count` when not overwriting and that cell exists, and is reset
      otherwise.  Cells are updated in place, in increasing order. */
  function DeleteLoop(line: Line, i: int, end: int, count: nat, overwrite: bool): (r: Line)
    requires 0 <= i + |line| && end <= |line|
    ensures |r| == |line|
    decreases end - i
  {
    if i >= end then line
    else
      var n := |line|;
      var cell := if !overwrite && i + count < n then line[PyIndex(i + count, n)] else Blank;
      DeleteLoop(line[PyIndex(i, n) := cell], i + 1, end, count, overwrite)
  }

  /** The loop's end: the line's end, or `begin + count` when overwriting within the
      line. */
  function DeleteEnd(n: nat, begin: int, count: nat, overwrite: bool): int {
    if !overwrite || begin + count > n then n else begin + count
  }

  /** `delete_chars` on one line, from a given start. */
  function DeleteCharsLine(line: Line, begin: int, count: nat, overwrite: bool): (r: Line)
    requires 0 <= begin + |line|
    ensures |r| == |line|
  {
    DeleteLoop(line, begin, DeleteEnd(|line|, begin, count, overwrite), count, overwrite)
  }

  /** What deleting `count` cells at `begin` should leave: the cells before `begin`
      kept; then, when not overwriting, the cells after the deleted ones moved left and
      blanks at the end; when overwriting, `count` blanks and then the rest kept. */
  function Deleted(orig: Line, begin: nat, count: nat, overwrite: bool): (r: Line)
    ensures |r| == |orig|
  {
    seq(|orig|, j requires 0 <= j < |orig| =>
      if j < begin then orig[j]
      else if overwrite then (if j < begin + count then Blank else orig[j])
      else if j + count < |orig| then orig[j + count]
      else Blank)
  }

  /** Without overwriting, deleting `count` cells is cutting them out and appending as
      many blanks. */
  lemma DeletedCutsOut(orig: Line, begin: nat, count: nat)
    requires begin + count <= |orig|
    ensures Deleted(orig, begin, count, false) == orig[..begin] + orig[begin + count..] + Blanks(count)
  {
    var a := Deleted(orig, begin, count, false);
    var b := orig[..begin] + orig[begin + count..] + Blanks(count);
    assert |b| == |a|;
    forall j | 0 <= j < |a|
      ensures a[j] == b[j]
    {
      if j < begin {
      } else if j + count < |orig| {
        assert b[j] == orig[begin + count..][j - begin];
      } else {
        assert b[j] == Blanks(count)[j - (|orig| - count)];
      }
    }
  }

  /** Overwriting `count` cells is replacing them by as many blanks. */
  lemma DeletedOverwrites(orig: Line, begin: nat, count: nat)
    requires begin + count <= |orig|
    ensures Deleted(orig, begin, count, true) == orig[..begin] + Blanks(count) + orig[begin + count..]
  {
    var a := Deleted(orig, begin, count, true);
    var b := orig[..begin] + Blanks(count) + orig[begin + count..];
    assert |b| == |a|;
    forall j | 0 <= j < |a|
      ensures a[j] == b[j]
    {
      if j < begin {
      } else if j < begin + count {
        assert b[j] == Blanks(count)[j - begin];
      } else {
        assert b[j] == orig[begin + count..][j - begin - count];
      }
    }
  }

  /** The loop, run from a non-negative `begin`, builds the target `d` cell by cell:
      cells before `i` are done, cells from `i` on are still the original ones.  Cell
      `k` of the target is the copy the loop makes at `k`. */
  lemma {:induction false} DeleteLoopBuilds(orig: Line, d: Line, line: Line, begin: nat, i: nat, end: nat, count: nat, overwrite: bool)
    requires begin <= i <= end <= |orig| == |line| == |d|
    requires forall k :: begin <= k < end ==>
               d[k] == if !overwrite && k + count < |orig| then orig[k + count] else Blank
    requires forall j :: 0 <= j < |line| ==> line[j] == if begin <= j < i then d[j] else orig[j]
    ensures forall j :: 0 <= j < |orig| ==>
              DeleteLoop(line, i, end, count, overwrite)[j] == if begin <= j < end then d[j] else orig[j]
    decreases end - i
  {
    if i < end {
      var n := |line|;
      var cell := if !overwrite && i + count < n then line[i + count] else Blank;
      assert cell == d[i] by {
        if !overwrite && i + count < n {
          assert line[i + count] == orig[i + count];
        }
      }
      var next := line[i := cell];
      assert DeleteLoop(line, i, end, count, overwrite) == DeleteLoop(next, i + 1, end, count, overwrite);
      DeleteLoopBuilds(orig, d, next, begin, i + 1, end, count, overwrite);
    } else {
      assert DeleteLoop(line, i, end, count, overwrite) == line;
    }
  }

  /** From a start inside the line, the loop computes `Deleted`. */
  lemma DeleteCharsLineIsDeleted(line: Line, begin: nat, count: nat, overwrite: bool)
    requires begin <= |line|
    ensures DeleteCharsLine(line, begin, count, overwrite) == Deleted(line, begin, count, overwrite)
  {
    var end := DeleteEnd(|line|, begin, count, overwrite);
    var d := Deleted(line, begin, count, overwrite);
    assert forall k :: begin <= k < end ==>
             d[k] == if !overwrite && k + count < |line| then line[k + count] else Blank;
    DeleteLoopBuilds(line, d, line, begin, begin, end, count, overwrite);
    var r := DeleteCharsLine(line, begin, count, overwrite);
    forall j | 0 <= j < |line|
      ensures r[j] == d[j]
    {
    }
  }

  /** Where `delete_chars` starts, as the source writes it: one cell left of the cursor
      whenever the cursor sits on NUL, even at column 0. */
  function DeleteStartAsWritten(line: Line, col: nat): (b: int)
    requires col < |line|
    ensures b == EolStart(line, col)
  {
    if line[col].ch == NUL then col - 1 else col
  }

  /** `delete_chars(count, overwrite)` as the source writes it. */
  function DeleteCharsAsWritten(s: Screen, count: nat, overwrite: bool): (r: Screen)
    ensures s.row < |r.lines| && r == WithCurLine(s, r.lines[s.row])
    ensures var line := CurLine(s);
            r.lines[s.row] == DeleteCharsLine(line, DeleteStartAsWritten(line, s.col), count, overwrite)
  {
    var line := CurLine(s);
    WithCurLine(s, DeleteCharsLine(line, DeleteStartAsWritten(line, s.col), count, overwrite))
  }

  const CellA: Cell := Cell('a', DefaultAttr, false)
  const CellB: Cell := Cell('b', DefaultAttr, false)
  const CellC: Cell := Cell('c', DefaultAttr, false)

  /** Deleting one cell at column 0 of a line that starts with an erased cell: the
      start becomes -1, the first copy writes the erased cell over the last cell, and
      the later copies move that blank left, so `c` is lost. */
  lemma DeleteCharsAsWrittenLosesCell()
    ensures DeleteCharsLine([Blank, CellA, CellB, CellC], DeleteStartAsWritten([Blank, CellA, CellB, CellC], 0), 1, false)
            == [CellA, CellB, Blank, Blank]
    ensures Deleted([Blank, CellA, CellB, CellC], 0, 1, false) == [CellA, CellB, CellC, Blank]
  {
    var l0 := [Blank, CellA, CellB, CellC];
    assert DeleteStartAsWritten(l0, 0) == -1;
    var l1 := [Blank, CellA, CellB, Blank];
    assert l0[3 := l0[0]] == l1;
    var l2 := [CellA, CellA, CellB, Blank];
    assert l1[0 := l1[1]] == l2;
    var l3 := [CellA, CellB, CellB, Blank];
    assert l2[1 := l2[2]] == l3;
    var l4 := [CellA, CellB, Blank, Blank];
    assert l3[2 := l3[3]] == l4;
    assert l4[3 := Blank] == l4;
    assert DeleteLoop(l4, 4, 4, 1, false) == l4;
    assert DeleteLoop(l4, 3, 4, 1, false) == l4;
    assert DeleteLoop(l3, 2, 4, 1, false) == l4;
    assert DeleteLoop(l2, 1, 4, 1, false) == l4;
    assert DeleteLoop(l1, 0, 4, 1, false) == l4;
    assert DeleteLoop(l0, -1, 4, 1, false) == l4;
    var d := Deleted(l0, 0, 1, false);
    assert d[0] == CellA && d[1] == CellB && d[2] == CellC && d[3] == Blank;
  }

  /** Where `delete_chars` evidently means to start: one cell left of the cursor when
      the cursor sits on the NUL half of a character, which needs a cell to its left. */
  function DeleteStart(line: Line, col: nat): (b: nat)
    requires col < |line|
    ensures b == col || (b + 1 == col && line[col].ch == NUL)
    ensures b == col <==> col == 0 || line[col].ch != NUL
  {
    if col > 0 && line[col].ch == NUL then col - 1 else col
  }

  /** `delete_chars(count, overwrite)` with the corrected start.  Only the cursor's
      line changes, and it becomes `Deleted`. */
  function DeleteChars(s: Screen, count: nat, overwrite: bool): (r: Screen)
    ensures s.row < |r.lines| && r == WithCurLine(s, r.lines[s.row])
    ensures var line := CurLine(s);
            r.lines[s.row] == Deleted(line, DeleteStart(line, s.col), count, overwrite)
  {
    var line := CurLine(s);
    var begin := DeleteStart(line, s.col);
    DeleteCharsLineIsDeleted(line, begin, count, overwrite);
    WithCurLine(s, DeleteCharsLine(line, begin, count, overwrite))
  }

  /** Away from column 0 the two starts agree, so the source's result is the
      corrected one. */
  lemma DeleteCharsAgreesAwayFromZero(s: Screen, count: nat, overwrite: bool)
    requires s.col > 0
    ensures DeleteCharsAsWritten(s, count, overwrite) == DeleteChars(s, count, overwrite)
  {
  }

  /** Deleting no cells leaves the line as it is. */
  lemma DeletedNothing(line: Line, begin: nat, overwrite: bool)
    ensures Deleted(line, begin, 0, overwrite) == line
  {
    var d := Deleted(line, begin, 0, overwrite);
    forall j | 0 <= j < |line|
      ensures d[j] == line[j]
    {
    }
  }

  /** Deleting nothing changes nothing beyond making sure of the cursor's line. */
  lemma DeleteNothing(s: Screen, overwrite: bool)
    ensures DeleteChars(s, 0, overwrite) == GetCurLine(s)
  {
    var line := CurLine(s);
    DeletedNothing(line, DeleteStart(line, s.col), overwrite);
    var r := DeleteChars(s, 0, overwrite);
    assert r == WithCurLine(s, line);
    WithCurLineUnchanged(s);
  }
}

=== FILE: grid.dfy ===
/** Cells and lines, the minimal part of the `term` package (`Cell`, `Line`,
    `reserve`) that pymterm/term/terminal_gui.py relies on.  That package is not part
    of this model.  A line is a plain sequence of cells.  It grows on demand with
    blank cells, and a reset turns a cell back into the blank cell. */
module Grid {
  import opened Attributes

  /** The NUL character marks an erased cell and the trailing half of a wide
      character. */
  const NUL: char := '\0'

  datatype Cell = Cell(ch: char, attr: Attr, wide: bool)

  /** The cell `Cell.reset()` produces, and the one `alloc_cells` appends. */
  const Blank: Cell := Cell(NUL, DefaultAttr, false)

  type Line = seq<Cell>

  function Blanks(n: nat): (r: Line)
    ensures |r| == n
    ensures forall i :: 0 <= i < n ==> r[i] == Blank
  {
    seq(n, _ => Blank)
  }

  predicate AllBlank(line: Line) {
    forall i :: 0 <= i < |line| ==> line[i] == Blank
  }

  /** `line.alloc_cells(n)`: grow the line with blank cells to at least `n` cells. */
  function Alloc(line: Line, n: nat): (r: Line)
    ensures |r| == if |line| < n then n else |line|
    ensures r[..|line|] == line
    ensures forall i :: |line| <= i < |r| ==> r[i] == Blank
  {
    if |line| < n then line + Blanks(n - |line|) else line
  }

  /** Growing an empty line gives a line of blanks. */
  lemma AllocEmpty(n: nat)
    ensures Alloc([], n) == Blanks(n)
  {
    assert Alloc([], n) == [] + Blanks(n);
  }

  /** A line already long enough is not touched. */
  lemma AllocLongEnough(line: Line, n: nat)
    requires n <= |line|
    ensures Alloc(line, n) == line
  {
  }

  /** Every cell of the line reset; the line keeps its length. */
  function ResetLine(line: Line): (r: Line)
    ensures |r| == |line| && AllBlank(r)
  {
    Blanks(|line|)
  }

  /** Cells `[from, |line|)` reset, the others kept. */
  function ResetFrom(line: Line, from: nat): (r: Line)
    ensures |r| == |line|
    ensures forall i :: 0 <= i < |line| ==> r[i] == if i < from then line[i] else Blank
  {
    if from < |line| then line[..from] + Blanks(|line| - from) else line
  }

  /** Cells `[0, upto)` reset, the others kept. */
  function ResetUpTo(line: Line, upto: nat): (r: Line)
    ensures |r| == |line|
    ensures forall i :: 0 <= i < |line| ==> r[i] == if i < upto then Blank else line[i]
  {
    if upto < |line| then Blanks(upto) + line[upto..] else Blanks(|line|)
  }

  /** `reserve(lines, n, Line())`: grow the list with empty lines to at least `n`
      lines. */
  function Reserve(lines: seq<Line>, n: nat): (r: seq<Line>)
    ensures |r| == if |lines| < n then n else |lines|
    ensures r[..|lines|] == lines
    ensures forall i :: |lines| <= i < |r| ==> r[i] == []
  {
    if |lines| < n then lines + seq(n - |lines|, _ => []) else lines
  }

  /** The line `get_line(i)` returns, before any cells are allocated in it. */
  function LineAt(lines: seq<Line>, i: nat): Line {
    if i < |lines| then lines[i] else []
  }

  // ---------------------------------------------------------------------------
  // Growth by allocation
  // ---------------------------------------------------------------------------

  /** `b` is `a` with blank cells appended: the same text, allocated further. */
  predicate Grows(a: Line, b: Line) {
    && |a| <= |b|
    && b[..|a|] == a
    && (forall j :: |a| <= j < |b| ==> b[j] == Blank)
  }

  /** Two buffers of the same length, each line of the second grown from the
      corresponding line of the first. */
  predicate LinesGrow(a: seq<Line>, b: seq<Line>) {
    |a| == |b| && forall i :: 0 <= i < |a| ==> Grows(a[i], b[i])
  }

  lemma AllocGrows(line: Line, n: nat)
    ensures Grows(line, Alloc(line, n))
  {
  }

  lemma GrowsTrans(a: Line, b: Line, c: Line)
    requires Grows(a, b) && Grows(b, c)
    ensures Grows(a, c)
  {
    assert c[..|a|] == c[..|b|][..|a|];
    forall j | |a| <= j < |c|
      ensures c[j] == Blank
    {
      if j < |b| {
        assert c[j] == c[..|b|][j] == b[j];
      }
    }
  }

  lemma LinesGrowRefl(a: seq<Line>)
    ensures LinesGrow(a, a)
  {
    forall i | 0 <= i < |a|
      ensures Grows(a[i], a[i])
    {
      assert a[i][..|a[i]|] == a[i];
    }
  }

  lemma LinesGrowTrans(a: seq<Line>, b: seq<Line>, c: seq<Line>)
    requires LinesGrow(a, b) && LinesGrow(b, c)
    ensures LinesGrow(a, c)
  {
    forall i | 0 <= i < |a|
      ensures Grows(a[i], c[i])
    {
      GrowsTrans(a[i], b[i], c[i]);
    }
  }
}

=== FILE: printing.dfy ===
/** The non-insert print path of pymterm/term/terminal_gui.py: `save_buffer`,
    `_save_buffer` and `wrap_line`.  A printed unit is one decoded character followed,
    for a wide character, by a NUL that fills the second cell. */
module Printing {
  import opened Attributes
  import opened Grid
  import opened Screen
  import Scrolling
  import Cursor

  /** A decoded character and whether it takes two cells.  The UTF-8 decoding and the
      width lookup that produce it are not part of this model. */
  datatype Glyph = Glyph(ch: char, wide: bool)

  /** Every character of `chars` is NUL. */
  predicate Nuls(chars: string) {
    forall i :: 0 <= i < |chars| ==> chars[i] == NUL
  }

  /** The unit `save_buffer` writes: the character, plus a NUL for a wide one. */
  function Unit(g: Glyph): (c: string)
    ensures |c| == (if g.wide then 2 else 1) && c[0] == g.ch
    ensures g.wide ==> c[1] == NUL
    ensures Nuls(c[1..])
  {
    if g.wide then [g.ch, NUL] else [g.ch]
  }

  /** The glyph stored at a cell. */
  function ReadGlyph(line: Line, col: nat): Glyph
    requires col < |line|
  {
    Glyph(line[col].ch, line[col].wide)
  }

  // ---------------------------------------------------------------------------
  // _save_buffer
  // ---------------------------------------------------------------------------

  /** `_save_buffer(c)` without insert: grow the cursor's line to hold the unit, write
      its first character under the cursor with the current attribute, flagged wide
      when the unit has two characters, then its second character in the next cell,
      advancing the cursor past each.  No other cell and no other line changes. */
  function SaveCells(s: Screen, c: string): (r: Screen)
    requires 1 <= |c|
    ensures var t := GetCurLine(s);
            && r == t.(lines := r.lines, col := r.col)
            && |r.lines| == |t.lines|
            && (forall i :: 0 <= i < |r.lines| && i != s.row ==> r.lines[i] == t.lines[i])
    ensures r.col == s.col + (if |c| > 1 then 2 else 1)
    ensures var prev := GetCurLine(s).lines[s.row];
            var line := r.lines[s.row];
            && |line| == (if |prev| < s.col + |c| then s.col + |c| else |prev|)
            && line[s.col] == Cell(c[0], s.attr, |c| > 1)
            && (|c| > 1 ==> line[s.col + 1] == Cell(c[1], s.attr, true))
            && (forall j :: 0 <= j < |line| && j != s.col && (|c| == 1 || j != s.col + 1) ==>
                  line[j] == if j < |prev| then prev[j] else Blank)
  {
    var t := GetCurLine(s);
    var line := Alloc(t.lines[s.row], s.col + |c|);
    var first := line[s.col := Cell(c[0], s.attr, |c| > 1)];
    if |c| > 1 then
      t.(lines := t.lines[s.row := first[s.col + 1 := Cell(c[1], s.attr, true)]], col := s.col + 2)
    else
      t.(lines := t.lines[s.row := first], col := s.col + 1)
  }

  /** What was saved reads back as the glyph, and a wide glyph's second cell holds the
      NUL continuation. */
  lemma SaveCellsReadsBack(s: Screen, g: Glyph)
    ensures var r := SaveCells(s, Unit(g));
            && s.col < |r.lines[s.row]|
            && ReadGlyph(r.lines[s.row], s.col) == g
            && (g.wide ==> s.col + 1 < |r.lines[s.row]| && r.lines[s.row][s.col + 1] == Cell(NUL, s.attr, true))
            && r.col == s.col + |Unit(g)|
  {
  }

  /** Two narrow characters printed in a row sit side by side. */
  lemma SaveCellsSideBySide(s: Screen, a: char, b: char)
    ensures var r := SaveCells(SaveCells(s, [a]), [b]);
            && r.row == s.row && r.col == s.col + 2
            && s.col + 1 < |r.lines[s.row]|
            && r.lines[s.row][s.col] == Cell(a, s.attr, false)
            && r.lines[s.row][s.col + 1] == Cell(b, s.attr, false)
  {
    var m := SaveCells(s, [a]);
    assert m.row == s.row && m.attr == s.attr && m.col == s.col + 1;
    assert m.lines[s.row][s.col] == Cell(a, s.attr, false);
  }

  // ---------------------------------------------------------------------------
  // wrap_line
  // ---------------------------------------------------------------------------

  /** The loop of `wrap_line`: each character that is not NUL is saved on its own. */
  function SaveEach(s: Screen, chars: string): (r: Screen)
    ensures r == s.(lines := r.lines, col := r.col)
    decreases |chars|
  {
    if chars == [] then s
    else if chars[0] == NUL then SaveEach(s, chars[1..])
    else SaveEach(SaveCells(s, [chars[0]]), chars[1..])
  }

  /** NULs alone save nothing. */
  lemma {:induction false} SaveEachNuls(s: Screen, chars: string)
    requires Nuls(chars)
    ensures SaveEach(s, chars) == s
    decreases |chars|
  {
    if chars != [] {
      assert chars[0] == NUL;
      SaveEachNuls(s, chars[1..]);
    }
  }

  /** A character followed only by NULs saves as that character alone. */
  lemma SaveEachFirst(s: Screen, chars: string)
    requires |chars| > 0 && chars[0] != NUL
    requires Nuls(chars[1..])
    ensures SaveEach(s, chars) == SaveCells(s, [chars[0]])
  {
    SaveEachNuls(SaveCells(s, [chars[0]]), chars[1..]);
  }

  /** The two shapes of a printed unit: a character followed by NULs saves as the
      character alone, and NULs alone save nothing. */
  lemma SaveEachUnit(s: Screen, chars: string)
    ensures |chars| > 0 && chars[0] != NUL && Nuls(chars[1..]) ==>
              SaveEach(s, chars) == SaveCells(s, [chars[0]])
    ensures Nuls(chars) ==> SaveEach(s, chars) == s
  {
    if |chars| > 0 && chars[0] != NUL && Nuls(chars[1..]) {
      SaveEachFirst(s, chars);
    }
    if Nuls(chars) {
      SaveEachNuls(s, chars);
    }
  }

  /** Rewrapping a wide character's unit saves the character alone: one narrow cell
      and one column of advance, where saving the unit itself gives a wide cell, its
      NUL continuation and two columns. */
  lemma SaveEachDropsContinuation(s: Screen, ch: char)
    requires ch != NUL
    ensures SaveEach(s, Unit(Glyph(ch, true))) == SaveCells(s, [ch])
    ensures var r := SaveEach(s, Unit(Glyph(ch, true)));
            r.col == s.col + 1 && r.lines[s.row][s.col] == Cell(ch, s.attr, false)
    ensures var r := SaveCells(s, Unit(Glyph(ch, true)));
            r.col == s.col + 2 && r.lines[s.row][s.col] == Cell(ch, s.attr, true)
  {
    SaveEachFirst(s, Unit(Glyph(ch, true)));
  }

  /** `wrap_line(chars, False)` as the source writes it: column 0 of the next row
      (`cursor_down`, scrolling at the region's bottom), then every character but NUL
      saved on its own.  A character followed by NULs, such as a wide character's
      unit, lands as one narrow cell on column 0 with the cursor on column 1; NULs
      alone leave the cursor on column 0. */
  function WrapLineAsWritten(s: Screen, chars: string): (r: Screen)
    ensures var reg := Scrolling.GetScrollRegion(s.(col := 0)).1;
            && (s.row <= reg.end ==> r.row == Cursor.Min(s.row + 1, reg.end))
            && (s.row > reg.end ==> r.row == s.row + 1)
    ensures r == s.(lines := r.lines, history := r.history, region := r.region, row := r.row, col := r.col)
    ensures s.history <= r.history
    ensures |chars| > 0 && chars[0] != NUL && Nuls(chars[1..]) ==>
              && r.col == 1 && r.row < |r.lines| && |r.lines[r.row]| >= 1
              && r.lines[r.row][0] == Cell(chars[0], s.attr, false)
    ensures Nuls(chars) ==>
              r == Scrolling.ParmDownCursor(s.(col := 0), [])
  {
    var d := Scrolling.ParmDownCursor(s.(col := 0), []);
    SaveEachUnit(d, chars);
    SaveEach(d, chars)
  }

  /** `wrap_line` with the unit saved whole, as the print path evidently intends: the
      wide flag and the NUL continuation survive the wrap. */
  function WrapLine(s: Screen, c: string): (r: Screen)
    requires 1 <= |c|
    ensures var reg := Scrolling.GetScrollRegion(s.(col := 0)).1;
            && (s.row <= reg.end ==> r.row == Cursor.Min(s.row + 1, reg.end))
            && (s.row > reg.end ==> r.row == s.row + 1)
    ensures r.col == (if |c| > 1 then 2 else 1) && r.attr == s.attr
    ensures r.row < |r.lines| && |r.lines[r.row]| >= |c|
    ensures r.lines[r.row][0] == Cell(c[0], s.attr, |c| > 1)
    ensures |c| > 1 ==> r.lines[r.row][1] == Cell(c[1], s.attr, true)
    ensures s.history <= r.history
  {
    SaveCells(Scrolling.ParmDownCursor(s.(col := 0), []), c)
  }

  // ---------------------------------------------------------------------------
  // save_buffer
  // ---------------------------------------------------------------------------

  /** `save_buffer(c)` without insert, as the source writes it: make sure of the
      cursor's line, then save the unit in place when it fits before the right edge,
      and wrap it with `wrap_line` otherwise.  A wrapped wide glyph arrives narrow, on
      column 0 of the next row, with the cursor on column 1. */
  function SaveBufferAsWritten(s: Screen, g: Glyph): (r: Screen)
    ensures r.attr == s.attr
    ensures s.col + |Unit(g)| <= s.cols ==>
              && r.row == s.row && r.col == s.col + |Unit(g)| && s.row < |r.lines|
              && s.col < |r.lines[s.row]| && ReadGlyph(r.lines[s.row], s.col) == g
              && (g.wide ==> s.col + 1 < |r.lines[s.row]| && r.lines[s.row][s.col + 1].ch == NUL)
    ensures s.col + |Unit(g)| > s.cols && g.ch != NUL ==>
              && r.col == 1
              && r.row < |r.lines| && 0 < |r.lines[r.row]| && ReadGlyph(r.lines[r.row], 0) == Glyph(g.ch, false)
    ensures s.col + |Unit(g)| > s.cols && g.ch == NUL ==> r.col == 0
    ensures s.col + |Unit(g)| > s.cols ==>
              var reg := Scrolling.GetScrollRegion(GetCurLine(s).(col := 0)).1;
              r.row == s.row + 1 || (r.row == s.row && s.row == reg.end)
  {
    var t := GetCurLine(s);
    var c := Unit(g);
    if t.col + |c| > t.cols then
      WrapLineAsWritten(t, c)
    else
      SaveCellsReadsBack(t, g);
      SaveCells(t, c)
  }

  /** On the path that fits, `save_buffer` changes nothing but the unit's cells and
      the cursor's column: every other line, and every cell of the cursor's line
      outside the unit, is as `get_cur_line` left it.  On either path only the lines,
      the scrollback, the scroll region (which a wrap sets to the whole screen when
      it was unset) and the cursor change. */
  lemma SaveBufferAsWrittenFrame(s: Screen, g: Glyph)
    ensures var r := SaveBufferAsWritten(s, g);
            r == s.(lines := r.lines, history := r.history, region := r.region, row := r.row, col := r.col)
    ensures var r, t := SaveBufferAsWritten(s, g), GetCurLine(s);
            s.col + |Unit(g)| <= s.cols ==>
              && r.history == s.history
              && |r.lines| == |t.lines|
              && (forall i :: 0 <= i < |r.lines| && i != s.row ==> r.lines[i] == t.lines[i])
              && (forall j :: 0 <= j < |t.lines[s.row]| && !(s.col <= j < s.col + |Unit(g)|) ==>
                    r.lines[s.row][j] == t.lines[s.row][j])
  {
    hide WrapLineAsWritten, SaveCells;
    var t := GetCurLine(s);
    if t.col + |Unit(g)| <= t.cols {
      assert SaveBufferAsWritten(s, g) == SaveCells(t, Unit(g));
      GetCurLineIdempotent(s);
    }
  }

  /** `save_buffer(c)` without insert, corrected to wrap the unit whole: the glyph
      reads back intact on either path. */
  function SaveBuffer(s: Screen, g: Glyph): (r: Screen)
    ensures r.attr == s.attr
    ensures s.col + |Unit(g)| <= s.cols ==>
              && r.row == s.row && r.col == s.col + |Unit(g)| && s.row < |r.lines|
              && s.col < |r.lines[s.row]| && ReadGlyph(r.lines[s.row], s.col) == g
              && (g.wide ==> s.col + 1 < |r.lines[s.row]| && r.lines[s.row][s.col + 1].ch == NUL)
    ensures s.col + |Unit(g)| > s.cols ==>
              && r.col == |Unit(g)|
              && r.row < |r.lines| && 0 < |r.lines[r.row]| && ReadGlyph(r.lines[r.row], 0) == g
              && (g.wide ==> 1 < |r.lines[r.row]| && r.lines[r.row][1].ch == NUL)
    ensures s.col + |Unit(g)| > s.cols ==>
              var reg := Scrolling.GetScrollRegion(GetCurLine(s).(col := 0)).1;
              r.row == s.row + 1 || (r.row == s.row && s.row == reg.end)
  {
    var t := GetCurLine(s);
    var c := Unit(g);
    if t.col + |c| > t.cols then
      WrapLine(t, c)
    else
      SaveCellsReadsBack(t, g);
      SaveCells(t, c)
  }

  /** The source's print path and the corrected one part only on a wide glyph that
      must wrap: everywhere else they leave the same screen. */
  lemma SaveBufferAsWrittenAgrees(s: Screen, g: Glyph)
    requires g.ch != NUL
    ensures s.col + |Unit(g)| <= s.cols || !g.wide ==> SaveBufferAsWritten(s, g) == SaveBuffer(s, g)
  {
    var t := GetCurLine(s);
    if t.col + |Unit(g)| > t.cols && !g.wide {
      SaveEachFirst(Scrolling.ParmDownCursor(t.(col := 0), []), Unit(g));
    }
  }
}

=== FILE: reports.dfy ===
/** Replies to the host and the scrollback view of pymterm/term/terminal_gui.py:
    `user7`, which answers a device status report, and `view_history`, which pages the
    view through the scrollback. */
module Reports {
  import opened Wrappers
  import opened Slices
  import opened Screen
  import Cursor

  // ---------------------------------------------------------------------------
  // Decimal numerals
  // ---------------------------------------------------------------------------

  predicate IsDigit(c: char) {
    '0' <= c <= '9'
  }

  predicate AllDigits(s: string) {
    forall i :: 0 <= i < |s| ==> IsDigit(s[i])
  }

  function DigitChar(d: nat): (c: char)
    requires d < 10
    ensures IsDigit(c)
  {
    ['0', '1', '2', '3', '4', '5', '6', '7', '8', '9'][d]
  }

  function DigitValue(c: char): (d: nat)
    requires IsDigit(c)
    ensures d < 10
  {
    (c as int - '0' as int)
  }

  lemma DigitValueOfChar(d: nat)
    requires d < 10
    ensures DigitValue(DigitChar(d)) == d
  {
  }

  /** Python's `str(n)` for a natural number: decimal digits without leading zeros. */
  function Digits(n: nat): (r: string)
    ensures 1 <= |r| && AllDigits(r)
    ensures |r| > 1 ==> r[0] != '0'
  {
    if n < 10 then [DigitChar(n)] else Digits(n / 10) + [DigitChar(n % 10)]
  }

  /** Reading decimal digits back as a number. */
  function ParseDigits(s: string): nat
    requires AllDigits(s)
  {
    if s == [] then 0 else 10 * ParseDigits(s[..|s| - 1]) + DigitValue(s[|s| - 1])
  }

  lemma {:induction false} DigitsRoundTrip(n: nat)
    ensures ParseDigits(Digits(n)) == n
  {
    var d := Digits(n);
    if n < 10 {
      DigitValueOfChar(n);
    } else {
      DigitsRoundTrip(n / 10);
      assert d[..|d| - 1] == Digits(n / 10);
      DigitValueOfChar(n % 10);
    }
  }

  /** Python's `str(i)` for any integer. */
  function IntToString(i: int): (r: string)
    ensures i >= 0 ==> r == Digits(i)
    ensures i < 0 ==> r == ['-'] + Digits(-i)
  {
    if i < 0 then ['-'] + Digits(-i) else Digits(i)
  }

  // ---------------------------------------------------------------------------
  // user7
  // ---------------------------------------------------------------------------

  const Esc: char := '\U{1B}'

  /** The cursor position report (CPR, section 8.3.14 of ECMA-48): CSI, the line,
      `;`, the column, `R`, both one-based. */
  function CursorReport(line: int, column: int): string {
    [Esc, '['] + IntToString(line) + [';'] + IntToString(column) + ['R']
  }

  /** The status report "ready, no malfunction" (DSR reply `CSI 0 n`, section 8.3.35
      of ECMA-48). */
  const StatusOk: string := [Esc, '[', '0', 'n']

  /** `user7`: the reply to a device status report.  Parameter 6 asks for the cursor
      position, parameter 5 for the status; other values send nothing, which is the
      empty reply.  Without a parameter the source fails on the missing index, which
      is `None`. */
  function User7(s: Screen, params: seq<int>): (r: Option<string>)
    ensures r.None? <==> |params| == 0
    ensures |params| > 0 && params[0] == 6 ==>
              r == Some(CursorReport(GetCursor(s).1 + 1, GetCursor(s).0 + 1))
    ensures |params| > 0 && params[0] == 5 ==> r == Some(StatusOk)
    ensures |params| > 0 && params[0] != 5 && params[0] != 6 ==> r == Some([])
  {
    if |params| == 0 then None
    else if params[0] == 6 then
      var (col, row) := GetCursor(s);
      Some(CursorReport(row + 1, col + 1))
    else if params[0] == 5 then Some(StatusOk)
    else Some([])
  }

  /** The index of the first `;` in `s`, if any. */
  function FindSemicolon(s: string): (r: Option<nat>)
    ensures r.Some? ==> r.value < |s| && s[r.value] == ';' && forall k :: 0 <= k < r.value ==> s[k] != ';'
    ensures r.None? ==> forall k :: 0 <= k < |s| ==> s[k] != ';'
  {
    if s == [] then None
    else if s[0] == ';' then Some(0)
    else match FindSemicolon(s[1..])
      case None => None
      case Some(k) => Some(k + 1)
  }

  /** A host reading a cursor position report: `CSI line ; column R` with both numbers
      unsigned. */
  function ParseCursorReport(s: string): (r: Option<(nat, nat)>)
  {
    if |s| < 3 || s[0] != Esc || s[1] != '[' || s[|s| - 1] != 'R' then None
    else
      var body := s[2..|s| - 1];
      match FindSemicolon(body)
      case None => None
      case Some(k) =>
        var line, column := body[..k], body[k + 1..];
        if AllDigits(line) && AllDigits(column) then Some((ParseDigits(line), ParseDigits(column)))
        else None
  }

  /** The first `;` after a run of digits is the one that ends the run. */
  lemma SemicolonAfterDigits(a: string, b: string)
    requires AllDigits(a)
    ensures FindSemicolon(a + [';'] + b) == Some(|a|)
  {
    var body := a + [';'] + b;
    assert body[|a|] == ';';
    assert forall k :: 0 <= k < |a| ==> body[k] == a[k];
  }

  /** A cursor position report reads back as the position it reports. */
  lemma CursorReportParses(line: nat, column: nat)
    ensures ParseCursorReport(CursorReport(line, column)) == Some((line, column))
  {
    var a, b := Digits(line), Digits(column);
    var reply := CursorReport(line, column);
    assert reply == [Esc, '['] + a + [';'] + b + ['R'];
    var body := reply[2..|reply| - 1];
    assert body == a + [';'] + b;
    SemicolonAfterDigits(a, b);
    assert body[..|a|] == a;
    assert body[|a| + 1..] == b;
    assert reply[0] == Esc && reply[1] == '[' && reply[|reply| - 1] == 'R';
    assert ParseCursorReport(reply) == Some((ParseDigits(a), ParseDigits(b)));
    DigitsRoundTrip(line);
    DigitsRoundTrip(column);
  }

  /** A host reads back the position that `user7` reports, one-based, whenever the
      cursor lies on the visible screen. */
  lemma CursorReportReadsBack(s: Screen)
    requires s.row >= Offset(s)
    ensures var (col, row) := GetCursor(s);
            User7(s, [6]).Some? && ParseCursorReport(User7(s, [6]).value) == Some((row + 1, col + 1))
  {
    hide User7, ParseCursorReport, CursorReport;
    var (col, row) := GetCursor(s);
    CursorReportParses(row + 1, col + 1);
  }

  // ---------------------------------------------------------------------------
  // view_history
  // ---------------------------------------------------------------------------

  /** Everything that can be scrolled through: scrollback first, then the buffer. */
  function HistoryText(s: Screen): (r: seq<Grid.Line>)
    ensures |r| == |s.history| + |s.lines|
  {
    s.history + s.lines
  }

  /** The page a history view starting at `begin` shows (`get_text` while viewing
      history): a Python slice of `rows` lines. */
  function HistoryWindow(s: Screen, begin: nat): seq<Grid.Line> {
    Slice(HistoryText(s), begin, begin + s.rows)
  }

  /** The move `view_history` makes before clamping: a page up or down from the
      current view, or, when not yet viewing history, two pages above the end on page
      up. */
  function ViewTarget(s: Screen, pageup: bool): Option<int> {
    var total := |HistoryText(s)|;
    match s.viewBegin
    case Some(b) => Some(if pageup then b - s.rows else b + s.rows)
    case None => if pageup then Some(total - 2 * s.rows) else None
  }

  /** The clamp as the source writes it: below 0 becomes 0, and only a start past the
      end of the text is pulled back to the last page. */
  function ClampAsWritten(b: int, total: nat, rows: Pos): int {
    var lo := if b < 0 then 0 else b;
    if lo > total then total - rows else lo
  }

  /** `view_history(pageup)` as the source writes it: nothing happens while everything
      fits on the screen, or on page down while not viewing history. */
  function ViewHistoryAsWritten(s: Screen, pageup: bool): (r: Screen)
    ensures r == s.(viewBegin := r.viewBegin)
    ensures |HistoryText(s)| <= s.rows || ViewTarget(s, pageup).None? ==> r == s
    ensures |HistoryText(s)| > s.rows && ViewTarget(s, pageup).Some? ==>
              r.viewBegin.Some? && 0 <= r.viewBegin.value <= |HistoryText(s)|
  {
    var total := |HistoryText(s)|;
    if total <= s.rows then s
    else match ViewTarget(s, pageup)
      case None => s
      case Some(b) => s.(viewBegin := Some(ClampAsWritten(b, total, s.rows)))
  }

  /** Paging down from the last page moves the view past the text: on a 24-row
      screen with 48 lines of text, the view starts at line 48 and shows nothing. */
  lemma ViewHistoryAsWrittenPagesPastEnd(s: Screen)
    requires s.rows == 24 && |s.history| == 24 && |s.lines| == 24 && s.viewBegin == Some(24)
    ensures ViewHistoryAsWritten(s, false).viewBegin == Some(48)
    ensures HistoryWindow(s, 48) == []
  {
  }

  /** The clamp the source evidently intends: the view starts between the first line
      and the start of the last full page. */
  function Clamp(b: int, total: nat, rows: Pos): (r: int)
    requires total > rows
    ensures 0 <= r <= total - rows
    ensures 0 <= b <= total - rows ==> r == b
    ensures b < 0 ==> r == 0
    ensures b > total - rows ==> r == total - rows
  {
    var lo := if b < 0 then 0 else b;
    if lo > total - rows then total - rows else lo
  }

  /** `view_history(pageup)` with the corrected clamp. */
  function ViewHistory(s: Screen, pageup: bool): (r: Screen)
    ensures r == s.(viewBegin := r.viewBegin)
    ensures |HistoryText(s)| <= s.rows || ViewTarget(s, pageup).None? ==> r == s
    ensures |HistoryText(s)| > s.rows && ViewTarget(s, pageup).Some? ==>
              && r.viewBegin.Some?
              && 0 <= r.viewBegin.value <= |HistoryText(s)| - s.rows
              && |HistoryWindow(s, r.viewBegin.value)| == s.rows
  {
    var total := |HistoryText(s)|;
    if total <= s.rows then s
    else match ViewTarget(s, pageup)
      case None => s
      case Some(b) => s.(viewBegin := Some(Clamp(b, total, s.rows)))
  }

  /** Page up then page down returns to the same view, as long as the first page
      did not stop at the top. */
  lemma PageUpThenDown(s: Screen, b: nat)
    requires s.viewBegin == Some(b) && s.rows <= b && b + s.rows <= |HistoryText(s)|
    ensures ViewHistory(ViewHistory(s, true), false) == s
  {
  }

  /** Page down then page up returns to the same view, as long as the first page
      did not stop at the bottom. */
  lemma PageDownThenUp(s: Screen, b: nat)
    requires s.viewBegin == Some(b) && b + 2 * s.rows <= |HistoryText(s)|
    ensures ViewHistory(ViewHistory(s, false), true) == s
  {
  }

  /** Wherever the corrected view starts, paging down often enough reaches the last
      page and stays there. */
  lemma PageDownStopsAtLastPage(s: Screen, b: nat)
    requires s.viewBegin == Some(b) && |HistoryText(s)| > s.rows && b + s.rows >= |HistoryText(s)| - s.rows
    ensures ViewHistory(s, false).viewBegin == Some(|HistoryText(s)| - s.rows)
    ensures HistoryWindow(s, |HistoryText(s)| - s.rows) == HistoryText(s)[|HistoryText(s)| - s.rows..]
  {
  }
}

=== FILE: screen.dfy ===
/** The screen state that the handlers of `TerminalGUI` (pymterm/term/terminal_gui.py)
    mutate, as an immutable record, plus the row-space translation between screen rows
    and buffer rows and the alternate-screen save slot. */
module Screen {
  import opened Wrappers
  import opened Attributes
  import opened Grid

  /** Widget dimensions: the widget never reports fewer than one row or column. */
  type Pos = n: int | n >= 1 witness 1

  /** `scroll_region`: inclusive bounds, in buffer rows. */
  datatype Region = Region(begin: nat, end: nat)

  /** What `enter_ca_mode` saves: `saved_lines`, `saved_col`, `saved_row`,
      `saved_cur_line_option`.  The source saves the attribute object itself, and
      `exit_ca_mode` puts that same object back, so after an exit the slot and the
      screen share one attribute that `set_attributes` changes in place.  `attrShared`
      records that sharing: while it is set, the slot's attribute is the screen's
      current one and `attr` is stale. */
  datatype Saved = Saved(lines: seq<Line>, col: nat, row: nat, attr: Attr, attrShared: bool)

  /** The screen.  `lines` is the buffer: the visible rows are its last `rows`
      lines once it has grown past them.  `saved` is `None` until the alternate screen
      is first entered.  `viewBegin` is `view_history_begin`. */
  datatype Screen = Screen(
    cols: Pos, rows: Pos,
    lines: seq<Line>, history: seq<Line>,
    col: nat, row: nat,
    region: Option<Region>,
    attr: Attr,
    saved: Option<Saved>,
    viewBegin: Option<int>)

  /** The screen of a new terminal (`TerminalGUI.__init__`). */
  function NewScreen(cols: Pos, rows: Pos): Screen {
    Screen(cols, rows, [], [], 0, 0, None, DefaultAttr, None, None)
  }

  // ---------------------------------------------------------------------------
  // Row-space translation
  // ---------------------------------------------------------------------------

  /** How many buffer lines lie above the visible screen. */
  function Offset(s: Screen): (o: nat)
    ensures |s.lines| > s.rows ==> o + s.rows == |s.lines|
    ensures |s.lines| <= s.rows ==> o == 0
  {
    if |s.lines| <= s.rows then 0 else |s.lines| - s.rows
  }

  /** `_row_from_screen(s_row)`: a screen row as a buffer row. */
  function RowFromScreen(s: Screen, screenRow: int): (r: int)
    ensures |s.lines| <= s.rows ==> r == screenRow
    ensures |s.lines| > s.rows ==> r == screenRow + |s.lines| - s.rows
    ensures screenRow == s.rows ==> r >= |s.lines|
  {
    screenRow + Offset(s)
  }

  /** `get_cursor()`: the cursor in screen rows. */
  function GetCursor(s: Screen): (r: (int, int))
    ensures r.0 == s.col && RowFromScreen(s, r.1) == s.row
    ensures s.row >= Offset(s) ==> 0 <= r.1
  {
    (s.col, s.row - Offset(s))
  }

  /** `set_cursor(col, row)`: place the cursor at a screen position.  Only the cursor
      changes, and `get_cursor` reads the position back. */
  function SetCursor(s: Screen, col: nat, row: nat): (r: Screen)
    ensures r == s.(col := col, row := r.row)
    ensures r.row == RowFromScreen(s, row)
    ensures GetCursor(r) == (col, row)
  {
    s.(col := col, row := row + Offset(s))
  }

  /** Writing back the cursor one has read changes nothing, as long as the cursor lies
      in the visible part of the buffer. */
  lemma GetThenSetCursor(s: Screen)
    requires s.row >= Offset(s)
    ensures SetCursor(s, GetCursor(s).0, GetCursor(s).1) == s
  {
  }

  /** Two `set_cursor` calls: the second wins. */
  lemma SetCursorTwice(s: Screen, c1: nat, r1: nat, c2: nat, r2: nat)
    ensures SetCursor(SetCursor(s, c1, r1), c2, r2) == SetCursor(s, c2, r2)
  {
  }

  // ---------------------------------------------------------------------------
  // get_line, get_cur_line
  // ---------------------------------------------------------------------------

  /** `get_line(row)`: make sure the buffer has line `row`. */
  function GetLine(s: Screen, row: nat): (r: Screen)
    ensures r == s.(lines := r.lines)
    ensures |r.lines| > row
    ensures |r.lines| == if |s.lines| <= row then row + 1 else |s.lines|
    ensures forall i :: 0 <= i < |r.lines| ==> r.lines[i] == LineAt(s.lines, i)
  {
    s.(lines := Reserve(s.lines, row + 1))
  }

  /** `get_cur_line()`: make sure the cursor's line exists and has a cell under the
      cursor.  No existing cell changes, and only the cursor's line gains cells. */
  function GetCurLine(s: Screen): (r: Screen)
    ensures r == s.(lines := r.lines)
    ensures |r.lines| == if |s.lines| <= s.row then s.row + 1 else |s.lines|
    ensures |r.lines[s.row]| > s.col
    ensures r.lines[s.row] == Alloc(LineAt(s.lines, s.row), s.col + 1)
    ensures forall i :: 0 <= i < |r.lines| && i != s.row ==> r.lines[i] == LineAt(s.lines, i)
    ensures s.row < |s.lines| ==> r.lines == s.lines[s.row := Alloc(s.lines[s.row], s.col + 1)]
  {
    var lines := Reserve(s.lines, s.row + 1);
    s.(lines := lines[s.row := Alloc(lines[s.row], s.col + 1)])
  }

  /** Asking for the current line a second time changes nothing. */
  lemma GetCurLineIdempotent(s: Screen)
    ensures GetCurLine(GetCurLine(s)) == GetCurLine(s)
  {
    var t := GetCurLine(s);
    var u := GetCurLine(t);
    assert |u.lines| == |t.lines|;
    forall i | 0 <= i < |t.lines|
      ensures u.lines[i] == t.lines[i]
    {
    }
  }

  // ---------------------------------------------------------------------------
  // Alternate screen: enter_ca_mode, exit_ca_mode
  // ---------------------------------------------------------------------------

  /** `enter_ca_mode`: save lines, cursor and attribute, then start from an empty
      buffer with the cursor home and the default attribute.  Nothing else changes:
      scrollback, scroll region and dimensions stay. */
  function EnterCaMode(s: Screen): (r: Screen)
    ensures r.saved == Some(Saved(s.lines, s.col, s.row, s.attr, false))
    ensures r.lines == [] && r.col == 0 && r.row == 0 && r.attr == DefaultAttr
    ensures r.history == s.history && r.region == s.region && r.cols == s.cols && r.rows == s.rows
    ensures r.viewBegin == s.viewBegin
  {
    s.(saved := Some(Saved(s.lines, s.col, s.row, s.attr, false)), lines := [], col := 0, row := 0, attr := DefaultAttr)
  }

  /** `exit_ca_mode`: bring back what was saved.  The slot is not cleared, and from
      now on it shares the screen's attribute object: a later exit keeps the
      attribute as it then is, not the one saved on entry.  Before the first
      `enter_ca_mode` the saved column and row do not exist and the source raises an
      error, which is `None` here. */
  function ExitCaMode(s: Screen): (r: Option<Screen>)
    ensures r.Some? <==> s.saved.Some?
    ensures r.Some? ==> r.value.lines == s.saved.value.lines && r.value.col == s.saved.value.col
    ensures r.Some? ==> r.value.row == s.saved.value.row
    // the attribute saved on entry, unless the slot already shares the live one
    ensures r.Some? ==> r.value.attr == if s.saved.value.attrShared then s.attr else s.saved.value.attr
    // afterwards the slot shares the restored attribute; its other fields stay
    ensures r.Some? ==> r.value.saved == Some(s.saved.value.(attrShared := true))
    ensures r.Some? ==> r.value == s.(lines := r.value.lines, col := r.value.col, row := r.value.row,
                                      attr := r.value.attr, saved := r.value.saved)
  {
    match s.saved
    case None => None
    case Some(sv) =>
      Some(s.(lines := sv.lines, col := sv.col, row := sv.row,
              attr := if sv.attrShared then s.attr else sv.attr,
              saved := Some(sv.(attrShared := true))))
  }

  /** Leaving the alternate screen restores the primary screen exactly, apart from the
      save slot that now holds it and shares its attribute. */
  lemma CaModeRoundTrip(s: Screen)
    ensures ExitCaMode(EnterCaMode(s)) == Some(s.(saved := Some(Saved(s.lines, s.col, s.row, s.attr, true))))
  {
  }

  /** After an exit, a second exit keeps whatever attribute the screen has by then:
      `set_attributes` changed the object the slot shares, so nothing is restored. */
  lemma ExitAgainKeepsAttr(s: Screen, a: Attr)
    requires ExitCaMode(s).Some?
    ensures var t := ExitCaMode(s).value;
            ExitCaMode(t.(attr := a)).Some? && ExitCaMode(t.(attr := a)).value.attr == a
  {
  }

  /** Enter, exit, turn on BOLD (`set_attributes(1 << 1, -2, -2)`), exit again: the
      attribute stays bold, where a copy saved on entry would not be. */
  lemma BoldSurvivesSecondExit(s: Screen)
    requires Bold !in s.attr.modes
    ensures var t := ExitCaMode(EnterCaMode(s)).value;
            var u := t.(attr := SetAttributes(t.attr, 2, -2, -2));
            && Bold in ExitCaMode(u).value.attr.modes
            && Bold !in EnterCaMode(s).saved.value.attr.modes
  {
  }
}

=== FILE: scrolling.dfy ===
/** Scroll region, line insertion and deletion, and vertical cursor motion that
    scrolls at the region's edges (pymterm/term/terminal_gui.py).  List surgery follows
    Python's slice semantics, which clamp out-of-range bounds. */
module Scrolling {
  import opened Slices
  import opened Wrappers
  import opened Grid
  import opened Screen
  import Cursor

  // ---------------------------------------------------------------------------
  // Scroll region
  // ---------------------------------------------------------------------------

  /** `set_scroll_region(begin, end)`: store the bounds in buffer rows and make sure
      both bound lines exist.  The offset is the one before the lines are reserved. */
  function SetScrollRegion(s: Screen, begin: nat, end: nat): (r: Screen)
    ensures r == s.(lines := r.lines, region := r.region)
    ensures r.region == Some(Region(begin + Offset(s), end + Offset(s)))
    ensures |r.lines| > end + Offset(s) && |r.lines| > begin + Offset(s)
    ensures |r.lines| >= |s.lines| && r.lines[..|s.lines|] == s.lines
    ensures forall i :: |s.lines| <= i < |r.lines| ==> r.lines[i] == []
  {
    var o := Offset(s);
    var hi := if begin <= end then end else begin;
    s.(lines := Reserve(s.lines, hi + o + 1), region := Some(Region(begin + o, end + o)))
  }

  /** Bounds given on the screen come back as the same screen rows: reserving the
      bound lines does not move the visible window. */
  lemma SetScrollRegionScreenRows(s: Screen, begin: nat, end: nat)
    requires begin < s.rows && end < s.rows
    ensures var r := SetScrollRegion(s, begin, end);
            Offset(r) == Offset(s) &&
            r.region == Some(Region(RowFromScreen(r, begin), RowFromScreen(r, end)))
  {
  }

  /** `get_scroll_region()`: the region, defaulting it to the whole screen first. */
  function GetScrollRegion(s: Screen): (r: (Screen, Region))
    ensures r.0.region == Some(r.1)
    ensures s.region.Some? ==> r.0 == s
    ensures s.region.None? ==> r.0 == SetScrollRegion(s, 0, s.rows - 1)
    ensures s.region.None? ==> r.1.begin == Offset(s) && r.1.end == Offset(s) + s.rows - 1 && |r.0.lines| > r.1.end
  {
    match s.region
    case Some(reg) => (s, reg)
    case None =>
      var t := SetScrollRegion(s, 0, s.rows - 1);
      (t, t.region.value)
  }

  /** `change_scroll_region`: no parameters clear the region, two set it. */
  function ChangeScrollRegion(s: Screen, bounds: Option<(nat, nat)>): (r: Screen)
    ensures bounds.None? ==> r == s.(region := None)
    ensures bounds.Some? ==> r == SetScrollRegion(s, bounds.value.0, bounds.value.1)
    ensures r == s.(lines := r.lines, region := r.region)
  {
    match bounds
    case None => s.(region := None)
    case Some((b, e)) => SetScrollRegion(s, b, e)
  }

  /** `change_scroll_region_from_start`: from the top row to `end`. */
  function ChangeScrollRegionFromStart(s: Screen, end: nat): (r: Screen)
    ensures r.region == Some(Region(Offset(s), end + Offset(s)))
    ensures r == s.(lines := r.lines, region := r.region)
  {
    SetScrollRegion(s, 0, end)
  }

  /** `change_scroll_region_to_end`: from `begin` to the bottom row. */
  function ChangeScrollRegionToEnd(s: Screen, begin: nat): (r: Screen)
    ensures r.region == Some(Region(begin + Offset(s), s.rows - 1 + Offset(s)))
    ensures r == s.(lines := r.lines, region := r.region)
  {
    SetScrollRegion(s, begin, s.rows - 1)
  }

  /** Clearing the region and asking for it again gives the whole screen. */
  lemma ClearedRegionDefaultsToScreen(s: Screen)
    ensures var g := GetScrollRegion(ChangeScrollRegion(s, None));
            g.1 == Region(Offset(s), Offset(s) + s.rows - 1)
  {
  }

  // ---------------------------------------------------------------------------
  // Reference shapes of a scrolled region
  // ---------------------------------------------------------------------------

  /** Rows `[top, bottom]` scrolled up by `k`: each takes the line `k` below it, and
      the last `k` rows of the region are blank.  Rows outside stay. */
  function ScrollUp(lines: seq<Line>, top: nat, bottom: nat, k: nat): (r: seq<Line>)
    requires top <= bottom < |lines|
    ensures |r| == |lines|
    ensures forall i :: 0 <= i < |r| && (i < top || bottom < i) ==> r[i] == lines[i]
  {
    seq(|lines|, i requires 0 <= i < |lines| =>
      if i < top || bottom < i then lines[i] else if i + k <= bottom then lines[i + k] else [])
  }

  /** Rows `[top, bottom]` scrolled down by `k`: the first `k` rows of the region are
      blank and each other row takes the line `k` above it.  Rows outside stay. */
  function ScrollDown(lines: seq<Line>, top: nat, bottom: nat, k: nat): (r: seq<Line>)
    requires top <= bottom < |lines|
    ensures |r| == |lines|
    ensures forall i :: 0 <= i < |r| && (i < top || bottom < i) ==> r[i] == lines[i]
  {
    seq(|lines|, i requires 0 <= i < |lines| =>
      if i < top || bottom < i then lines[i] else if i < top + k then [] else lines[i - k])
  }

  lemma ScrollUpZero(lines: seq<Line>, top: nat, bottom: nat)
    ensures top <= bottom < |lines| ==> ScrollUp(lines, top, bottom, 0) == lines
  {
    if top <= bottom < |lines| {
      var r := ScrollUp(lines, top, bottom, 0);
      forall i | 0 <= i < |lines| ensures r[i] == lines[i] {}
    }
  }

  lemma ScrollDownZero(lines: seq<Line>, top: nat, bottom: nat)
    ensures top <= bottom < |lines| ==> ScrollDown(lines, top, bottom, 0) == lines
  {
    if top <= bottom < |lines| {
      var r := ScrollDown(lines, top, bottom, 0);
      forall i | 0 <= i < |lines| ensures r[i] == lines[i] {}
    }
  }

  /** One more line of scrolling, saturating once the whole region is blank. */
  lemma ScrollUpStep(lines: seq<Line>, top: nat, bottom: nat, k: nat)
    ensures top <= bottom < |lines| ==>
              (ScrollUp(ScrollUp(lines, top, bottom, k), top, bottom, 1)
               == ScrollUp(lines, top, bottom, Cursor.Min(k + 1, bottom + 1 - top)))
  {
    if top <= bottom < |lines| {
      var m := ScrollUp(lines, top, bottom, k);
      var a := ScrollUp(m, top, bottom, 1);
      var n := Cursor.Min(k + 1, bottom + 1 - top);
      var b := ScrollUp(lines, top, bottom, n);
      forall i | 0 <= i < |lines| ensures a[i] == b[i] {
        ScrollUpStepAt(lines, top, bottom, k, i);
      }
    }
  }

  lemma ScrollUpStepAt(lines: seq<Line>, top: nat, bottom: nat, k: nat, i: nat)
    requires top <= bottom < |lines| && i < |lines|
    ensures ScrollUp(ScrollUp(lines, top, bottom, k), top, bottom, 1)[i]
            == ScrollUp(lines, top, bottom, Cursor.Min(k + 1, bottom + 1 - top))[i]
  {
    var m := ScrollUp(lines, top, bottom, k);
    var n := Cursor.Min(k + 1, bottom + 1 - top);
    ScrollUpAt(m, top, bottom, 1, i);
    ScrollUpAt(lines, top, bottom, n, i);
    if top <= i < bottom {
      ScrollUpAt(lines, top, bottom, k, i + 1);
      if i + 1 + k <= bottom {
        assert n == k + 1;
      }
    }
  }

  /** One row of `ScrollUp`. */
  lemma ScrollUpAt(lines: seq<Line>, top: nat, bottom: nat, k: nat, i: nat)
    requires top <= bottom < |lines| && i < |lines|
    ensures ScrollUp(lines, top, bottom, k)[i]
            == if i < top || bottom < i then lines[i] else if i + k <= bottom then lines[i + k] else []
  {
  }

  lemma ScrollDownStep(lines: seq<Line>, top: nat, bottom: nat, k: nat)
    ensures top <= bottom < |lines| ==>
              (ScrollDown(ScrollDown(lines, top, bottom, k), top, bottom, 1)
               == ScrollDown(lines, top, bottom, Cursor.Min(k + 1, bottom + 1 - top)))
  {
    if top <= bottom < |lines| {
      var m := ScrollDown(lines, top, bottom, k);
      var a := ScrollDown(m, top, bottom, 1);
      var n := Cursor.Min(k + 1, bottom + 1 - top);
      var b := ScrollDown(lines, top, bottom, n);
      forall i | 0 <= i < |lines| ensures a[i] == b[i] {
        ScrollDownStepAt(lines, top, bottom, k, i);
      }
    }
  }

  lemma ScrollDownStepAt(lines: seq<Line>, top: nat, bottom: nat, k: nat, i: nat)
    requires top <= bottom < |lines| && i < |lines|
    ensures ScrollDown(ScrollDown(lines, top, bottom, k), top, bottom, 1)[i]
            == ScrollDown(lines, top, bottom, Cursor.Min(k + 1, bottom + 1 - top))[i]
  {
    var m := ScrollDown(lines, top, bottom, k);
    var n := Cursor.Min(k + 1, bottom + 1 - top);
    ScrollDownAt(m, top, bottom, 1, i);
    ScrollDownAt(lines, top, bottom, n, i);
    if top < i <= bottom {
      ScrollDownAt(lines, top, bottom, k, i - 1);
      if top + k <= i - 1 {
        assert n == k + 1;
      }
    }
  }

  /** One row of `ScrollDown`. */
  lemma ScrollDownAt(lines: seq<Line>, top: nat, bottom: nat, k: nat, i: nat)
    requires top <= bottom < |lines| && i < |lines|
    ensures ScrollDown(lines, top, bottom, k)[i]
            == if i < top || bottom < i then lines[i] else if i < top + k then [] else lines[i - k]
  {
  }

  // ---------------------------------------------------------------------------
  // One line out, one line in
  // ---------------------------------------------------------------------------

  lemma DeleteLineSlices(lines: seq<Line>, row: nat, end: nat)
    ensures row <= end < |lines| ==>
              Slice(lines, 0, row) + Slice(lines, row + 1, end + 1) + [[]] + Slice(lines, end + 1, |lines|)
              == ScrollUp(lines, row, end, 1)
  {
    if row <= end < |lines| {
      var front, mid, back := lines[..row], lines[row + 1..end + 1], lines[end + 1..];
      assert Slice(lines, 0, row) == front;
      assert Slice(lines, row + 1, end + 1) == mid;
      assert Slice(lines, end + 1, |lines|) == back;
      var a := front + mid + [[]] + back;
      assert |a| == |lines|;
      var b := ScrollUp(lines, row, end, 1);
      forall i | 0 <= i < |lines| ensures a[i] == b[i] {
        if i < row {
          assert a[i] == front[i];
        } else if i < end {
          assert a[i] == mid[i - row];
        } else if i == end {
          assert a[i] == [];
        } else {
          assert a[i] == back[i - end - 1];
        }
      }
    }
  }

  lemma InsertLineSlices(lines: seq<Line>, row: nat, end: nat)
    ensures row <= end < |lines| ==>
              Slice(lines, 0, row) + [[]] + Slice(lines, row, end) + Slice(lines, end + 1, |lines|)
              == ScrollDown(lines, row, end, 1)
  {
    if row <= end < |lines| {
      var front, mid, back := lines[..row], lines[row..end], lines[end + 1..];
      assert Slice(lines, 0, row) == front;
      assert Slice(lines, row, end) == mid;
      assert Slice(lines, end + 1, |lines|) == back;
      var gapped := front + [[]];
      var kept := gapped + mid;
      var a := kept + back;
      assert |gapped| == row + 1 && |kept| == end + 1 && |a| == |lines|;
      var b := ScrollDown(lines, row, end, 1);
      forall i | 0 <= i < |lines| ensures a[i] == b[i] {
        if i < row {
          assert a[i] == kept[i] == gapped[i] == front[i];
        } else if i == row {
          assert a[i] == kept[i] == gapped[i] == [];
        } else if i <= end {
          assert a[i] == kept[i] == mid[i - row - 1] == lines[i - 1];
        } else {
          assert a[i] == back[i - end - 1] == lines[i];
        }
      }
    }
  }

  /** `lines[:row] + lines[row + 1:end + 1] + [Line()] + lines[end + 1:]`: remove line
      `row` and open a blank line at `end`. */
  function DeleteLineAt(lines: seq<Line>, row: nat, end: nat): (r: seq<Line>)
    ensures row <= end < |lines| ==> r == ScrollUp(lines, row, end, 1)
  {
    DeleteLineSlices(lines, row, end);
    Slice(lines, 0, row) + Slice(lines, row + 1, end + 1) + [[]] + Slice(lines, end + 1, |lines|)
  }

  /** `lines[:row] + [Line()] + lines[row:end] + lines[end + 1:]`: open a blank line at
      `row`, dropping line `end`. */
  function InsertLineAt(lines: seq<Line>, row: nat, end: nat): (r: seq<Line>)
    ensures row <= end < |lines| ==> r == ScrollDown(lines, row, end, 1)
  {
    InsertLineSlices(lines, row, end);
    Slice(lines, 0, row) + [[]] + Slice(lines, row, end) + Slice(lines, end + 1, |lines|)
  }

  /** Scrolling a region down by one and then up by one gives back the lines, except
      that the line pushed out at the bottom is now blank. */
  lemma ScrollDownThenUp(lines: seq<Line>, row: nat, end: nat)
    requires row <= end < |lines|
    ensures ScrollUp(ScrollDown(lines, row, end, 1), row, end, 1) == lines[end := []]
  {
    var m := ScrollDown(lines, row, end, 1);
    var r := ScrollUp(m, row, end, 1);
    forall i | 0 <= i < |r|
      ensures r[i] == lines[end := []][i]
    {
      if i < row || end < i {
        assert r[i] == m[i] == lines[i];
      } else if i < end {
        assert r[i] == m[i + 1] == lines[i];
      } else {
        assert r[i] == [];
      }
    }
  }

  /** Scrolling a region up by one and then down by one gives back the lines, except
      that the line scrolled out at the top is now blank. */
  lemma ScrollUpThenDown(lines: seq<Line>, row: nat, end: nat)
    requires row <= end < |lines|
    ensures ScrollDown(ScrollUp(lines, row, end, 1), row, end, 1) == lines[row := []]
  {
    var m := ScrollUp(lines, row, end, 1);
    var r := ScrollDown(m, row, end, 1);
    forall i | 0 <= i < |r|
      ensures r[i] == lines[row := []][i]
    {
      if i < row || end < i {
        assert r[i] == m[i] == lines[i];
      } else if i == row {
        assert r[i] == [];
      } else {
        assert r[i] == m[i - 1] == lines[i];
      }
    }
  }

  /** Inserting then deleting at the same place gives back the lines, except that the
      line pushed out at `end` is now blank. */
  lemma DeleteAfterInsert(lines: seq<Line>, row: nat, end: nat)
    requires row <= end < |lines|
    ensures DeleteLineAt(InsertLineAt(lines, row, end), row, end) == lines[end := []]
  {
    var m := InsertLineAt(lines, row, end);
    assert |m| == |lines|;
    ScrollDownThenUp(lines, row, end);
  }

  /** Deleting then inserting at the same place gives back the lines, except that the
      deleted line is now blank. */
  lemma InsertAfterDelete(lines: seq<Line>, row: nat, end: nat)
    requires row <= end < |lines|
    ensures InsertLineAt(DeleteLineAt(lines, row, end), row, end) == lines[row := []]
  {
    var m := DeleteLineAt(lines, row, end);
    assert |m| == |lines|;
    ScrollUpThenDown(lines, row, end);
  }

  // ---------------------------------------------------------------------------
  // parm_delete_line, parm_insert_line
  // ---------------------------------------------------------------------------

  /** The repeat count of a line or cursor operation: the first parameter, or 1 when
      there is none.  A count below 1 repeats nothing. */
  function Count(params: seq<int>): (n: nat)
    ensures |params| > 0 && params[0] >= 0 ==> n == params[0]
    ensures |params| > 0 && params[0] < 0 ==> n == 0
    ensures |params| == 0 ==> n == 1
  {
    if |params| > 0 then (if params[0] >= 0 then params[0] else 0) else 1
  }

  /** `n` repetitions of `DeleteLineAt`: the region below `row` scrolls up by `n`
      lines, or is blanked when `n` exceeds its height. */
  function DeleteLines(lines: seq<Line>, row: nat, end: nat, n: nat): (r: seq<Line>)
    ensures row <= end < |lines| ==> r == ScrollUp(lines, row, end, Cursor.Min(n, end + 1 - row))
  {
    if n == 0 then
      ScrollUpZero(lines, row, end);
      lines
    else if row <= end < |lines| then
      var t := DeleteLines(lines, row, end, n - 1);
      var k := Cursor.Min(n - 1, end + 1 - row);
      assert t == ScrollUp(lines, row, end, k);
      ScrollUpStep(lines, row, end, k);
      assert Cursor.Min(k + 1, end + 1 - row) == Cursor.Min(n, end + 1 - row);
      var r := DeleteLineAt(t, row, end);
      assert r == ScrollUp(t, row, end, 1);
      r
    else
      DeleteLineAt(DeleteLines(lines, row, end, n - 1), row, end)
  }

  /** `n` repetitions of `InsertLineAt`: the region below `row` scrolls down by `n`
      lines, or is blanked when `n` exceeds its height. */
  function InsertLines(lines: seq<Line>, row: nat, end: nat, n: nat): (r: seq<Line>)
    ensures row <= end < |lines| ==> r == ScrollDown(lines, row, end, Cursor.Min(n, end + 1 - row))
  {
    if n == 0 then
      ScrollDownZero(lines, row, end);
      lines
    else if row <= end < |lines| then
      var t := InsertLines(lines, row, end, n - 1);
      var k := Cursor.Min(n - 1, end + 1 - row);
      assert t == ScrollDown(lines, row, end, k);
      ScrollDownStep(lines, row, end, k);
      assert Cursor.Min(k + 1, end + 1 - row) == Cursor.Min(n, end + 1 - row);
      var r := InsertLineAt(t, row, end);
      assert r == ScrollDown(t, row, end, 1);
      r
    else
      InsertLineAt(InsertLines(lines, row, end, n - 1), row, end)
  }

  /** `parm_delete_line`: delete `Count(params)` lines at the cursor row, confined to
      the bottom of the scroll region.  Only the region's lower end is checked: a
      cursor above the region deletes there too.  Below the region nothing happens. */
  function ParmDeleteLine(s: Screen, params: seq<int>): (r: Screen)
    ensures var g := GetScrollRegion(s);
            && r == g.0.(lines := r.lines)
            && (s.row > g.1.end ==> r == g.0)
            && (s.row <= g.1.end < |g.0.lines| ==>
                  r.lines == ScrollUp(g.0.lines, s.row, g.1.end, Cursor.Min(Count(params), g.1.end + 1 - s.row)))
  {
    var (t, reg) := GetScrollRegion(s);
    if s.row <= reg.end then t.(lines := DeleteLines(t.lines, s.row, reg.end, Count(params))) else t
  }

  /** `parm_insert_line`: the mirror of `ParmDeleteLine`. */
  function ParmInsertLine(s: Screen, params: seq<int>): (r: Screen)
    ensures var g := GetScrollRegion(s);
            && r == g.0.(lines := r.lines)
            && (s.row > g.1.end ==> r == g.0)
            && (s.row <= g.1.end < |g.0.lines| ==>
                  r.lines == ScrollDown(g.0.lines, s.row, g.1.end, Cursor.Min(Count(params), g.1.end + 1 - s.row)))
  {
    var (t, reg) := GetScrollRegion(s);
    if s.row <= reg.end then t.(lines := InsertLines(t.lines, s.row, reg.end, Count(params))) else t
  }

  // ---------------------------------------------------------------------------
  // parm_down_cursor
  // ---------------------------------------------------------------------------

  /** One iteration of `parm_down_cursor`: above the region's bottom row the cursor
      moves down; on it, the region scrolls up by one line, and the line leaving the
      top goes to the scrollback exactly when the region starts at row 0.
      `DownStepWalkLines` and `DownStepBottomLines` say what the lines become. */
  function DownStep(s: Screen, begin: nat, end: nat): (r: Screen)
    ensures r == s.(lines := r.lines, history := r.history, row := r.row)
    ensures s.row != end ==> r.row == s.row + 1 && r.history == s.history
    ensures s.row == end ==> r.row == end
    ensures s.row == end ==> r.history == s.history + (if begin == 0 then [GetCurLine(s).lines[0]] else [])
    ensures begin <= end < |s.lines| && s.row <= end ==> |r.lines| == |s.lines|
  {
    var t := GetCurLine(s);
    if t.row == end then
      var history := if begin == 0 then t.history + [t.lines[0]] else t.history;
      DownAtBottom(s, begin, end);
      DownAtBottomLines(s, begin, end);
      GetCurLine(t.(lines := DeleteLineAt(t.lines, begin, end), history := history))
    else
      DownAway(t);
      GetCurLine(t.(row := t.row + 1))
  }

  /** Away from the region's bottom, a step allocates the cursor's line and the
      one below it, and nothing else changes. */
  lemma DownStepWalkLines(s: Screen, begin: nat, end: nat)
    requires s.row != end
    ensures var r := DownStep(s, begin, end);
            var before := GetCurLine(s).lines;
            && |r.lines| >= |before| && |r.lines| > s.row + 1
            && (s.row + 1 < |before| ==> |r.lines| == |before|)
            && (forall i :: 0 <= i < |before| && i != s.row + 1 ==> r.lines[i] == before[i])
            && r.lines[s.row + 1] == Alloc(LineAt(before, s.row + 1), s.col + 1)
  {
    DownAway(GetCurLine(s));
  }

  /** On the region's bottom, a step scrolls the region up by one and leaves a
      blank cursor line at its foot. */
  lemma DownStepBottomLines(s: Screen, begin: nat, end: nat)
    requires s.row == end && begin <= end
    ensures DownStep(s, begin, end).lines == ScrollUp(GetCurLine(s).lines, begin, end, 1)[end := Blanks(s.col + 1)]
  {
    DownAtBottomLines(s, begin, end);
  }

  /** Away from the bottom row `DownStep` moves the cursor down one row, growing the
      buffer when that row does not exist yet. */
  lemma DownAway(t: Screen)
    requires t.row < |t.lines|
    ensures var r := GetCurLine(t.(row := t.row + 1));
            && r == t.(lines := r.lines, row := t.row + 1)
            && |r.lines| >= |t.lines| && |r.lines| > t.row + 1
            && (t.row + 1 < |t.lines| ==> |r.lines| == |t.lines|)
            && (forall i :: 0 <= i < |t.lines| && i != t.row + 1 ==> r.lines[i] == t.lines[i])
            && r.lines[t.row + 1] == Alloc(LineAt(t.lines, t.row + 1), t.col + 1)
  {
  }

  /** The bottom-row case of `DownStep`: nothing but the lines and the scrollback
      change, and the scrollback gains the top line when the region starts at row 0. */
  lemma DownAtBottom(s: Screen, begin: nat, end: nat)
    requires s.row == end
    ensures var t := GetCurLine(s);
            var history := if begin == 0 then t.history + [t.lines[0]] else t.history;
            var r := GetCurLine(t.(lines := DeleteLineAt(t.lines, begin, end), history := history));
            && r == s.(lines := r.lines, history := r.history)
            && r.history == s.history + (if begin == 0 then [t.lines[0]] else [])
  {
    var t := GetCurLine(s);
    var history := if begin == 0 then t.history + [t.lines[0]] else t.history;
    assert t == s.(lines := t.lines);
    ReplaceLinesFrame(t, DeleteLineAt(t.lines, begin, end), history);
  }

  /** The lines after a `DownStep` on the bottom row: the region scrolled up by one,
      with a blank cursor line at its foot. */
  lemma DownAtBottomLines(s: Screen, begin: nat, end: nat)
    requires s.row == end
    ensures var t := GetCurLine(s);
            var history := if begin == 0 then t.history + [t.lines[0]] else t.history;
            begin <= end ==>
              GetCurLine(t.(lines := DeleteLineAt(t.lines, begin, end), history := history)).lines
              == ScrollUp(GetCurLine(s).lines, begin, end, 1)[end := Blanks(s.col + 1)]
  {
    hide DeleteLineAt, ScrollUp;
    if begin <= end {
      var t := GetCurLine(s);
      var history := if begin == 0 then t.history + [t.lines[0]] else t.history;
      assert t.col == s.col;
      ScrollThenFill(t, begin, end, history);
    }
  }

  /** Replacing the lines and the scrollback, then allocating the cursor's line,
      changes nothing else. */
  lemma ReplaceLinesFrame(t: Screen, lines: seq<Line>, history: seq<Line>)
    ensures var r := GetCurLine(t.(lines := lines, history := history));
            r == t.(lines := r.lines, history := history)
  {
  }

  /** The bottom-row case of `DownStep`: after the region scrolls up, the cursor's
      line is the new, empty bottom line, and allocating it fills it with blanks. */
  lemma ScrollThenFill(t: Screen, begin: nat, end: nat, history: seq<Line>)
    requires t.row == end && begin <= end < |t.lines|
    ensures GetCurLine(t.(lines := DeleteLineAt(t.lines, begin, end), history := history)).lines
            == ScrollUp(t.lines, begin, end, 1)[end := Blanks(t.col + 1)]
  {
    var d := DeleteLineAt(t.lines, begin, end);
    assert d[end] == [];
    AllocEmpty(t.col + 1);
  }

  /** `n` iterations of the loop of `parm_down_cursor` in the region `[begin, end]`.
      The row advances by `n`, stopping on the region's bottom when it starts at or
      above it; each step taken on the bottom of a region that starts at row 0 adds
      one line to the scrollback, and no other step touches it. */
  function DownLoop(s: Screen, begin: nat, end: nat, n: nat): (r: Screen)
    ensures r == s.(lines := r.lines, history := r.history, row := r.row)
    ensures s.row <= end ==> r.row == Cursor.Min(s.row + n, end)
    ensures s.row > end ==> r.row == s.row + n
    ensures s.history <= r.history
    ensures begin != 0 || s.row > end ==> r.history == s.history
    ensures begin == 0 && s.row <= end ==> |r.history| == |s.history| + Cursor.Max(0, n - (end - s.row))
    decreases n
  {
    if n == 0 then s
    else
      var m := DownStep(s, begin, end);
      var r := DownLoop(m, begin, end, n - 1);
      r
  }

  /** Scrolling up by one and then by `m` is scrolling up by `m + 1`. */
  lemma ScrollUpCompose(lines: seq<Line>, top: nat, bottom: nat, m: nat)
    requires top <= bottom < |lines|
    ensures ScrollUp(ScrollUp(lines, top, bottom, 1), top, bottom, m) == ScrollUp(lines, top, bottom, m + 1)
  {
    var one := ScrollUp(lines, top, bottom, 1);
    var a := ScrollUp(one, top, bottom, m);
    var b := ScrollUp(lines, top, bottom, m + 1);
    forall i | 0 <= i < |lines|
      ensures a[i] == b[i]
    {
      ScrollUpAt(one, top, bottom, m, i);
      ScrollUpAt(lines, top, bottom, m + 1, i);
      if top <= i <= bottom && i + m <= bottom {
        ScrollUpAt(lines, top, bottom, 1, i + m);
      }
    }
  }

  /** Scrolling keeps lines grown from lines: it only moves them and opens empty
      ones. */
  lemma ScrollUpGrows(a: seq<Line>, b: seq<Line>, top: nat, bottom: nat, k: nat)
    requires top <= bottom < |a| && LinesGrow(a, b)
    ensures LinesGrow(ScrollUp(a, top, bottom, k), ScrollUp(b, top, bottom, k))
  {
    var x, y := ScrollUp(a, top, bottom, k), ScrollUp(b, top, bottom, k);
    forall i | 0 <= i < |x|
      ensures Grows(x[i], y[i])
    {
      ScrollUpAt(a, top, bottom, k, i);
      ScrollUpAt(b, top, bottom, k, i);
    }
  }

  /** `after` is `lines` with the region `[top, bottom]` scrolled up by `k`, up to
      blank cells allocated on its lines; rows below the region and above `keep`
      are untouched; and `added[j]` is, up to allocated cells, the region's top
      line after `j` scrolls. */
  ghost predicate ScrolledInto(lines: seq<Line>, top: nat, bottom: nat, keep: nat, k: nat,
                               after: seq<Line>, added: seq<Line>)
    requires top <= bottom < |lines|
  {
    && LinesGrow(ScrollUp(lines, top, bottom, k), after)
    && (forall i :: 0 <= i < |lines| && (bottom < i || i < keep) ==> after[i] == lines[i])
    && (forall j :: 0 <= j < |added| ==> Grows(ScrollUp(lines, top, bottom, j)[top], added[j]))
  }

  /** What the loop of `parm_down_cursor` does to the lines and the scrollback, from
      a row at or above the region's bottom: with `k` the number of steps taken on
      the bottom row, the region scrolls up by `k`, rows below the region and above
      both the region and the cursor stay, and the lines added to the scrollback are
      the region's successive top lines, in order. */
  lemma {:induction false} DownLoopScrolls(s: Screen, begin: nat, end: nat, n: nat, r: Screen)
    requires r == DownLoop(s, begin, end, n)
    ensures begin <= end < |s.lines| && s.row <= end ==>
              ScrolledInto(s.lines, begin, end, Cursor.Min(s.row, begin), Cursor.Max(0, n - (end - s.row)),
                           r.lines, r.history[|s.history|..])
    decreases n, 1
  {
    hide DownStep, GetCurLine;
    if begin <= end < |s.lines| && s.row <= end {
      if n == 0 {
        ScrollUpZero(s.lines, begin, end);
        LinesGrowRefl(s.lines);
      } else if s.row != end {
        DownLoopScrollsWalk(s, DownStep(s, begin, end), begin, end, n, r);
      } else {
        DownLoopScrollsBottom(s, DownStep(s, begin, end), begin, end, n, r);
      }
    }
  }

  /** `DownLoopScrolls` when the first step moves the cursor down. */
  lemma {:induction false} DownLoopScrollsWalk(s: Screen, m: Screen, begin: nat, end: nat, n: nat, r: Screen)
    requires begin <= end < |s.lines| && s.row < end && n > 0
    requires m == DownStep(s, begin, end) && r == DownLoop(m, begin, end, n - 1)
    ensures ScrolledInto(s.lines, begin, end, Cursor.Min(s.row, begin), Cursor.Max(0, n - (end - s.row)),
                         r.lines, r.history[|s.history|..])
    decreases n, 0
  {
    hide DownStep, GetCurLine, DownLoop, ScrolledInto, ScrollUp, LinesGrow;
    DownLoopScrolls(m, begin, end, n - 1, r);
    DownWalkGrows(s, begin, end);
    WalkStep(s.lines, m.lines, r.lines, begin, end, s.row, n, s.history, m.history, r.history);
  }

  /** `DownLoopScrolls` when the first step scrolls the region. */
  lemma {:induction false} DownLoopScrollsBottom(s: Screen, m: Screen, begin: nat, end: nat, n: nat, r: Screen)
    requires begin <= end < |s.lines| && s.row == end && n > 0
    requires m == DownStep(s, begin, end) && r == DownLoop(m, begin, end, n - 1)
    ensures ScrolledInto(s.lines, begin, end, begin, n, r.lines, r.history[|s.history|..])
    decreases n, 0
  {
    hide DownStep, GetCurLine, DownLoop;
    DownLoopScrolls(m, begin, end, n - 1, r);
    DownBottomGrows(s, begin, end);
    CurLineGrows(s);
    BottomStep(s.lines, m.lines, r.lines, begin, end, n - 1, GetCurLine(s).lines[begin],
               s.history, m.history, r.history);
  }

  /** The step of `DownLoopScrolls` that moves the cursor down: the cells it
      allocates change nothing the rest of the loop does. */
  lemma WalkStep(lines: seq<Line>, mid: seq<Line>, after: seq<Line>, top: nat, bottom: nat, row: nat, n: nat,
                 hist: seq<Line>, midHist: seq<Line>, afterHist: seq<Line>)
    requires top <= bottom < |lines| && |mid| == |lines| && row < bottom && n > 0
    requires LinesGrow(lines, mid)
    requires forall i :: 0 <= i < |lines| && i != row && i != row + 1 ==> mid[i] == lines[i]
    requires midHist == hist && midHist <= afterHist
    requires ScrolledInto(mid, top, bottom, Cursor.Min(row + 1, top), Cursor.Max(0, (n - 1) - (bottom - (row + 1))),
                          after, afterHist[|midHist|..])
    ensures ScrolledInto(lines, top, bottom, Cursor.Min(row, top), Cursor.Max(0, n - (bottom - row)),
                         after, afterHist[|hist|..])
  {
    WalkCompose(lines, mid, after, top, bottom, row, Cursor.Min(row + 1, top), Cursor.Max(0, n - (bottom - row)),
                afterHist[|hist|..]);
  }

  /** The step of `DownLoopScrolls` on the region's bottom row: the region scrolls
      by one, and the scrollback gains the region's top line when the region starts
      at row 0. */
  lemma BottomStep(lines: seq<Line>, mid: seq<Line>, after: seq<Line>, top: nat, bottom: nat, k: nat,
                   first: Line, hist: seq<Line>, midHist: seq<Line>, afterHist: seq<Line>)
    requires top <= bottom < |lines| && |mid| == |lines|
    requires LinesGrow(ScrollUp(lines, top, bottom, 1), mid)
    requires forall i :: 0 <= i < |lines| && (bottom < i || i < top) ==> mid[i] == lines[i]
    requires Grows(lines[top], first)
    requires midHist == hist + (if top == 0 then [first] else [])
    requires midHist <= afterHist && (top != 0 ==> afterHist == midHist)
    requires ScrolledInto(mid, top, bottom, top, k, after, afterHist[|midHist|..])
    ensures ScrolledInto(lines, top, bottom, top, k + 1, after, afterHist[|hist|..])
  {
    BottomCompose(lines, mid, after, top, bottom, k, first, afterHist[|midHist|..]);
    if top == 0 {
      SuffixAfterAppend(hist, first, afterHist);
    }
  }

  /** Allocating the cursor's line only adds blank cells. */
  lemma CurLineGrows(s: Screen)
    requires s.row < |s.lines|
    ensures LinesGrow(s.lines, GetCurLine(s).lines)
  {
    var t := GetCurLine(s);
    forall i | 0 <= i < |s.lines|
      ensures Grows(s.lines[i], t.lines[i])
    {
      AllocGrows(s.lines[i], s.col + 1);
    }
  }

  /** What follows a prefix that was extended by one line. */
  lemma SuffixAfterAppend(h: seq<Line>, x: Line, r: seq<Line>)
    requires h + [x] <= r
    ensures r[|h|..] == [x] + r[|h| + 1..]
  {
  }

  /** A step that moves the cursor down, allocating cells in two lines, keeps what
      the rest of the loop scrolls. */
  lemma WalkCompose(lines: seq<Line>, mid: seq<Line>, after: seq<Line>, top: nat, bottom: nat,
                    row: nat, keep: nat, k: nat, added: seq<Line>)
    requires top <= bottom < |lines| && |mid| == |lines| && row < bottom && LinesGrow(lines, mid)
    requires forall i :: 0 <= i < |lines| && i != row && i != row + 1 ==> mid[i] == lines[i]
    requires keep == Cursor.Min(row + 1, top)
    ensures ScrolledInto(mid, top, bottom, keep, k, after, added) ==>
            ScrolledInto(lines, top, bottom, Cursor.Min(row, top), k, after, added)
  {
    if ScrolledInto(mid, top, bottom, keep, k, after, added) {
      ScrollUpGrows(lines, mid, top, bottom, k);
      LinesGrowTrans(ScrollUp(lines, top, bottom, k), ScrollUp(mid, top, bottom, k), after);
      forall j | 0 <= j < |added|
        ensures Grows(ScrollUp(lines, top, bottom, j)[top], added[j])
      {
        ScrollUpGrows(lines, mid, top, bottom, j);
        GrowsTrans(ScrollUp(lines, top, bottom, j)[top], ScrollUp(mid, top, bottom, j)[top], added[j]);
      }
    }
  }

  /** A step on the bottom row scrolls by one and sends the region's top line to
      the scrollback; the rest of the loop scrolls by `k` more. */
  lemma BottomCompose(lines: seq<Line>, mid: seq<Line>, after: seq<Line>, top: nat, bottom: nat,
                      k: nat, first: Line, added: seq<Line>)
    requires top <= bottom < |lines| && |mid| == |lines|
    requires LinesGrow(ScrollUp(lines, top, bottom, 1), mid)
    requires forall i :: 0 <= i < |lines| && (bottom < i || i < top) ==> mid[i] == lines[i]
    requires Grows(lines[top], first)
    requires ScrolledInto(mid, top, bottom, top, k, after, added)
    ensures ScrolledInto(lines, top, bottom, top, k + 1, after, [first] + added)
  {
    hide ScrollUp;
    var one := ScrollUp(lines, top, bottom, 1);
    ScrollUpGrows(one, mid, top, bottom, k);
    ScrollUpCompose(lines, top, bottom, k);
    LinesGrowTrans(ScrollUp(lines, top, bottom, k + 1), ScrollUp(mid, top, bottom, k), after);
    var all := [first] + added;
    forall j | 0 <= j < |all|
      ensures Grows(ScrollUp(lines, top, bottom, j)[top], all[j])
    {
      if j == 0 {
        ScrollUpZero(lines, top, bottom);
      } else {
        ScrollUpGrows(one, mid, top, bottom, j - 1);
        ScrollUpCompose(lines, top, bottom, j - 1);
        GrowsTrans(ScrollUp(lines, top, bottom, j)[top], ScrollUp(mid, top, bottom, j - 1)[top], added[j - 1]);
      }
    }
  }

  /** A step above the bottom row only allocates cells. */
  lemma DownWalkGrows(s: Screen, begin: nat, end: nat)
    requires begin <= end < |s.lines| && s.row < end
    ensures var m := DownStep(s, begin, end);
            && LinesGrow(s.lines, m.lines)
            && (forall i :: 0 <= i < |s.lines| && i != s.row && i != s.row + 1 ==> m.lines[i] == s.lines[i])
  {
    var m := DownStep(s, begin, end);
    var before := GetCurLine(s).lines;
    DownStepWalkLines(s, begin, end);
    forall i | 0 <= i < |s.lines|
      ensures Grows(s.lines[i], m.lines[i])
    {
      if i == s.row {
        AllocGrows(s.lines[i], s.col + 1);
      } else if i == s.row + 1 {
        AllocGrows(s.lines[i], s.col + 1);
      }
    }
  }

  /** A step on the bottom row is a scroll by one, up to allocated cells. */
  lemma DownBottomGrows(s: Screen, begin: nat, end: nat)
    requires begin <= end < |s.lines| && s.row == end
    ensures var m := DownStep(s, begin, end);
            && LinesGrow(ScrollUp(s.lines, begin, end, 1), m.lines)
            && (forall i :: 0 <= i < |s.lines| && (end < i || i < begin) ==> m.lines[i] == s.lines[i])
  {
    hide DownStep;
    var before := GetCurLine(s).lines;
    assert before == s.lines[s.row := Alloc(s.lines[s.row], s.col + 1)];
    DownStepBottomLines(s, begin, end);
    ScrollAllocGrows(s.lines, s.row, s.col + 1, begin, end);
  }

  /** Allocating cells in one line, then scrolling the region up by one and putting
      blanks in its freed bottom row, only grows the lines a plain scroll gives. */
  lemma ScrollAllocGrows(lines: seq<Line>, row: nat, c: nat, top: nat, bottom: nat)
    requires top <= bottom < |lines| && row < |lines|
    ensures LinesGrow(ScrollUp(lines, top, bottom, 1),
                      ScrollUp(lines[row := Alloc(lines[row], c)], top, bottom, 1)[bottom := Blanks(c)])
  {
    var before := lines[row := Alloc(lines[row], c)];
    var x := ScrollUp(lines, top, bottom, 1);
    var y := ScrollUp(before, top, bottom, 1)[bottom := Blanks(c)];
    forall i | 0 <= i < |x|
      ensures Grows(x[i], y[i])
    {
      ScrollUpAt(lines, top, bottom, 1, i);
      ScrollUpAt(before, top, bottom, 1, i);
      AllocGrows(lines[row], c);
    }
  }

  /** `parm_down_cursor`: move down `Count(params)` rows inside the scroll region,
      scrolling it once the bottom is reached.  The row stops on the region's
      bottom, and each step taken there on a region that starts at row 0 adds one
      line to the scrollback; `ParmDownCursorScrolls` says what the lines become. */
  function ParmDownCursor(s: Screen, params: seq<int>): (r: Screen)
    ensures var g := GetScrollRegion(s);
            r == g.0.(lines := r.lines, history := r.history, row := r.row)
    ensures var reg := GetScrollRegion(s).1;
            && (s.row <= reg.end ==> r.row == Cursor.Min(s.row + Count(params), reg.end))
            && (s.row > reg.end ==> r.row == s.row + Count(params))
    ensures |r.history| >= |s.history| && r.history[..|s.history|] == s.history
    ensures var reg := GetScrollRegion(s).1;
            && (reg.begin != 0 || s.row > reg.end ==> r.history == s.history)
            && (reg.begin == 0 && s.row <= reg.end ==>
                  |r.history| == |s.history| + Cursor.Max(0, Count(params) - (reg.end - s.row)))
  {
    var (t, reg) := GetScrollRegion(s);
    DownLoop(t, reg.begin, reg.end, Count(params))
  }

  /** What `parm_down_cursor` does to the lines and the scrollback from a row at or
      above the region's bottom: the region scrolls up once for each step taken on
      its bottom row, rows below the region and above both the region and the
      cursor stay, and the lines scrolled off the top go to the scrollback in
      order; the lines differ from that only by blank cells allocated under the
      cursor. */
  lemma ParmDownCursorScrolls(s: Screen, params: seq<int>)
    ensures var (t, reg) := GetScrollRegion(s);
            var r := ParmDownCursor(s, params);
            reg.begin <= reg.end < |t.lines| && s.row <= reg.end ==>
              ScrolledInto(t.lines, reg.begin, reg.end, Cursor.Min(s.row, reg.begin),
                           Cursor.Max(0, Count(params) - (reg.end - s.row)), r.lines, r.history[|s.history|..])
  {
    var (t, reg) := GetScrollRegion(s);
    DownLoopScrolls(t, reg.begin, reg.end, Count(params), ParmDownCursor(s, params));
  }

  /** When the region is the whole buffer, scrolling it up by one and filling the new
      bottom line is dropping the top line and appending that line. */
  lemma ScrollUpWholeBuffer(lines: seq<Line>, bottom: Line)
    requires |lines| >= 1
    ensures ScrollUp(lines, 0, |lines| - 1, 1)[|lines| - 1 := bottom] == lines[1..] + [bottom]
  {
    var r := ScrollUp(lines, 0, |lines| - 1, 1)[|lines| - 1 := bottom];
    var want := lines[1..] + [bottom];
    forall i | 0 <= i < |lines|
      ensures r[i] == want[i]
    {
      if i < |lines| - 1 {
        assert r[i] == lines[i + 1];
      }
    }
  }

  /** A full screen with the default region and the cursor on a cell of the bottom
      row: the region covers the whole buffer and asking for the cursor's line changes
      nothing, so one step down scrolls the top line into the scrollback
      (`ScrollUpWholeBuffer`). */
  lemma FullScreenRegion(s: Screen)
    requires s.region.None? && |s.lines| == s.rows && s.row == s.rows - 1
    requires s.col < |s.lines[s.row]|
    ensures var g := GetScrollRegion(s);
            && g.1 == Region(0, |s.lines| - 1)
            && GetCurLine(g.0).lines == s.lines
            && s.row == g.1.end
  {
    var g := GetScrollRegion(s);
    assert g.0.lines == s.lines by {
      assert g.0.lines[..|s.lines|] == s.lines;
    }
    AllocLongEnough(s.lines[s.row], s.col + 1);
  }

  // ---------------------------------------------------------------------------
  // parm_up_cursor
  // ---------------------------------------------------------------------------

  /** The row one iteration of `parm_up_cursor` moves to, as the source writes it: on
      the region's top the row stays, anywhere else it decreases, even from row 0. */
  function UpRowAsWritten(row: int, begin: int): (r: int)
    ensures row == begin ==> r == row
    ensures row != begin ==> r + 1 == row
  {
    if row == begin then row else row - 1
  }

  /** The row with the evident intent: the cursor stops at row 0. */
  function UpRow(row: nat, begin: nat): (r: nat)
    ensures row == begin || row == 0 ==> r == row
    ensures row != begin && row > 0 ==> r + 1 == row
    ensures r == if row == begin then row else Cursor.Max(row - 1, 0)
  {
    if row == begin || row == 0 then row else row - 1
  }

  /** One iteration of `parm_up_cursor`, corrected to use `UpRow`: on the region's top
      row a blank line opens there and the region's bottom line falls out; elsewhere
      the row moves up.  The scrollback is never touched. */
  function UpStep(s: Screen, begin: nat, end: nat): (r: Screen)
    ensures r == s.(lines := r.lines, row := r.row)
    ensures r.row == UpRow(s.row, begin)
  {
    var t := GetCurLine(s);
    if t.row == begin then
      GetCurLine(t.(lines := InsertLineAt(t.lines, begin, end)))
    else
      GetCurLine(t.(row := UpRow(t.row, begin)))
  }

  /** `UpStep`'s lines on the region's top row: the region scrolls down by one and the
      cursor's line opens blank. */
  lemma UpStepTopLines(s: Screen, begin: nat, end: nat)
    requires s.row == begin && begin <= end < |GetCurLine(s).lines|
    ensures UpStep(s, begin, end).lines
            == ScrollDown(GetCurLine(s).lines, begin, end, 1)[begin := Blanks(s.col + 1)]
  {
    hide GetCurLine, InsertLineAt, ScrollDown;
    UpAtTop(GetCurLine(s), begin, end);
  }

  /** `UpStep`'s lines off the region's top row: only the line the cursor moves to
      changes, and it only gains cells. */
  lemma UpStepAwayLines(s: Screen, begin: nat, end: nat)
    requires s.row != begin
    ensures var r := UpStep(s, begin, end);
            var before := GetCurLine(s).lines;
            && |r.lines| == |before|
            && (forall i :: 0 <= i < |before| && i != r.row ==> r.lines[i] == before[i])
            && r.lines[r.row] == Alloc(before[r.row], s.col + 1)
  {
    hide GetCurLine;
    UpAway(GetCurLine(s), begin);
  }

  /** The top-row case of `UpStep` in full. */
  lemma UpAtTop(t: Screen, begin: nat, end: nat)
    requires t.row == begin
    ensures var r := GetCurLine(t.(lines := InsertLineAt(t.lines, begin, end)));
            && r == t.(lines := r.lines)
            && (begin <= end < |t.lines| ==> r.lines == ScrollDown(t.lines, begin, end, 1)[begin := Blanks(t.col + 1)])
  {
    if begin <= end < |t.lines| {
      OpenThenFill(t, begin, end);
    }
  }

  /** Away from the top row `UpStep` moves the cursor up one row, within a buffer
      that already has the cursor's line. */
  lemma UpAway(t: Screen, begin: nat)
    requires t.row != begin && t.row < |t.lines|
    ensures var r := GetCurLine(t.(row := UpRow(t.row, begin)));
            && r == t.(lines := r.lines, row := r.row)
            && r.row == UpRow(t.row, begin)
            && |r.lines| == |t.lines|
            && (forall i :: 0 <= i < |t.lines| && i != r.row ==> r.lines[i] == t.lines[i])
            && r.lines[r.row] == Alloc(t.lines[r.row], t.col + 1)
  {
  }

  /** The top-row case of `UpStep`: after the region scrolls down, the cursor's line
      is the new, empty top line, and allocating it fills it with blanks. */
  lemma OpenThenFill(t: Screen, begin: nat, end: nat)
    requires t.row == begin && begin <= end < |t.lines|
    ensures GetCurLine(t.(lines := InsertLineAt(t.lines, begin, end))).lines
            == ScrollDown(t.lines, begin, end, 1)[begin := Blanks(t.col + 1)]
  {
    var d := InsertLineAt(t.lines, begin, end);
    assert d[begin] == [];
    AllocEmpty(t.col + 1);
  }

  /** `n` corrected iterations: the cursor climbs to the region's top, or to row 0
      above the region, and stays there. */
  function UpLoop(s: Screen, begin: nat, end: nat, n: nat): (r: Screen)
    ensures r == s.(lines := r.lines, row := r.row)
    ensures s.row >= begin ==> r.row == Cursor.Max(s.row - n, begin)
    ensures s.row < begin ==> r.row == Cursor.Max(s.row - n, 0)
    decreases n
  {
    if n == 0 then s else UpLoop(UpStep(s, begin, end), begin, end, n - 1)
  }

  /** `parm_up_cursor`, corrected: move up `Count(params)` rows, scrolling the region
      down once its top is reached.  The scrollback is never touched and the cursor
      never leaves row 0. */
  function ParmUpCursor(s: Screen, params: seq<int>): (r: Screen)
    ensures var g := GetScrollRegion(s);
            r == g.0.(lines := r.lines, row := r.row)
    ensures r.history == s.history && r.row <= s.row
    ensures var reg := GetScrollRegion(s).1;
            && (s.row >= reg.begin ==> r.row == Cursor.Max(s.row - Count(params), reg.begin))
            && (s.row < reg.begin ==> r.row == Cursor.Max(s.row - Count(params), 0))
  {
    var (t, reg) := GetScrollRegion(s);
    UpLoop(t, reg.begin, reg.end, Count(params))
  }

  /** `get_cur_line()` on a row that may be negative, read as Python reads it: a row
      below 0 counts from the end of the buffer, `reserve` adds nothing for it, and a
      row reaching past the buffer's start raises `IndexError` (`None`). */
  function CurLineAt(lines: seq<Line>, row: int, col: nat): (r: Option<seq<Line>>)
    ensures r.None? <==> row + |lines| < 0
    ensures r.Some? ==> |r.value| == if row < |lines| then |lines| else row + 1
    ensures r.Some? ==>
              var k := PyIndex(row, |r.value|);
              && r.value[k] == Alloc(LineAt(lines, k), col + 1)
              && forall i :: 0 <= i < |r.value| && i != k ==> r.value[i] == LineAt(lines, i)
  {
    if row >= 0 then
      var l := Reserve(lines, row + 1);
      Some(l[row := Alloc(l[row], col + 1)])
    else if row + |lines| < 0 then None
    else
      var k := PyIndex(row, |lines|);
      Some(lines[k := Alloc(lines[k], col + 1)])
  }

  /** On a row the screen can hold, the Python reading is `get_cur_line`. */
  lemma CurLineAtAgrees(s: Screen)
    ensures CurLineAt(s.lines, s.row, s.col) == Some(GetCurLine(s).lines)
  {
  }

  /** One iteration of `parm_up_cursor` as the source writes it, on an integer row:
      `None` when a `get_cur_line` raises.  From a row on the screen it never raises;
      from a negative row it raises once the next row up would leave the buffer. */
  function UpStepAsWritten(lines: seq<Line>, row: int, col: nat, begin: nat, end: nat): (r: Option<(seq<Line>, int)>)
    ensures r.Some? ==> r.value.1 == UpRowAsWritten(row, begin)
    ensures row >= 0 ==> r.Some?
    ensures row < 0 ==> (r.Some? <==> row + |lines| > 0)
  {
    match CurLineAt(lines, row, col)
    case None => None
    case Some(a) =>
      var b := if row == begin then InsertLineAt(a, begin, end) else a;
      var next := if row == begin then row else row - 1;
      match CurLineAt(b, next, col)
      case None => None
      case Some(c) => Some((c, next))
  }

  /** `n` iterations as the source writes them.  At or below the region's top the
      cursor climbs to the top and stays; above it, every iteration moves up one row,
      past row 0 if `n` asks for it. */
  function UpLoopAsWritten(lines: seq<Line>, row: int, col: nat, begin: nat, end: nat, n: nat)
    : (r: Option<(seq<Line>, int)>)
    ensures row >= begin ==> r.Some? && r.value.1 == Cursor.Max(row - n, begin)
    ensures row < begin && r.Some? ==> r.value.1 == row - n
    ensures 0 <= row && n <= row ==> r.Some?
    decreases n
  {
    if n == 0 then Some((lines, row))
    else
      match UpStepAsWritten(lines, row, col, begin, end)
      case None => None
      case Some(p) => UpLoopAsWritten(p.0, p.1, col, begin, end, n - 1)
  }

  /** `parm_up_cursor` as the source writes it.  `None` when a `get_cur_line` raises,
      or when the cursor ends above row 0, a position this screen model does not hold. */
  function ParmUpCursorAsWritten(s: Screen, params: seq<int>): (r: Option<Screen>)
    ensures r.Some? ==> var g := GetScrollRegion(s);
              r.value == g.0.(lines := r.value.lines, row := r.value.row)
    ensures var reg := GetScrollRegion(s).1;
            && (s.row >= reg.begin ==> r.Some? && r.value.row == Cursor.Max(s.row - Count(params), reg.begin))
            && (s.row < reg.begin && r.Some? ==> r.value.row + Count(params) == s.row)
            && (s.row < reg.begin && Count(params) <= s.row ==> r.Some?)
            && (s.row < reg.begin && Count(params) > s.row ==> r.None?)
  {
    var (t, reg) := GetScrollRegion(s);
    match UpLoopAsWritten(t.lines, t.row, t.col, reg.begin, reg.end, Count(params))
    case None => None
    case Some(p) => if p.1 < 0 then None else Some(t.(lines := p.0, row := p.1))
  }

  /** Off the region's top row, and on it whenever that row is not row 0, one
      iteration as written is the corrected one. */
  lemma UpStepAsWrittenAgrees(s: Screen, begin: nat, end: nat)
    requires s.row == begin || s.row > 0
    ensures UpStepAsWritten(s.lines, s.row, s.col, begin, end)
            == Some((UpStep(s, begin, end).lines, UpStep(s, begin, end).row))
  {
    var t := GetCurLine(s);
    CurLineAtAgrees(s);
    if s.row == begin {
      CurLineAtAgrees(t.(lines := InsertLineAt(t.lines, begin, end)));
    } else {
      CurLineAtAgrees(t.(row := s.row - 1));
    }
  }

  /** Wherever the cursor stays on the screen, the source's loop and the corrected one
      agree: they part only once a row above the region would go past row 0. */
  lemma {:induction false} UpLoopAsWrittenAgrees(s: Screen, begin: nat, end: nat, n: nat)
    requires s.row >= begin || n <= s.row
    ensures UpLoopAsWritten(s.lines, s.row, s.col, begin, end, n)
            == Some((UpLoop(s, begin, end, n).lines, UpLoop(s, begin, end, n).row))
    decreases n
  {
    hide UpStep, GetCurLine, CurLineAt, UpStepAsWritten;
    if n > 0 {
      var m := UpStep(s, begin, end);
      UpStepAsWrittenAgrees(s, begin, end);
      UpLoopAsWrittenAgrees(m, begin, end, n - 1);
    }
  }

  /** `parm_up_cursor` as written gives the corrected result whenever that result
      has the cursor where the source's loop leaves it. */
  lemma ParmUpCursorAsWrittenAgrees(s: Screen, params: seq<int>)
    ensures var reg := GetScrollRegion(s).1;
            s.row >= reg.begin || Count(params) <= s.row ==>
              ParmUpCursorAsWritten(s, params) == Some(ParmUpCursor(s, params))
  {
    var (t, reg) := GetScrollRegion(s);
    if s.row >= reg.begin || Count(params) <= s.row {
      UpLoopAsWrittenAgrees(t, reg.begin, reg.end, Count(params));
    }
  }

  /** Above a region starting on row 2, one step up from row 0 of a three-line buffer
      leaves the cursor on row -1 and allocates the buffer's last line, where the
      corrected step keeps it on row 0. */
  lemma UpStepAsWrittenWrapsAround()
    ensures UpStepAsWritten([[], [], []], 0, 0, 2, 2) == Some(([[Blank], [], [Blank]], -1))
    ensures UpRow(0, 2) == 0
  {
    var lines: seq<Line> := [[], [], []];
    AllocEmpty(1);
    assert Blanks(1) == [Blank];
    assert Reserve(lines, 1) == lines;
    var a := lines[0 := [Blank]];
    assert CurLineAt(lines, 0, 0) == Some(a);
    assert PyIndex(-1, 3) == 2;
    assert CurLineAt(a, -1, 0) == Some(a[2 := [Blank]]);
    assert a[2 := [Blank]] == [[Blank], [], [Blank]];
  }
}

=== FILE: slices.dfy ===
/** Python's list indexing and slicing, as the handlers use them. */
module Slices {

  /** Python's slice `s[i:j]` for non-negative bounds: both bounds are clamped to the
      length of `s`, and a slice whose end precedes its start is empty. */
  function Slice<T>(s: seq<T>, i: nat, j: nat): (r: seq<T>)
    ensures i <= j <= |s| ==> r == s[i..j]
    ensures i <= |s| <= j ==> r == s[i..]
    ensures j <= i ==> r == []
    ensures |s| <= i ==> r == []
  {
    var lo := if i < |s| then i else |s|;
    var hi := if j < |s| then j else |s|;
    if hi <= lo then [] else s[lo..hi]
  }

  /** Python's reading of a list index: a negative index counts from the end. */
  function PyIndex(i: int, n: nat): (k: nat)
    requires 0 <= i + n && i < n
    ensures k < n
    ensures i >= 0 ==> k == i
  {
    if i < 0 then n + i else i
  }
}

=== FILE: tango.dfy ===
/** The Tango palette of pymterm/colour/tango.py: colours written as twelve hex
    digits, four per channel, of which only the two high digits are kept. */
module Tango {
  import opened Wrappers
  import opened Slices

  /** An RGBA colour, the four-element list of the source. */
  datatype Color = Color(r: int, g: int, b: int, a: int)

  /** The colours `apply_color` stores in the configuration. */
  datatype ColorConfig = ColorConfig(defaultFg: Color, defaultBg: Color, cursor: Color)

  const TangoPallete: seq<string> := [
    "2e2e34343636", "cccc00000000", "4e4e9a9a0606", "c4c4a0a00000",
    "34346565a4a4", "757550507b7b", "060698989a9a", "d3d3d7d7cfcf",
    "555557575353", "efef29292929", "8a8ae2e23434", "fcfce9e94f4f",
    "72729f9fcfcf", "adad7f7fa8a8", "3434e2e2e2e2", "eeeeeeeeecec"
  ]

  // ---------------------------------------------------------------------------
  // Hexadecimal digits
  // ---------------------------------------------------------------------------

  /** The value of one hexadecimal digit, in either case, as `int(_, 16)` reads it. */
  function HexDigit(c: char): (r: Option<nat>)
    ensures r.Some? ==> r.value < 16
  {
    if '0' <= c <= '9' then Some(c as nat - '0' as nat)
    else if 'a' <= c <= 'f' then Some(c as nat - 'a' as nat + 10)
    else if 'A' <= c <= 'F' then Some(c as nat - 'A' as nat + 10)
    else None
  }

  predicate AllHex(s: string) {
    forall i :: 0 <= i < |s| ==> HexDigit(s[i]).Some?
  }

  function Pow16(n: nat): (r: nat)
    ensures r >= 1
  {
    if n == 0 then 1 else 16 * Pow16(n - 1)
  }

  /** The value of a string of hexadecimal digits, most significant first. */
  function HexValue(s: string): (r: nat)
    requires AllHex(s)
    ensures r < Pow16(|s|)
  {
    if |s| == 0 then 0
    else HexValue(s[..|s| - 1]) * 16 + HexDigit(s[|s| - 1]).value
  }

  /** `int(s, 16)` on the strings that reach it here, two-character slices of the
      palette constants: a non-empty string of hex digits parses to its value.  Every
      other string is `None`, including the signed, space-padded, `0x`-prefixed and
      underscored forms that Python's `int` also accepts. */
  function ParseHex(s: string): (r: Option<nat>)
    ensures r.Some? <==> |s| > 0 && AllHex(s)
    ensures r.Some? ==> r.value < Pow16(|s|)
  {
    if |s| > 0 && AllHex(s) then Some(HexValue(s)) else None
  }

  /** The lower-case digit of a value below 16. */
  function HexChar(v: nat): (c: char)
    requires v < 16
    ensures HexDigit(c) == Some(v)
  {
    if v < 10 then ('0' as nat + v) as char else ('a' as nat + v - 10) as char
  }

  /** Two hex digits for a byte. */
  function Hex2(v: nat): (s: string)
    requires v < 256
    ensures |s| == 2 && AllHex(s)
    ensures HexValue(s) == v
  {
    var s := [HexChar(v / 16), HexChar(v % 16)];
    assert s[..1] == [s[0]];
    assert [s[0]][..0] == [];
    s
  }

  /** Four hex digits for a 16-bit channel, the format of the palette strings. */
  function Hex4(v: nat): (s: string)
    requires v < 65536
    ensures |s| == 4 && s[..2] == Hex2(v / 256)
  {
    Hex2(v / 256) + Hex2(v % 256)
  }

  // ---------------------------------------------------------------------------
  // parse_tango_color, apply_color
  // ---------------------------------------------------------------------------

  /** `parse_tango_color(c)`: r, g and b are read from `c[:4][:2]`, `c[4:8][:2]` and
      `c[8:][:2]`; alpha is always 0xFF.  `None` stands for the `ValueError` that
      `int` raises on an empty or non-hex slice. */
  function ParseTangoColor(c: string): (r: Option<Color>)
    ensures r.Some? <==> |c| > 8 && AllHex(c[..2]) && AllHex(c[4..6]) && AllHex(c[8..if |c| < 10 then |c| else 10])
    ensures r.Some? ==> r.value.a == 0xFF
    ensures r.Some? ==> 0 <= r.value.r <= 255 && 0 <= r.value.g <= 255 && 0 <= r.value.b <= 255
    // a full-length string yields the two leading digits of each four-digit group
    ensures |c| >= 10 && AllHex(c[..2]) && AllHex(c[4..6]) && AllHex(c[8..10]) ==>
              r == Some(Color(HexValue(c[..2]), HexValue(c[4..6]), HexValue(c[8..10]), 0xFF))
  {
    var rs := Slice(Slice(c, 0, 4), 0, 2);
    var gs := Slice(Slice(c, 4, 8), 0, 2);
    var bs := Slice(Slice(c, 8, |c|), 0, 2);
    assert |c| > 8 ==> rs == c[..2] && gs == c[4..6] && bs == c[8..if |c| < 10 then |c| else 10];
    var r := ParseHex(rs);
    var g := ParseHex(gs);
    var b := ParseHex(bs);
    if r.Some? && g.Some? && b.Some? then Some(Color(r.value, g.value, b.value, 0xFF)) else None
  }

  /** Each channel of a palette string is the high byte of its 16-bit group. */
  lemma TangoRoundTrip(r: nat, g: nat, b: nat)
    requires r < 65536 && g < 65536 && b < 65536
    ensures ParseTangoColor(Hex4(r) + Hex4(g) + Hex4(b)) == Some(Color(r / 256, g / 256, b / 256, 0xFF))
  {
    var c := Hex4(r) + Hex4(g) + Hex4(b);
    assert Slice(Slice(c, 0, 4), 0, 2) == Hex2(r / 256);
    assert Slice(Slice(c, 4, 8), 0, 2) == Hex2(g / 256);
    assert Slice(Slice(c, 8, |c|), 0, 2) == Hex2(b / 256);
  }

  /** The sixteen palette colours, as the palette strings encode them. */
  const TangoColors: seq<Color> := [
    Color(0x2e, 0x34, 0x36, 0xFF), Color(0xcc, 0x00, 0x00, 0xFF),
    Color(0x4e, 0x9a, 0x06, 0xFF), Color(0xc4, 0xa0, 0x00, 0xFF),
    Color(0x34, 0x65, 0xa4, 0xFF), Color(0x75, 0x50, 0x7b, 0xFF),
    Color(0x06, 0x98, 0x9a, 0xFF), Color(0xd3, 0xd7, 0xcf, 0xFF),
    Color(0x55, 0x57, 0x53, 0xFF), Color(0xef, 0x29, 0x29, 0xFF),
    Color(0x8a, 0xe2, 0x34, 0xFF), Color(0xfc, 0xe9, 0x4f, 0xFF),
    Color(0x72, 0x9f, 0xcf, 0xFF), Color(0xad, 0x7f, 0xa8, 0xFF),
    Color(0x34, 0xe2, 0xe2, 0xFF), Color(0xee, 0xee, 0xec, 0xFF)
  ]

  /** The value of the hex pair at `c[k]`, `c[k+1]`. */
  function PairAt(c: string, k: nat): nat
    requires k + 1 < |c| && HexDigit(c[k]).Some? && HexDigit(c[k + 1]).Some?
  {
    16 * HexDigit(c[k]).value + HexDigit(c[k + 1]).value
  }

  /** A twelve-digit palette string read through its three leading digit pairs. */
  lemma ParsePairs(c: string)
    requires |c| == 12
    requires HexDigit(c[0]).Some? && HexDigit(c[1]).Some? && HexDigit(c[4]).Some?
    requires HexDigit(c[5]).Some? && HexDigit(c[8]).Some? && HexDigit(c[9]).Some?
    ensures ParseTangoColor(c) == Some(Color(PairAt(c, 0), PairAt(c, 4), PairAt(c, 8), 0xFF))
  {
    forall k | k == 0 || k == 4 || k == 8
      ensures HexValue(c[k..k + 2]) == PairAt(c, k)
    {
      assert c[k..k + 2][..1] == [c[k]];
      assert [c[k]][..0] == [];
    }
    assert c[..2] == c[0..2];
  }

  /** Every palette string parses to the colour listed for it. */
  lemma TangoPalleteColors(i: nat)
    requires i < 16
    ensures ParseTangoColor(TangoPallete[i]) == Some(TangoColors[i])
  {
    hide ParseTangoColor;
    match i
    case 0 => ParsePairs(TangoPallete[0]);
    case 1 => ParsePairs(TangoPallete[1]);
    case 2 => ParsePairs(TangoPallete[2]);
    case 3 => ParsePairs(TangoPallete[3]);
    case 4 => ParsePairs(TangoPallete[4]);
    case 5 => ParsePairs(TangoPallete[5]);
    case 6 => ParsePairs(TangoPallete[6]);
    case 7 => ParsePairs(TangoPallete[7]);
    case 8 => ParsePairs(TangoPallete[8]);
    case 9 => ParsePairs(TangoPallete[9]);
    case 10 => ParsePairs(TangoPallete[10]);
    case 11 => ParsePairs(TangoPallete[11]);
    case 12 => ParsePairs(TangoPallete[12]);
    case 13 => ParsePairs(TangoPallete[13]);
    case 14 => ParsePairs(TangoPallete[14]);
    case _ => ParsePairs(TangoPallete[15]);
  }

  /** The colour strings `apply_color` gives the default foreground and background. */
  const ForegroundString: string := "eeeeeeeeecec"
  const BackgroundString: string := "323232323232"

  /** The two configured colour strings parse. */
  lemma ConfiguredColors()
    ensures ParseTangoColor(ForegroundString) == Some(Color(0xee, 0xee, 0xec, 0xFF))
    ensures ParseTangoColor(BackgroundString) == Some(Color(0x32, 0x32, 0x32, 0xFF))
  {
    ParsePairs(ForegroundString);
    ParsePairs(BackgroundString);
  }

  /** `apply_color(cfg, color_table)`: the default colours are fixed, the cursor
      colour is the foreground colour, and the first sixteen table entries (those the
      table has) become the Tango palette. */
  function ApplyColor(table: seq<Color>): (r: (ColorConfig, seq<Color>))
    ensures r.0.defaultFg == Color(0xee, 0xee, 0xec, 0xFF)
    ensures r.0.defaultBg == Color(0x32, 0x32, 0x32, 0xFF)
    ensures r.0.cursor == r.0.defaultFg
    ensures |r.1| == |table|
    ensures forall i :: 0 <= i < |table| && i < 16 ==> r.1[i] == TangoColors[i]
    ensures forall i :: 16 <= i < |table| ==> r.1[i] == table[i]
  {
    ConfiguredColors();
    var fg := ParseTangoColor(ForegroundString).value;
    var bg := ParseTangoColor(BackgroundString).value;
    var table' := seq(|table|, i requires 0 <= i < |table| => if i < 16 then TangoColors[i] else table[i]);
    (ColorConfig(fg, bg, fg), table')
  }

  /** The table `apply_color` installs is the palette strings, parsed. */
  lemma ApplyColorParsesPallete(table: seq<Color>)
    ensures forall i :: 0 <= i < |table| && i < 16 ==> Some(ApplyColor(table).1[i]) == ParseTangoColor(TangoPallete[i])
  {
    forall i | 0 <= i < |table| && i < 16
      ensures Some(ApplyColor(table).1[i]) == ParseTangoColor(TangoPallete[i])
    {
      TangoPalleteColors(i);
    }
  }
}

=== FILE: terminal.dfy ===
/** The `Terminal` front end (pymterm/term/terminal.py) with the handlers of
    `TerminalGUI` (pymterm/term/terminal_gui.py) behind it: routing printed bytes to
    the screen or the status line, entering and leaving the status line, dispatching
    resolved capabilities to their handlers, and the dimension defaults.

    The engine's events are applied in order after the chunk has been parsed.  Handlers
    never touch the parser's fields, so this order gives the same screen as the
    source's interleaving. */
module Terminal {
  import opened Wrappers
  import opened Engine
  import opened Screen
  import Grid
  import Cursor
  import Scrolling
  import Erase
  import Printing
  import Reports

  // ---------------------------------------------------------------------------
  // get_cols, get_rows, get_tab_width
  // ---------------------------------------------------------------------------

  /** `cap.flags`: the numeric capabilities of the loaded terminal description. */
  type Flags = map<string, int>

  /** A numeric capability, or the default when the description lacks it. */
  function FlagOr(flags: Flags, key: string, default: int): (r: int)
    ensures key in flags ==> r == flags[key]
    ensures key !in flags ==> r == default
  {
    if key in flags then flags[key] else default
  }

  const DefaultCols: int := 80
  const DefaultRows: int := 24
  const DefaultTabWidth: int := 8

  function GetCols(flags: Flags): (r: int)
    ensures "columns" in flags ==> r == flags["columns"]
    ensures "columns" !in flags ==> r == 80
  {
    FlagOr(flags, "columns", DefaultCols)
  }

  function GetRows(flags: Flags): (r: int)
    ensures "lines" in flags ==> r == flags["lines"]
    ensures "lines" !in flags ==> r == 24
  {
    FlagOr(flags, "lines", DefaultRows)
  }

  function GetTabWidth(flags: Flags): (r: int)
    ensures "init_tabs" in flags ==> r == flags["init_tabs"]
    ensures "init_tabs" !in flags ==> r == 8
  {
    FlagOr(flags, "init_tabs", DefaultTabWidth)
  }

  /** Without the three flags the terminal is 80 columns by 24 rows with a tab stop
      every 8 columns; a flag that is present wins over its default. */
  lemma DimensionDefaults(flags: Flags)
    ensures "columns" !in flags ==> GetCols(flags) == 80
    ensures "lines" !in flags ==> GetRows(flags) == 24
    ensures "init_tabs" !in flags ==> GetTabWidth(flags) == 8
    ensures "columns" in flags ==> GetCols(flags) == flags["columns"]
    ensures "lines" in flags ==> GetRows(flags) == flags["lines"]
    ensures "init_tabs" in flags ==> GetTabWidth(flags) == flags["init_tabs"]
  {
  }

  // ---------------------------------------------------------------------------
  // The terminal
  // ---------------------------------------------------------------------------

  /** What the terminal hands to its session: a reply to the host (`session.send`),
      or a finished status line (`session.on_status_line`). */
  datatype Sent = Reply(text: string) | StatusLine(mode: int, text: string)

  /** The terminal's fields apart from the parser: the screen, `in_status_line`,
      `status_line`, `status_line_mode`, and everything sent so far. */
  datatype Term = Term(screen: Screen, inStatusLine: bool, statusLine: string, statusMode: int, sent: seq<Sent>)

  // ---------------------------------------------------------------------------
  // output_data, output_status_line_data, enter_status_line
  // ---------------------------------------------------------------------------

  /** `output_status_line_data(c)`: on ESC the source calls `sys.exit`, which raises
      `SystemExit` (`None`);
      anything else is appended to the status line. */
  function AppendStatus(t: Term, c: char): (r: Option<Term>)
    ensures r.None? <==> c == ESC
    ensures r.Some? ==> r.value == t.(statusLine := t.statusLine + [c])
  {
    if c == ESC then None else Some(t.(statusLine := t.statusLine + [c]))
  }

  /** `output_data(c)`: a printed byte goes to the status line exactly when the
      terminal is in status-line mode, and to the screen's print path (`save_buffer`)
      otherwise.  On ESC either path raises `SystemExit` (`None`).  `wide` stands for the character-width
      lookup.  A glyph that fits is read back at the cursor; one that wraps lands
      narrow on column 0 of the next row. */
  function OutputData(t: Term, c: char, wide: char -> bool): (r: Option<Term>)
    ensures r.None? <==> c == ESC
    ensures r.Some? && t.inStatusLine ==> r.value == t.(statusLine := t.statusLine + [c])
    ensures r.Some? && !t.inStatusLine ==>
              r.value == t.(screen := Printing.SaveBufferAsWritten(t.screen, Printing.Glyph(c, wide(c))))
    ensures r.Some? && !t.inStatusLine ==>
              var s, u := t.screen, r.value.screen;
              var g := Printing.Glyph(c, wide(c));
              && u.attr == s.attr
              && (s.col + |Printing.Unit(g)| <= s.cols ==>
                    s.row < |u.lines| && s.col < |u.lines[s.row]| && Printing.ReadGlyph(u.lines[s.row], s.col) == g)
              && (s.col + |Printing.Unit(g)| > s.cols && c != Grid.NUL ==>
                    && u.col == 1 && u.row < |u.lines| && 0 < |u.lines[u.row]|
                    && Printing.ReadGlyph(u.lines[u.row], 0) == Printing.Glyph(c, false))
  {
    if t.inStatusLine then AppendStatus(t, c)
    else if c == ESC then None
    else Some(t.(screen := Printing.SaveBufferAsWritten(t.screen, Printing.Glyph(c, wide(c)))))
  }

  /** `enter_status_line(mode, enter)`: entering starts an empty status line in the
      given mode; leaving hands the status line, if not empty, to the session under
      the mode given on leaving.  The status line is not cleared on leaving. */
  function EnterStatusLine(t: Term, mode: int, enter: bool): (r: Term)
    ensures r.inStatusLine == enter && r.screen == t.screen
    ensures enter ==> r.statusLine == [] && r.statusMode == mode && r.sent == t.sent
    ensures !enter ==> r.statusLine == t.statusLine && r.statusMode == t.statusMode
    ensures !enter && |t.statusLine| > 0 ==> r.sent == t.sent + [StatusLine(mode, t.statusLine)]
    ensures !enter && |t.statusLine| == 0 ==> r.sent == t.sent
  {
    if enter then t.(statusLine := [], statusMode := mode, inStatusLine := true)
    else if |t.statusLine| > 0 then t.(sent := t.sent + [StatusLine(mode, t.statusLine)], inStatusLine := false)
    else t.(inStatusLine := false)
  }

  /** A run of bytes through the status-line path. */
  function AppendAll(t: Term, cs: string): Option<Term>
    decreases |cs|
  {
    if cs == [] then Some(t)
    else match AppendStatus(t, cs[0])
      case None => None
      case Some(u) => AppendAll(u, cs[1..])
  }

  /** Bytes without ESC are appended in order. */
  lemma {:induction false} AppendAllAppends(t: Term, cs: string)
    requires ESC !in cs
    ensures AppendAll(t, cs) == Some(t.(statusLine := t.statusLine + cs))
    decreases |cs|
  {
    if cs != [] {
      var u := t.(statusLine := t.statusLine + [cs[0]]);
      assert cs[0] in cs;
      assert AppendStatus(t, cs[0]) == Some(u);
      assert ESC !in cs[1..];
      assert AppendAll(t, cs) == AppendAll(u, cs[1..]);
      AppendAllAppends(u, cs[1..]);
      assert u.statusLine + cs[1..] == t.statusLine + cs;
      assert u.(statusLine := u.statusLine + cs[1..]) == t.(statusLine := t.statusLine + cs);
    } else {
      assert t.statusLine + cs == t.statusLine;
    }
  }

  /** Entering the status line, printing a non-empty text and leaving it hands
      exactly that text to the session, whatever the status line held before. */
  lemma StatusLineRoundTrip(t: Term, enterMode: int, leaveMode: int, text: string)
    requires ESC !in text && |text| > 0
    ensures var u := AppendAll(EnterStatusLine(t, enterMode, true), text);
            u.Some? && EnterStatusLine(u.value, leaveMode, false).sent == t.sent + [StatusLine(leaveMode, text)]
  {
    var e := EnterStatusLine(t, enterMode, true);
    AppendAllAppends(e, text);
    assert [] + text == text;
  }

  // ---------------------------------------------------------------------------
  // on_control_data
  // ---------------------------------------------------------------------------

  /** The handlers this model has.  Several capability names share one:
      `cursor_down` runs `parm_down_cursor`, for instance. */
  datatype Handler =
    | CarriageReturn | CursorRight | CursorLeft | CursorDown | CursorUp | NextLine
    | ParmRightCursor | ParmLeftCursor | Tab | CursorAddress | CursorHome
    | ClrLine | ClrEol | ClrBol | ClrEos | DeleteLine | InsertLine
    | ChangeScrollRegion | ChangeScrollRegionFromStart | ChangeScrollRegionToEnd
    | EnterCa | ExitCa | User7

  /** `cap_manager.get_cap_handler`, for the capability names handled here. */
  const HandlerTable: map<string, Handler> := map[
    "carriage_return" := CarriageReturn,
    "cursor_right" := CursorRight, "cursor_left" := CursorLeft,
    "cursor_down" := CursorDown, "parm_down_cursor" := CursorDown,
    "cursor_up" := CursorUp, "parm_up_cursor" := CursorUp,
    "next_line" := NextLine,
    "parm_right_cursor" := ParmRightCursor, "parm_left_cursor" := ParmLeftCursor,
    "tab" := Tab, "cursor_address" := CursorAddress, "cursor_home" := CursorHome,
    "clr_line" := ClrLine, "clr_eol" := ClrEol, "clr_bol" := ClrBol, "clr_eos" := ClrEos,
    "delete_line" := DeleteLine, "parm_delete_line" := DeleteLine,
    "insert_line" := InsertLine, "parm_insert_line" := InsertLine,
    "change_scroll_region" := ChangeScrollRegion,
    "change_scroll_region_from_start" := ChangeScrollRegionFromStart,
    "change_scroll_region_to_end" := ChangeScrollRegionToEnd,
    "enter_ca_mode" := EnterCa, "exit_ca_mode" := ExitCa,
    "user7" := User7]

  /** The capabilities that enter or leave the status line, with the mode and the
      direction each passes to `enter_status_line`.  Their handlers are outside this
      model, so the lookup is a parameter; it gives `None` for any other name. */
  type StatusCaps = (string, Params) -> Option<(int, bool)>

  /** The parameters a handler reads: one less each when the capability's parameters
      arrive one-based. */
  function HandlerParams(cap: Cap, params: Params): (r: Params)
    ensures |r| == |params|
    ensures forall i :: 0 <= i < |params| ==> r[i] + (if cap.increase then 1 else 0) == params[i]
  {
    if cap.increase then seq(|params|, i requires 0 <= i < |params| => params[i] - 1) else params
  }

  /** When a handler raises: it reads `params[0]` or `params[1]` and they are missing,
      or a parameter that must be a row or column is negative, or `exit_ca_mode` finds
      nothing saved, or `parm_up_cursor` reads past the start of the buffer or leaves
      the cursor above row 0, where this screen model cannot follow it. */
  predicate HandlerFails(h: Handler, params: Params, s: Screen) {
    match h
    case ParmRightCursor | ParmLeftCursor | User7 => |params| == 0
    case ChangeScrollRegionFromStart | ChangeScrollRegionToEnd => |params| == 0 || params[0] < 0
    case CursorAddress => |params| < 2 || params[0] < 0 || params[1] < 0
    case ChangeScrollRegion => |params| > 0 && (|params| < 2 || params[0] < 0 || params[1] < 0)
    case ExitCa => s.saved.None?
    case CursorUp => Scrolling.ParmUpCursorAsWritten(s, params).None?
    case _ => false
  }

  /** The reply `user7` sends, if any: an empty reply sends nothing. */
  function Replies(reply: string): seq<Sent> {
    if reply == [] then [] else [Reply(reply)]
  }

  /** A screen handler run on the parameters it reads.  `None` when it raises. */
  function RunHandler(h: Handler, ps: Params, s: Screen, tabWidth: Pos): (r: Option<Screen>)
    requires h != User7
    ensures r.None? <==> HandlerFails(h, ps, s)
  {
    if HandlerFails(h, ps, s) then None
    else
      match h
      case CarriageReturn => Some(s.(col := 0))
      case CursorRight => Some(Cursor.CursorRight(s))
      case CursorLeft => Some(Cursor.CursorLeft(s))
      case CursorDown => Some(Scrolling.ParmDownCursor(s, ps))
      case CursorUp => Scrolling.ParmUpCursorAsWritten(s, ps)
      case NextLine => Some(Scrolling.ParmDownCursor(s.(col := 0), ps))
      case ParmRightCursor => Some(Cursor.ParmRightCursorAsWritten(s, ps[0]))
      case ParmLeftCursor => Some(Cursor.ParmLeftCursor(s, ps[0]))
      case Tab => Some(Cursor.Tab(s, tabWidth))
      case CursorAddress => Some(SetCursor(s, ps[1], ps[0]))
      case CursorHome => Some(SetCursor(s, 0, 0))
      case ClrLine => Some(Erase.ClrLine(s))
      case ClrEol => Some(Erase.ClrEol(s))
      case ClrBol => Some(Erase.ClrBol(s))
      case ClrEos => Some(Erase.ClrEos(s, ps))
      case DeleteLine => Some(Scrolling.ParmDeleteLine(s, ps))
      case InsertLine => Some(Scrolling.ParmInsertLine(s, ps))
      case ChangeScrollRegion =>
        Some(Scrolling.ChangeScrollRegion(s, if |ps| == 0 then None else Some((ps[0], ps[1]))))
      case ChangeScrollRegionFromStart => Some(Scrolling.ChangeScrollRegionFromStart(s, ps[0]))
      case ChangeScrollRegionToEnd => Some(Scrolling.ChangeScrollRegionToEnd(s, ps[0]))
      case EnterCa => Some(EnterCaMode(s))
      case ExitCa => ExitCaMode(s)
  }

  /** `on_control_data(cap)`: look up the handler for the capability's name and run
      it on the parameters it reads.  A name without a handler here enters or leaves
      the status line when `status` says so, and is ignored otherwise.  `None` is a
      handler that raises. */
  function OnControlData(t: Term, cap: Cap, params: Params, tabWidth: Pos, status: StatusCaps): (r: Option<Term>)
    ensures r.None? <==> cap.name in HandlerTable && HandlerFails(HandlerTable[cap.name], HandlerParams(cap, params), t.screen)
    ensures cap.name !in HandlerTable ==>
              r == Some(match status(cap.name, HandlerParams(cap, params))
                        case Some(me) => EnterStatusLine(t, me.0, me.1)
                        case None => t)
    ensures cap.name in HandlerTable && r.Some? ==> r.value == t.(screen := r.value.screen, sent := r.value.sent)
    ensures cap.name in HandlerTable && r.Some? && HandlerTable[cap.name] != User7 ==> r.value.sent == t.sent
    ensures r.Some? && cap.name in HandlerTable && HandlerTable[cap.name] == User7 ==>
              r.value == t.(sent := t.sent + Replies(Reports.User7(t.screen, HandlerParams(cap, params)).value))
    // every handled name runs its own handler
    ensures r.Some? && cap.name in HandlerTable ==>
              var s, ps, u := t.screen, HandlerParams(cap, params), r.value.screen;
              match HandlerTable[cap.name]
              case CarriageReturn => u == s.(col := 0)
              case CursorRight => u == Cursor.CursorRight(s)
              case CursorLeft => u == Cursor.CursorLeft(s)
              case CursorDown => u == Scrolling.ParmDownCursor(s, ps)
              case CursorUp => Some(u) == Scrolling.ParmUpCursorAsWritten(s, ps)
              case NextLine => u == Scrolling.ParmDownCursor(s.(col := 0), ps)
              case ParmRightCursor => |ps| > 0 && u == Cursor.ParmRightCursorAsWritten(s, ps[0])
              case ParmLeftCursor => |ps| > 0 && u == Cursor.ParmLeftCursor(s, ps[0])
              case Tab => u == Cursor.Tab(s, tabWidth)
              case CursorAddress => |ps| >= 2 && ps[0] >= 0 && ps[1] >= 0 && u == SetCursor(s, ps[1], ps[0])
              case CursorHome => u == SetCursor(s, 0, 0)
              case ClrLine => u == Erase.ClrLine(s)
              case ClrEol => u == Erase.ClrEol(s)
              case ClrBol => u == Erase.ClrBol(s)
              case ClrEos => u == Erase.ClrEos(s, ps)
              case DeleteLine => u == Scrolling.ParmDeleteLine(s, ps)
              case InsertLine => u == Scrolling.ParmInsertLine(s, ps)
              case ChangeScrollRegion =>
                u == Scrolling.ChangeScrollRegion(s, if |ps| == 0 then None else Some((ps[0] as nat, ps[1] as nat)))
              case ChangeScrollRegionFromStart => |ps| > 0 && u == Scrolling.ChangeScrollRegionFromStart(s, ps[0] as nat)
              case ChangeScrollRegionToEnd => |ps| > 0 && u == Scrolling.ChangeScrollRegionToEnd(s, ps[0] as nat)
              case EnterCa => u == EnterCaMode(s)
              case ExitCa => Some(u) == ExitCaMode(s)
              case User7 => u == s
  {
    var ps := HandlerParams(cap, params);
    if cap.name !in HandlerTable then
      match status(cap.name, ps)
      case Some(me) => Some(EnterStatusLine(t, me.0, me.1))
      case None => Some(t)
    else
      var h := HandlerTable[cap.name];
      if h == User7 then
        if HandlerFails(h, ps, t.screen) then None
        else Some(t.(sent := t.sent + Replies(Reports.User7(t.screen, ps).value)))
      else
        match RunHandler(h, ps, t.screen, tabWidth)
        case None => None
        case Some(u) => Some(t.(screen := u))
  }

  /** `ESC [ 2 ; 5 H` through a `cursor_address` whose parameters arrive one-based
      puts the cursor on screen row 1, column 4. */
  lemma CursorAddressOneBased(t: Term, tabWidth: Pos, status: StatusCaps)
    ensures var r := OnControlData(t, Cap("cursor_address", true), [2, 5], tabWidth, status);
            r.Some? && GetCursor(r.value.screen) == (4, 1)
  {
    hide OnControlData, RunHandler;
    var cap := Cap("cursor_address", true);
    assert cap.name in HandlerTable && HandlerTable[cap.name] == CursorAddress;
    assert HandlerParams(cap, [2, 5]) == [1, 4];
  }

  /** Dispatched as the source writes it, moving 10 right from column 70 of an
      80-column screen leaves the cursor on column 80, one past the last column. */
  lemma ParmRightDispatchOverruns(t: Term, tabWidth: Pos, status: StatusCaps)
    requires t.screen == NewScreen(80, 24).(col := 70)
    ensures var r := OnControlData(t, Cap("parm_right_cursor", false), [10], tabWidth, status);
            r.Some? && r.value.screen.col == 80
  {
    hide OnControlData, RunHandler;
    var cap := Cap("parm_right_cursor", false);
    assert cap.name in HandlerTable && HandlerTable[cap.name] == ParmRightCursor;
    assert HandlerParams(cap, [10]) == [10];
    Cursor.ParmRightCursorAsWrittenOverruns();
  }

  // ---------------------------------------------------------------------------
  // Applying the engine's events
  // ---------------------------------------------------------------------------

  /** One event: a print goes to `output_data`, a dispatch to `on_control_data`. */
  function ApplyEvent(t: Term, e: Event, wide: char -> bool, tabWidth: Pos, status: StatusCaps): (r: Option<Term>)
    // an event fails exactly on a printed ESC or a handler that raises
    ensures r.None? <==> match e
                         case Print(c) => c == ESC
                         case Control(cap, params, _) =>
                           cap.name in HandlerTable && HandlerFails(HandlerTable[cap.name], HandlerParams(cap, params), t.screen)
    // a printed byte sends nothing and keeps the status-line mode
    ensures r.Some? && e.Print? ==> r.value.sent == t.sent && r.value.inStatusLine == t.inStatusLine
  {
    match e
    case Print(c) => OutputData(t, c, wide)
    case Control(cap, params, _) => OnControlData(t, cap, params, tabWidth, status)
  }

  /** No event enters or leaves the status line. */
  predicate StatusFree(evs: seq<Event>, status: StatusCaps) {
    forall i :: 0 <= i < |evs| && evs[i].Control? && evs[i].cap.name !in HandlerTable ==>
      status(evs[i].cap.name, HandlerParams(evs[i].cap, evs[i].params)).None?
  }

  /** The events of one chunk, applied in order; the first failure ends the chunk
      (`None`).  In status-line mode a chunk of plain bytes only extends the status line;
      nothing is sent without a dispatch; and only the status-line capabilities switch
      the status line on or off. */
  function ApplyEvents(t: Term, evs: seq<Event>, wide: char -> bool, tabWidth: Pos, status: StatusCaps)
    : (r: Option<Term>)
    ensures t.inStatusLine && Dispatches(evs) == 0 && ESC !in Prints(evs) ==>
              r == Some(t.(statusLine := t.statusLine + Prints(evs)))
    ensures r.Some? && Dispatches(evs) == 0 ==> r.value.sent == t.sent
    ensures r.Some? && StatusFree(evs, status) ==> r.value.inStatusLine == t.inStatusLine
    decreases |evs|
  {
    if evs == [] then
      assert t.statusLine + Prints(evs) == t.statusLine;
      Some(t)
    else
      var e := evs[0];
      assert Prints(evs) == (if e.Print? then [e.c] else []) + Prints(evs[1..]);
      assert StatusFree(evs, status) ==> StatusFree(evs[1..], status) by {
        if StatusFree(evs, status) {
          forall i | 0 <= i < |evs[1..]| && evs[1..][i].Control? && evs[1..][i].cap.name !in HandlerTable
            ensures status(evs[1..][i].cap.name, HandlerParams(evs[1..][i].cap, evs[1..][i].params)).None?
          {
            assert evs[1..][i] == evs[i + 1];
          }
        }
      }
      match ApplyEvent(t, e, wide, tabWidth, status)
      case None => None
      case Some(u) =>
        assert t.inStatusLine && Dispatches(evs) == 0 && ESC !in Prints(evs) ==>
                 u == t.(statusLine := t.statusLine + [e.c]);
        assert e.Print? ==> (t.statusLine + [e.c]) + Prints(evs[1..]) == t.statusLine + Prints(evs);
        ApplyEvents(u, evs[1..], wide, tabWidth, status)
  }

  /** Applying two runs of events one after the other is applying them together:
      the chunk loop carries no state besides the terminal. */
  lemma {:induction false} ApplyEventsConcat(t: Term, a: seq<Event>, b: seq<Event>, wide: char -> bool, tabWidth: Pos, status: StatusCaps)
    ensures ApplyEvents(t, a + b, wide, tabWidth, status)
            == match ApplyEvents(t, a, wide, tabWidth, status)
               case None => None
               case Some(u) => ApplyEvents(u, b, wide, tabWidth, status)
    decreases |a|
  {
    if a == [] {
      assert a + b == b;
    } else {
      assert (a + b)[0] == a[0] && (a + b)[1..] == a[1..] + b;
      match ApplyEvent(t, a[0], wide, tabWidth, status)
      case None =>
      case Some(u) => ApplyEventsConcat(u, a[1..], b, wide, tabWidth, status);
    }
  }

  /** `on_data(data)`: parse the chunk, then apply what the engine produced.  Every
      byte that arrived is either in an event or still held by the parser, the parser
      holds no raw ESC in its logs if it held none before, and in status-line mode a
      chunk of plain text lands in the status line unchanged. */
  function OnData<S>(g: Graph<S>, p: Parser<S>, t: Term, data: seq<char>, wide: char -> bool, tabWidth: Pos,
                     status: StatusCaps): (r: (Parser<S>, Option<Term>))
    ensures Emitted(TryParse(g, p, data).events) + Held(r.0) == Held(p) + |data|
    ensures Held(r.0) <= Held(p) + |data|
    ensures EscFree(p) ==> EscFree(r.0)
    ensures var evs := TryParse(g, p, data).events;
            t.inStatusLine && Dispatches(evs) == 0 && ESC !in Prints(evs) ==>
              r.1 == Some(t.(statusLine := t.statusLine + Prints(evs)))
  {
    var o := TryParse(g, p, data);
    (o.parser, ApplyEvents(t, o.events, wide, tabWidth, status))
  }

  /** Two chunks split where no capability has resolved leave the same parser and the
      same terminal as the joined chunk fed at once. */
  lemma OnDataStraddle<S>(g: Graph<S>, p: Parser<S>, t: Term, a: seq<char>, b: seq<char>, wide: char -> bool,
                          tabWidth: Pos, status: StatusCaps)
    requires var mid := FeedLoop(g, p, a).parser; g.getCap(mid.state, mid.params).None?
    ensures var first := OnData(g, p, t, a, wide, tabWidth, status);
            var whole := OnData(g, p, t, a + b, wide, tabWidth, status);
            && (first.1.Some? ==> whole == OnData(g, first.0, first.1.value, b, wide, tabWidth, status))
            && (first.1.None? ==> whole.0 == TryParse(g, first.0, b).parser && whole.1.None?)
  {
    TryParseStraddle(g, p, a, b);
    var fa := TryParse(g, p, a);
    ApplyEventsConcat(t, fa.events, TryParse(g, fa.parser, b).events, wide, tabWidth, status);
  }
}

=== FILE: wrappers.dfy ===
/** Failure-compatible optional values shared by every module of the model. */
module Wrappers {

  /** `None` stands for Python's `None`, a missing entry, or an error the
      source reports by leaving the result empty. */
  datatype Option<+T> = None | Some(value: T) {

    /** Returns the value in `Some`, or `default` for `None`. */
    function GetOr(default: T): T {
      match this
      case Some(v) => v
      case None => default
    }
  }
}
